=== FILE: README.md ===
# ledger-rs core, modelled in Dafny

ledger-rs reads a plain-text double-entry ledger, or imports one from
brokerage CSV exports and QFX bank files, into three tables: transaction
headers, postings and balance assertions. It then *verifies* the postings.
A posting may leave its amount out, and the verifier fills it with whatever
balances the transaction. It reports every (transaction, commodity) group
that still does not sum to zero. Reports roll balances up the account
hierarchy, and two ledgers can be compared posting by posting.

The project models that core as pure functions over immutable records:

- `Ledger` holds the records (`PostingParams`, `HeaderParams`,
  `VerificationParams`, `FinalPosting`). `Decimal` is an exact `real`.
- `Verify` is the four-step verifier as its SQL description lays it out.
  `VerifyAsWritten` is the Polars code, which differs from it.
  `Groups` holds SQL `group by` / `sum` with null semantics. `Accounts` is
  the account-hierarchy list.
- `Lexical` holds the token recognisers of the ledger grammar. `Parse` holds
  transaction statements, posting numbering and the `alt` of statements.
  `ParserState` is the file stack and statement counter.
- `Report` holds the balance roll-up. `Cmp` holds the posting comparison.
- `Import` holds what the CSV importers share. `RjCdn`, `RjCdnClosed` and
  `RjUsa` are the three CSV importers. `RjCommon` holds the account names.
  `RjDecimal` holds the amount clean-up and the sign flip.
- `Qfx` is the QFX importer.
- `Wrappers`, `Strings` and `Sorting` are shared helpers.

Several things come in as parameters rather than being modelled: the
grammar constants the parser imports from elsewhere (the account separator,
the five base account names, the cost separator, the transaction flag),
chrono's date parsers, `Decimal::from_str`/`from_str_exact`, and
`char::is_alphanumeric`.

In the parser's state (`ParserState`), overflow of u32 arithmetic and an
`unwrap` of nothing are panics in the source. The model turns them into
`Err` values. The importers' counters are unbounded in the model; see
"## Left out".

## Model

| member | source | states |
|---|---|---|
| Verify.Aggregate | ledger-rs-core/src/verify.rs:17-31 | one group per (transaction, tc commodity) that occurs with a present commodity, in key order, each holding the negated SQL sum of its tc quantities; no group has a null commodity |
| Groups.GroupBy | ledger-rs-core/src/verify.rs:19-31 | grouping yields exactly the keys that occur, once each, in strictly increasing key order, each with the SQL sum of its rows |
| Groups.SqlSumPresent | ledger-rs-core/src/verify.rs:23-23 | a SQL sum is null exactly when the group has no non-null quantity |
| Groups.SqlSumPermutation | ledger-rs-core/src/verify.rs:77-80 | a group's sum does not depend on the order of the rows |
| Verify.Detect | ledger-rs-core/src/verify.rs:34-46 | the flags are exactly the rank-1 groups with a non-zero sum, one per transaction, ordered by transaction |
| Verify.RankOneIsFirst | ledger-rs-core/src/verify.rs:19-20 | in key order, a group has row number 1 exactly when it is the first group of its transaction |
| Verify.MinCommodity | ledger-rs-core/src/verify.rs:19-20 | the lowest stated tc commodity of a transaction, absent exactly when none is stated |
| Verify.DetectMatchesExpected | ledger-rs-core/src/verify.rs:34-46 | a transaction is flagged exactly when the group of its lowest commodity sums to non-zero, with that commodity and the negated sum; no commodity stated means no flag |
| Verify.NoFlagWithoutCommodity | ledger-rs-core/src/verify.rs:26-27 | a transaction with no stated tc commodity gets no flag |
| Verify.Fill | ledger-rs-core/src/verify.rs:49-58 | a present cp/tc field is kept; an absent quantity takes the flag's sum and an absent commodity the flag's commodity; without a flag the posting passes through unchanged |
| Verify.FillElided | ledger-rs-core/src/verify.rs:55-58 | a fully elided posting gets cp and tc both from one flag: its commodity and its sum |
| Verify.FillComplete | ledger-rs-core/src/verify.rs:55-58 | a posting with all four fields is not changed by any flag |
| Verify.LeftJoinOneRowEach | ledger-rs-core/src/verify.rs:59-64 | with at most one flag per transaction, the left join gives each posting exactly one row, filled from its transaction's flag |
| Verify.Resolve | ledger-rs-core/src/verify.rs:49-66 | the final postings are a permutation of the filled postings, sorted by (transaction, statement number) |
| Verify.Validate | ledger-rs-core/src/verify.rs:69-82 | the errors are exactly the final (transaction, tc commodity) groups whose sum is non-zero, in key order |
| Verify.VerifyPostings | ledger-rs-core/src/verify.rs:14-85 | the final postings keep every input posting exactly once, filled by the documented rule and sorted; the errors are exactly the unbalanced final groups, in strictly increasing (transaction, commodity) order |
| Verify.SingleElisionBalances | ledger-rs-core/src/verify.rs:49-58 | in a flagged transaction where exactly one posting lacks its tc fields, the flagged commodity sums to zero afterwards and is not reported |
| Verify.UnflaggedPassThrough | ledger-rs-core/src/verify.rs:59-66 | the postings of an unflagged transaction come out unchanged, and nothing else of that transaction does |
| Verify.AccountsOfPermutation | ledger-rs-core/src/verify.rs:49-66 | the final postings carry exactly the input postings' accounts |
| Verify.VerifyLedger | ledger-rs-core/src/verify.rs:86-149 | `verify` fails exactly when there are no postings; otherwise it gives the verified postings and errors and the list of every account prefix |
| Accounts.Ancestors | ledger-rs-core/src/verify.rs:164-186 | an account's prefixes are its first n components joined by the separator, for every n from 1 to the component count |
| Accounts.AncestorsAreAbove | ledger-rs-core/src/verify.rs:178-186 | a string is among an account's prefixes exactly when it is the account or a component-wise ancestor of it |
| Accounts.AccountList | ledger-rs-core/src/verify.rs:159-200 | fails with no data exactly when there are no accounts; otherwise strictly sorted, hence without duplicates, and holds exactly the prefixes of the posted accounts |
| VerifyAsWritten.Balancing | ledger-rs-core/src/verify.rs:97-107 | the code keeps every group with a non-zero total as a flag, not only the rank-1 group |
| VerifyAsWritten.AsWrittenErrors | ledger-rs-core/src/verify.rs:135-143 | the code reports the groups whose total is non-zero or whose commodity is null, with a null total counted as 0 |
| VerifyAsWritten.AsWrittenVerify | ledger-rs-core/src/verify.rs:97-143 | the code's final postings hold at least one row per input posting; every row is one input posting filled from a non-zero group of its transaction, or carried unchanged when its transaction has none, and every such fill or carry appears; its errors are those of the final postings |
| VerifyAsWritten.TwoUnbalancedCommoditiesDuplicate | ledger-rs-core/src/verify.rs:105-107 | a transaction with two commodities that do not balance makes the code's final table longer than its input |
| VerifyAsWritten.DuplicationExample | ledger-rs-core/src/verify.rs:105-107 | on three concrete postings, the code duplicates rows while the documented pipeline keeps three |
| VerifyAsWritten.NullCommodityReported | ledger-rs-core/src/verify.rs:142-142 | every final posting without a tc commodity yields a null-commodity error row in the code |
| Lexical.DecimalLength | ledger-rs-core/src/parse.rs:134-141 | fails exactly when no digit follows the optional `-`; otherwise consumes a decimal-shaped prefix that stops before a non-digit, and leaves a `.` and digit unconsumed only when the fraction was already taken |
| Lexical.DecimalLengthWhole | ledger-rs-core/src/parse.rs:134-141 | a text is an optional `-`, digits, and optionally `.` and digits, exactly when the recogniser consumes all of it |
| Lexical.DecimalString | ledger-rs-core/src/parse.rs:134-141 | `decimal_string` consumes a decimal-shaped prefix and returns what the decimal reader makes of it; it fails only when either step fails |
| Lexical.Commodity | ledger-rs-core/src/parse.rs:143-150 | consumes the longest non-empty run of uppercase ASCII letters, digits and `_`; fails exactly when the input does not start with one |
| Lexical.BaseLength | ledger-rs-core/src/parse.rs:77-86 | consumes the first base account name, in list order, that the input starts with; fails exactly when none does |
| Lexical.FullAccountAccepts | ledger-rs-core/src/parse.rs:77-101 | an account is accepted exactly when the input starts with a base name, no earlier base name in the list matches, and the separator and a name character follow that name |
| Lexical.FullAccountMaximal | ledger-rs-core/src/parse.rs:96-101 | an accepted account stops only at the end of the input or before a character that neither continues the name nor opens another separator-and-name sub-account |
| Lexical.FullAccountIsAccount | ledger-rs-core/src/parse.rs:77-101 | the consumed account text is a base name followed by one or more separator-joined names of name characters |
| Lexical.DateString | ledger-rs-core/src/parse.rs:65-75 | accepts exactly ten characters of the shape DDDD-DD-DD that name a valid calendar date |
| Lexical.DateRoundTrip | ledger-rs-core/src/parse.rs:65-75 | a valid date written as YYYY-MM-DD is read back as the same date, consuming ten characters |
| Lexical.Tag | ledger-rs-core/src/parse.rs:117-122 | a tag is `#` followed by the longest non-empty run of alphanumerics, and its text is what was consumed; fails exactly when the input does not start with `#` and an alphanumeric |
| Lexical.Tags | ledger-rs-core/src/parse.rs:124-127 | a tag list is one or more tags, each `#` plus alphanumerics; it fails exactly when the text does not start with a tag, and stops only at the end of the text or where no space and tag follow |
| Lexical.TagsText | ledger-rs-core/src/parse.rs:124-127 | joining the tags with single spaces gives back exactly the consumed text |
| Lexical.TagList | ledger-rs-core/src/parse.rs:124-127 | `tag_list` fails exactly when the text does not start with a tag; otherwise it consumes the same text as Tags, ending only where no further space and tag follow |
| Lexical.OptPosition | ledger-rs-core/src/parse.rs:157-163 | an optional position has quantity and commodity both present or both absent; absent consumes nothing |
| Lexical.OptCommodityPosition | ledger-rs-core/src/parse.rs:157-163 | quantity and commodity are both present or both absent |
| Lexical.OptTotalCost | ledger-rs-core/src/parse.rs:178-184 | total-cost quantity and commodity are both present or both absent |
| Parse.Comment | ledger-rs-core/src/parse.rs:111-115 | a comment is `;` and the longest run of characters up to a line break |
| Parse.QuotedString | ledger-rs-core/src/parse.rs:103-105 | a narration is a non-empty run of non-quote characters between two quotes |
| Parse.OptTagList | ledger-rs-core/src/parse.rs:129-132 | tags are present exactly when spaces are followed by a tag list |
| Parse.HeaderLine | ledger-rs-core/src/parse.rs:306-318 | a header line starts with a date and carries that date; its narration is a quoted string read after the date and flag, and its tags are what `opt_tag_list` reads right after that string |
| Parse.PostingLine | ledger-rs-core/src/parse.rs:334-344 | a posting line starts with two spaces and carries the account read after them; its cost is what `opt_commodity_position` reads right after the account, and its total cost what `opt_total_cost` reads right after that |
| Parse.LineEnding | ledger-rs-core/src/parse.rs:366-374 | a line ending is `\n` (one character) or `\r\n` (two) |
| Parse.SeparatedLines | ledger-rs-core/src/parse.rs:370-370 | one or more items separated by line endings, at strictly increasing positions inside the consumed span; fails exactly when the first item fails |
| Parse.HeadedLines | ledger-rs-core/src/parse.rs:366-374 | a header, a line ending and one or more lines at strictly increasing positions after the header |
| Parse.Header | ledger-rs-core/src/parse.rs:306-332 | a header takes the next statement number, makes it the current transaction number, and appends a header with its date, narration, tags and span |
| Parse.Posting | ledger-rs-core/src/parse.rs:334-364 | a posting takes the next statement number and the current transaction number; its tc fields are its cp fields unless a total cost is given, in which case they are the cost |
| Parse.PostingsNumbered | ledger-rs-core/src/parse.rs:366-374 | the postings of a transaction all carry its number, and their statement numbers increase past the header's |
| Parse.TransactionNumbering | ledger-rs-core/src/parse.rs:366-374 | parsing a transaction appends one header and one posting per line; each posting's transaction number is the header's statement number, which is smaller than its own |
| Parse.TransactionAttempt | ledger-rs-core/src/parse.rs:306-374 | given what the recognisers found: without a header line nothing changes; without a whole statement nothing is consumed, yet a recognised header still adds one header row and no posting |
| Parse.TransactionHeader | ledger-rs-core/src/parse.rs:366-374 | the whole statement the grammar recognises starts with the header line it recognises, at the same offset |
| Parse.TransactionAtomic | ledger-rs-core/src/parse.rs:366-374 | a transaction that is not there leaves the session as it was; one that is records header and postings together |
| Parse.AttemptIsAtomicWhenComplete | ledger-rs-core/src/parse.rs:366-374 | when the whole transaction is present, the code and the all-or-nothing version agree |
| Parse.HeaderSurvivesFailedTransaction | ledger-rs-core/src/parse.rs:306-374 | a recognised header with no statement after it: both versions consume nothing, but the code's session differs from the unchanged one the all-or-nothing version keeps |
| Parse.HeaderWithoutPostings | ledger-rs-core/src/parse.rs:366-374 | a header line at the end of the text, or followed by a line ending and a line not starting with two spaces, is no transaction |
| Parse.AsU32 | ledger-rs-core/src/parse.rs:319-319 | `as u32` keeps a position that fits in 32 bits and wraps a larger one |
| Parse.TillLineEnding | ledger-rs-core/src/parse.rs:463-466 | the fall-back statement consumes line characters up to a line ending or the end of input, and fails on a lone `\r` |
| Parse.ActiveStatement | ledger-rs-core/src/parse.rs:468-484 | the first alternative that accepts decides; when none accepts, the rest of the line is consumed |
| Parse.ActiveStatementFallsThrough | ledger-rs-core/src/parse.rs:463-484 | any line that ends properly is accepted by some statement |
| Parse.FirstAccepting | ledger-rs-core/src/parse.rs:468-484 | when an alternative accepts, there is a first one that does |
| ParserState.New | ledger-rs-core/src/state.rs:33-49 | a new state has no current file and counter 0 |
| ParserState.FileNo | ledger-rs-core/src/state.rs:81-88 | no file number on an empty stack, otherwise the top of the stack |
| ParserState.Insert | ledger-rs-core/src/state.rs:51-59 | a new path gets the next file number, is appended to the known paths, is pushed as current and has previous position 0; a known path changes nothing |
| ParserState.InsertValid | ledger-rs-core/src/state.rs:51-59 | insertion keeps paths, numbers, stack and positions consistent |
| ParserState.InsertMakesCurrent | ledger-rs-core/src/state.rs:51-59 | after inserting a new path, it is the current file |
| ParserState.StatementNo | ledger-rs-core/src/state.rs:61-70 | advances the counter by the distance from the current file's previous position, records the position and returns the new counter, leaving paths, numbers and stack alone; fails on an empty stack or u32 overflow or underflow |
| ParserState.FinishedInclude | ledger-rs-core/src/state.rs:90-99 | advances the counter by the included file's length past its last position, records it, and pops the file-number stack only; the known paths stay |
| ParserState.AdvanceValid | ledger-rs-core/src/state.rs:61-99 | `statement_no` and `finished_include` keep the state consistent |
| ParserState.IncludeSplice | ledger-rs-core/src/state.rs:61-99 | an included file's statements are numbered as if its text stood at the include, and the includer continues after it |
| ParserState.CurrentFilepath | ledger-rs-core/src/state.rs:72-79 | the code indexes the never-popped path list by the stack depth: none on an empty stack, a panic when the list is shorter |
| ParserState.CurrentFilepathAfterSiblingInclude | ledger-rs-core/src/state.rs:72-79 | after one include has finished and a second begins, the code names the first included file, not the current one |
| ParserState.CurrentFilepathFixed | ledger-rs-core/src/state.rs:72-79 | the path of the file on top of the stack: its number is the current file number |
| ParserState.FinishedIncludeRestoresCurrent | ledger-rs-core/src/state.rs:90-99 | finishing an include of a new file makes the includer current again |
| ParserState.ReincludePopsIncluder | ledger-rs-core/src/state.rs:51-59 | including a known file pushes nothing, so finishing it pops the includer |
| ParserState.InsertFixed | ledger-rs-core/src/state.rs:51-59 | every include pushes the file's number, whether or not the path was known |
| ParserState.InsertFixedRestoresStack | ledger-rs-core/src/state.rs:51-99 | with every include pushed, finishing one restores the includer's stack and current file |
| Report.GetBalances | ledger-rs-core/src/report.rs:25-62 | exactly one row per listed account and commodity that has a matching total, holding the roll-up, sorted by account then commodity |
| Report.TcBalances | ledger-rs-core/src/report.rs:17-19 | tc balances read the final tc columns, with the raw string-prefix roll-up, sorted strictly by (account, commodity) |
| Report.CpBalances | ledger-rs-core/src/report.rs:21-23 | cp balances read the final cp columns, with the raw string-prefix roll-up, sorted strictly by (account, commodity) |
| Report.RollUpIsDirectSum | ledger-rs-core/src/report.rs:30-59 | the total of a row is the sum, over final postings of the commodity, of those whose account rolls up into the row's account |
| Report.SiblingRolledUp | ledger-rs-core/src/report.rs:43-47 | "Assets:Cash" collects a posting to "Assets:CashBack", which is not beneath it |
| Report.HierarchicalRollUp | ledger-rs-core/src/report.rs:43-47 | with a component-wise roll-up, a row's total counts only postings to the account itself or to accounts beneath it |
| Report.SiblingNotRolledUp | ledger-rs-core/src/report.rs:43-47 | with a component-wise roll-up, "Assets:Cash" gets nothing from "Assets:CashBack" |
| Cmp.Need | ledger-rs-core/src/cmp.rs:17-21 | a missing table is the given error; a present one is passed on |
| Cmp.DatesOf | ledger-rs-core/src/cmp.rs:23-31 | a posting's dates are those of the headers whose statement number equals its transaction number |
| Cmp.JoinOne | ledger-rs-core/src/cmp.rs:23-31 | the left join gives a posting one row per matching date, or one row without a date |
| Cmp.EnrichSound | ledger-rs-core/src/cmp.rs:23-40 | every enriched row comes from a posting and a matching header, or from a posting that has none |
| Cmp.EnrichMatched | ledger-rs-core/src/cmp.rs:23-31 | a posting with a matching header gets a row with that header's date |
| Cmp.EnrichUnmatched | ledger-rs-core/src/cmp.rs:23-31 | a posting without a matching header still gets a row, without a date |
| Cmp.EnrichOnePerPosting | ledger-rs-core/src/cmp.rs:23-40 | with unique statement numbers, each posting gives exactly one row, in order, keyed by its own columns |
| Cmp.MatchesIsKeyedEqual | ledger-rs-core/src/cmp.rs:62-82 | two keys match exactly when they are equal and have no null field |
| Cmp.AntiJoin | ledger-rs-core/src/cmp.rs:62-82 | the left-anti join keeps exactly the rows whose key matches no key of the other side |
| Cmp.AntiJoinCounts | ledger-rs-core/src/cmp.rs:62-82 | a kept row keeps all its copies; a matched row keeps none |
| Cmp.ComparePostings | ledger-rs-core/src/cmp.rs:16-88 | fails on a missing transactions table, else on a missing postings table; otherwise gives exactly the first ledger's rows that match no row of the second on date, account and final positions, each as many times as the first ledger holds it |
| Cmp.CompareWithItself | ledger-rs-core/src/cmp.rs:62-82 | compared with itself, a ledger keeps only the rows with a null key field |
| Cmp.SameKeySameFate | ledger-rs-core/src/cmp.rs:32-40 | the transaction number is not compared: rows with the same key are kept or dropped together |
| Import.ToPosting | ledger-rs-csv/src/rj_cdn.rs:246-266 | a numbered posting carries the account and both optional pairs, split into columns that are present together |
| Import.Number | ledger-rs-csv/src/rj_cdn.rs:243-268 | postings are numbered consecutively from the first number, all in one transaction |
| Import.Store | ledger-rs-csv/src/rj_cdn.rs:224-268 | one number is drawn for the header even when there are no postings; then the header takes it and the postings the next ones, all carrying it as transaction number |
| Import.StoreWellNumbered | ledger-rs-csv/src/rj_cdn.rs:224-268 | storing a record keeps numbers increasing, below the counter, and every posting after a stored header with its transaction number |
| RjCdn.SecPosition | ledger-rs-csv/src/rj_cdn.rs:54-62 | the security is the description's symbol, or "UNKNOENSEC" when it has none, with the record's quantity |
| RjCdn.Cost | ledger-rs-csv/src/rj_cdn.rs:64-72 | the cost is \|price × quantity\| in the account currency |
| RjCdn.Transfer | ledger-rs-csv/src/rj_cdn.rs:74-97 | cash only if the amount is non-zero, the security at cost only if the quantity is non-zero, then an elided TODO: one to three postings |
| RjCdn.BuyPosts | ledger-rs-csv/src/rj_cdn.rs:99-111 | the security with cost \|amount\|, then the cash amount |
| RjCdn.BuyBalances | ledger-rs-csv/src/rj_cdn.rs:99-111 | a purchase paid in cash balances: its cost and its cash movement cancel |
| Import.CashPosts | ledger-rs-csv/src/rj_cdn.rs:113-122 | a cash movement is two postings: the cash position, which is not elided, then the target account elided for the verifier |
| RjCdn.CashTransaction | ledger-rs-csv/src/rj_cdn.rs:113-122 | exactly two postings: the cash amount, then the target account elided |
| RjCdn.SellPosts | ledger-rs-csv/src/rj_cdn.rs:124-140 | the security, the cash, then an elided gain/loss |
| RjCdn.Reinvestment | ledger-rs-csv/src/rj_cdn.rs:142-160 | the security at cost, then the income account with the negated cost |
| RjCdn.ReinvestmentBalances | ledger-rs-csv/src/rj_cdn.rs:142-160 | the two postings of a reinvestment cancel |
| RjCdn.Posts | ledger-rs-csv/src/rj_cdn.rs:186-222 | no postings exactly for a return of capital; only the last posting may be elided; a US cash dividend is in USD; each cash type is the cash position followed by its elided booking account (dividends, fees and taxes, to-do, distribution, foreign tax, capital gains, interest); every kind of sale ends in an elided gain/loss; a buy, spin-off or stock split is the security then the cash; an internal transfer ends in the elided to-do account; a reinvested dividend is the security then the dividend account |
| RjCdn.StoreTransaction | ledger-rs-csv/src/rj_cdn.rs:162-272 | an unreadable settlement date is an error; otherwise the record's postings are stored with the "type:description" narration |
| RjCdn.StoreTransactionNumbering | ledger-rs-csv/src/rj_cdn.rs:224-268 | a return of capital stores no header; any other record stores a header numbered with the drawn number and postings numbered after it in that transaction |
| RjCdn.StoreBalance | ledger-rs-csv/src/rj_cdn.rs:416-472 | one balance assertion per holding: on the cash account in the fund or account currency for cash, otherwise on the securities account in the symbol |
| RjCdn.BalanceOnImportedAccount | ledger-rs-csv/src/rj_cdn.rs:422-431 | a holding's assertion names the same cash or securities account that a purchase in that account posts to |
| RjCdnClosed.CashPosition | ledger-rs-csv/src/rj_cdn_closed.rs:59-64 | the cash movement is the amount with its sign reversed |
| RjCdnClosed.SecPosition | ledger-rs-csv/src/rj_cdn_closed.rs:66-75 | the security is the symbol, or "UNKNOWNSEC" when it is empty |
| RjCdnClosed.Cost | ledger-rs-csv/src/rj_cdn_closed.rs:77-82 | the cost is the cost column made non-negative |
| RjCdnClosed.Transfer | ledger-rs-csv/src/rj_cdn_closed.rs:84-97 | exactly two postings: cash when the symbol is empty, else the security at cost, then an elided TODO |
| RjCdnClosed.BuyPosts | ledger-rs-csv/src/rj_cdn_closed.rs:99-111 | no postings exactly when the symbol is empty; else the security at cost, then the cash |
| RjCdnClosed.BuyBalances | ledger-rs-csv/src/rj_cdn_closed.rs:99-111 | a purchase whose amount paid equals its cost balances: the cost and the reversed cash amount cancel |
| RjCdnClosed.CashTransaction | ledger-rs-csv/src/rj_cdn_closed.rs:113-122 | exactly two postings: the cash, then the target elided |
| RjCdnClosed.Dividend | ledger-rs-csv/src/rj_cdn_closed.rs:124-140 | nothing exactly when amount and cost are both zero; the security at cost plus elided income when only the cost is non-zero; cash plus elided income otherwise |
| RjCdnClosed.SellPosts | ledger-rs-csv/src/rj_cdn_closed.rs:142-153 | no postings exactly when the symbol is empty; else the security, the cash and an elided gain/loss |
| RjCdnClosed.Posts | ledger-rs-csv/src/rj_cdn_closed.rs:176-191 | no postings exactly for a buy or sale without a symbol or a dividend with neither amount nor cost; only the last posting may be elided; a US dividend is in USD; CN, CR and EFT move cash against the to-do account and GST, QST, TFE, VFN and VFR against fees; ATI and TSF end in the elided to-do account, DVR and DVU in the dividend account, SEL in the gain/loss account; a BUY is the security then the cash |
| RjCdnClosed.CommodityLine | ledger-rs-csv/src/rj_cdn_closed.rs:237-239 | a commodity line is written exactly when the trimmed symbol is not empty |
| RjCdnClosed.StoreClosedTransaction | ledger-rs-csv/src/rj_cdn_closed.rs:155-242 | an unreadable settlement date is an error; otherwise the postings are stored with the trimmed "type - description" narration |
| RjCdnClosed.StoreClosedNumbering | ledger-rs-csv/src/rj_cdn_closed.rs:193-235 | an empty posting list stores no header but uses a number; otherwise one header with the drawn number and its postings after it |
| RjUsa.SecPosition | ledger-rs-csv/src/rj_usa.rs:84-106 | the quantity is read after removing `$` and `,`; when it does not read, it is 0 and the symbol becomes "Error", the raw quantity, a space and the symbol |
| RjUsa.Cost | ledger-rs-csv/src/rj_usa.rs:108-112 | the cost is \|amount\| |
| RjUsa.Transfer | ledger-rs-csv/src/rj_usa.rs:114-127 | exactly two postings: cash when the symbol is empty, else the security at cost, then an elided TODO |
| RjUsa.BuyPosts | ledger-rs-csv/src/rj_usa.rs:129-141 | no postings exactly when the symbol is empty; else the security at cost, then the cash |
| RjUsa.BuyBalances | ledger-rs-csv/src/rj_usa.rs:129-141 | a purchase paid in cash balances: its cost and its cash movement cancel |
| RjUsa.CashTransaction | ledger-rs-csv/src/rj_usa.rs:143-152 | exactly two postings: the cash, then the target elided |
| RjUsa.SellPosts | ledger-rs-csv/src/rj_usa.rs:154-167 | no postings exactly when the symbol is empty; else the security with its quantity forced negative, the cash and an elided gain/loss |
| RjUsa.FirstMatch | ledger-rs-csv/src/rj_usa.rs:190-223 | the action of the first prefix, in table order, that starts the description; none exactly when no prefix does |
| RjUsa.FirstMatchAt | ledger-rs-csv/src/rj_usa.rs:190-223 | the first prefix that matches decides, whatever later prefixes match |
| RjUsa.BuyBeforeSell | ledger-rs-csv/src/rj_usa.rs:190-196 | a description starting with "BUY " is a purchase |
| RjUsa.Posts | ledger-rs-csv/src/rj_usa.rs:190-223 | no matching prefix yields no postings; only the last posting may be elided; fees, dividends, foreign tax, long- and short-term gains and rollovers are the cash position followed by their elided booking account; a sale ends in the gain/loss account and a transfer in the to-do account; a purchase is the security then the cash |
| RjUsa.StoreUsTransaction | ledger-rs-csv/src/rj_usa.rs:169-284 | a settlement date that is not mm-dd-yyyy clears the postings, so only a number is used and no header stored; otherwise the postings are stored with the trimmed "description-details" narration |
| RjCommon.AcctCash | ledger-rs-csv/src/rj_common.rs:7-11 | "Assets:Investments:owner:account:Cash" |
| RjCommon.AcctSecurities | ledger-rs-csv/src/rj_common.rs:13-17 | "Assets:Investments:owner:account:Securities" |
| RjCommon.AcctTodo | ledger-rs-csv/src/rj_common.rs:19-23 | "Assets:Investments:owner:TODO" |
| RjCommon.IncomePrefix | ledger-rs-csv/src/rj_common.rs:25-80 | every income account starts with "Income:Investments:owner:Taxable:" |
| RjCommon.ExpensePrefix | ledger-rs-csv/src/rj_common.rs:58-68 | fees and foreign tax start with "Expenses:Investments:owner" |
| RjCommon.AssetPrefix | ledger-rs-csv/src/rj_common.rs:7-23 | cash, securities and TODO start with "Assets:Investments:owner:" |
| RjCommon.AccountNamesDistinct | ledger-rs-csv/src/rj_common.rs:7-80 | for one owner and account number, the twelve names are pairwise distinct |
| RjDecimal.ReverseSign | ledger-rs-csv/src/rj_decimal.rs:17-25 | `reverse_sign(d)` is -d, a zero of either sign included |
| RjDecimal.ReverseSignInvolution | ledger-rs-csv/src/rj_decimal.rs:17-25 | reversing twice restores the decimal, sign flag included |
| RjDecimal.ReverseSignCancels | ledger-rs-csv/src/rj_decimal.rs:17-25 | d + reverse_sign(d) is 0 |
| RjDecimal.SetSignPositiveIsAbs | ledger-rs-csv/src/rj_usa.rs:108-112 | `set_sign_positive(true)` yields the absolute value |
| RjDecimal.SetSignNegativeIsMinusAbs | ledger-rs-csv/src/rj_usa.rs:159-161 | `set_sign_negative(true)` yields minus the absolute value |
| RjDecimal.Strip | ledger-rs-csv/src/rj_decimal.rs:11-12 | the stripped column has no `$` or `,` and every other character of the column |
| RjDecimal.StripIsFilter | ledger-rs-csv/src/rj_decimal.rs:11-12 | stripping keeps every other character in order: it is a one-pass filter |
| RjDecimal.StripIdempotent | ledger-rs-csv/src/rj_decimal.rs:11-12 | stripping twice is stripping once |
| Qfx.Narration | ledger-rs-qfx/src/qfx.rs:263-270 | "name / memo" when both are present, whichever is present when one is, "PROBLEM" when neither is |
| Qfx.FirstFrom | ledger-rs-qfx/src/qfx.rs:365-375 | the first line at or after a position that opens the OFX data, absent exactly when none does |
| Qfx.CaptureFrom | ledger-rs-qfx/src/qfx.rs:363-375 | drops the lines before the first one that opens the OFX data and keeps it and everything after; nothing when no line does |
| Qfx.GetOfxData | ledger-rs-qfx/src/qfx.rs:360-379 | the kept lines joined by "\n", the empty string when no line opens the data |
| Qfx.FromQfxDatetime | ledger-rs-qfx/src/qfx.rs:473-479 | a date is read from the first eight characters; a shorter value fails instead of panicking |
| Qfx.EncodingChoice | ledger-rs-qfx/src/qfx.rs:406-415 | only the string "1252" selects WINDOWS_1252; anything else, or nothing, selects none |
| Qfx.EntriesToBk | ledger-rs-qfx/src/qfx.rs:237-242 | one transaction per entry, in order, in the statement's account and currency |
| Qfx.StatementToBk | ledger-rs-qfx/src/qfx.rs:199-208 | a statement appends one entry per transaction, in order, on the statement's account and currency with the posted date, the name/memo narration and the amount, then exactly one balance; what was there before is kept |
| Qfx.OneBalancePerStatement | ledger-rs-qfx/src/qfx.rs:165-170 | one balance per statement, in processing order, with that statement's account and amount |
| Qfx.OfxToBkIsStatements | ledger-rs-qfx/src/qfx.rs:120-128 | the bank statements are processed in list order, then the credit-card statement |
| Qfx.NumberImport | ledger-rs-qfx/src/qfx.rs:420-466 | transactions become a header and one posting both numbered from 1, with cp = tc = (amount, currency) on the mapped account; balances continue the count |
| Qfx.NumbersConsecutive | ledger-rs-qfx/src/qfx.rs:420-466 | the numbers the import hands out are exactly 1, 2, … in order, hence unique and increasing |
| Qfx.ParseQfxFile | ledger-rs-qfx/src/qfx.rs:399-469 | one balance assertion per statement with its mapped account and amount, and one header and one posting per entry |

## Left out

- Polars, Arrow and DataFusion: the model keeps the relational meaning of each query, not the data-frame machinery. This covers the Arrow conversion in `verify`, lazy frames and the `show()` calls in `compare_postings`.
- `Decimal(PRECISION, SCALE)` casts and the `-1.0` float literal: negation is exact in the model.
- `rescale(3)` in the importers is taken to keep the value, assuming at most three decimal places.
- Cmp.ComparePostings: states which rows the result holds and how many copies of each (each unmatched row as often as the first ledger has it), but not their order, which the DataFusion join does not fix.
- Verify.Resolve and Report.GetBalances: the sort is stated as sortedness plus a permutation (or exact row set). A sort that is not stable may order equal keys differently.
- Report.GetBalances: requires the account and commodity lists to be free of duplicates. The source builds both with `unique`.
- ParserState.CurrentFilepathFixed: requires every stacked file number to name a known path, which every state the parser reaches satisfies.
- `is_alphanumeric` (Unicode) is a parameter of the grammar. So are the account separator, the five base account names, the cost separator and the transaction flag. Their values are defined in files outside this model.
- chrono's date parsers in the importers and `Decimal::from_str`/`from_str_exact` are parameters. The ledger's own date shape DDDD-DD-DD and calendar validity are modelled, assuming DATE_FORMAT is `%Y-%m-%d`.
- The other statement parsers (open, close, balance, include, event, option, custom) enter only as the alternatives of `active_statement`. The file loading of `include_statement` is I/O.
- `get_contents`, `parse_filename`, CSV deserialisation, the commodity-file `write!`, `load_symbols`/`load_accounts`, the SGML parse and the byte decoding of QFX files are I/O and are not modelled. The encoding's effect on the text is not modelled either; only the choice of encoding is.
- `fetch_add` on the shared line counter is atomic only by type. It is modelled as a plain counter.
- Parse.TillLineEnding: a lone `\r` in the middle of a line is modelled as winnow's `till_line_ending` treats it, as a failure.
- The QFX count restarts at 1 even when the ledger tables already hold rows. The model states this as it is.
- Qfx.FromQfxDatetime: a value shorter than eight characters is an error here. The source's `&s[0..8]` panics on it; a multi-byte character inside the first eight bytes would also panic there, and strings here are sequences of characters.
- The two trees of `state/report.rs`, `rj_core.rs`, `rj_symbols.rs` and `main.rs` are not part of this model. `InterPost` and `Position` take the shape their uses give them.
- Positions: the source's spans and offsets count UTF-8 bytes of the file. The model counts characters, which agree on ASCII text only.
- ParserState.StatementNo: u32 overflow or underflow is an `Err`, as in a build with overflow checks, where it panics. A release build wraps around silently, and that is not modelled.
- ParserState.FinishedInclude: the same holds for its u32 additions.
- ParserState.Insert: file paths are compared as text. The source keys `input_files` by `PathBuf`, whose equality compares path components: repeated separators, a trailing separator and a `.` component other than a leading one do not count. So `dir/./a.ledger` after `dir/a.ledger` is a known file there, and pushes nothing, but a new file here.
- Import.Store: the shared line counter is an unbounded `nat`. The source's `fetch_add` on a u32 counter wraps around after 2^32 numbers, and after that transaction numbers would repeat; StoreWellNumbered's increasing numbers hold only below that bound, which is not modelled.
- Qfx.NumberImport: `count` is an unbounded `nat`. The source's `count + 1` is a u32 addition that overflows after 2^32 rows; NumbersConsecutive's distinct numbers hold only below that bound, which is not modelled.
- Where the SQL description in `verify.rs` and the Polars code differ, `Verify` follows the description and `VerifyAsWritten` the code. The code keeps every non-zero group rather than only the rank-1 one, does not sort the final postings, reports null-commodity groups, and sums an all-null group to 0.

## Findings

| source | as written | input that shows it | evidently intended | confidence | as-written member | corrected member |
|---|---|---|---|---|---|---|
| ledger-rs-core/src/verify.rs:105-107 | the second `group_by`/`first` keeps every non-zero (transaction, commodity) group, so a transaction with two unbalanced commodities joins each posting to two rows | one transaction: 100 USD, 5 EUR and one elided posting; the final table has more than three rows | one flag per transaction, the lowest-code group, as the SQL description says; every posting appears once | not executed | VerifyAsWritten.DuplicationExample | Verify.VerifyPostings |
| ledger-rs-core/src/state.rs:72-79 | `get_current_filepath` indexes the list of all paths ever seen by the depth of the file stack | main includes a, a finishes, main includes b: the code answers "a" while b is being parsed | the path of the file on top of the stack | not executed | ParserState.CurrentFilepathAfterSiblingInclude | ParserState.CurrentFilepathFixed |
| ledger-rs-core/src/state.rs:51-59 | `insert` of a path seen before pushes nothing, yet `finished_include` still pops | main includes a, a finishes, main includes a again; finishing it pops main and leaves no current file | every include pushes the file's number, so finishing it restores the includer | not executed | ParserState.ReincludePopsIncluder | ParserState.InsertFixedRestoresStack |
| ledger-rs-core/src/report.rs:43-47 | the roll-up matches accounts by raw string prefix | a posting of 10 USD to "Assets:CashBack" is counted in the balance of "Assets:Cash" | an account collects only itself and the accounts beneath it, component-wise | not executed | Report.SiblingRolledUp | Report.HierarchicalRollUp |
| ledger-rs-core/src/parse.rs:306-374 | `transaction_header` pushes the header, sets `transaction_no` and advances the statement counter before `line_ending` and the postings are tried; `alt` resets only the input on failure, not the state | `2024-01-01 * "x"` followed by two line endings: no posting follows, the line is left to a later alternative, yet a header row without postings is recorded | a header is recorded only together with its postings | not executed | Parse.HeaderSurvivesFailedTransaction | Parse.TransactionAtomic |

=== FILE: accounts.dfy ===
/** The account hierarchy the verifier lists after balancing
    (`get_accounts_df`, ledger-rs-core/src/verify.rs:159-200): every posted
    account and every account above it, split and re-joined at the account
    separator, without duplicates, in order. */
module Accounts {
  import opened Wrappers
  import Strings
  import Sorting

  /** `PolarsError::NoData("No Accounts Found")`. */
  datatype AccountsError = NoData

  lemma LessIsStrictTotal()
    ensures Sorting.StrictTotalOrder(Strings.Less)
  {
    forall a: string
      ensures !Strings.Less(a, a)
    {
      Strings.LessIrreflexive(a);
    }
    forall a: string, b: string, c: string | Strings.Less(a, b) && Strings.Less(b, c)
      ensures Strings.Less(a, c)
    {
      Strings.LessTransitive(a, b, c);
    }
    forall a: string, b: string
      ensures a == b || Strings.Less(a, b) || Strings.Less(b, a)
    {
      Strings.LessTrichotomous(a, b);
    }
  }

  /** The first `n` components of `a`, re-joined: `list().slice(0, n)` then
      `list().join(sep)`. */
  function Ancestor(a: string, sep: char, n: nat): string
    requires 1 <= n <= |Strings.Split(a, sep)|
  {
    Strings.Join(Strings.Split(a, sep)[..n], [sep])
  }

  /** The accounts a posted account contributes: itself and each of its
      component prefixes. */
  function Ancestors(a: string, sep: char): (r: seq<string>)
    ensures |r| == |Strings.Split(a, sep)|
    ensures forall n :: 0 <= n < |r| ==> r[n] == Ancestor(a, sep, n + 1)
  {
    var parts := Strings.Split(a, sep);
    seq(|parts|, n requires 0 <= n < |parts| => Ancestor(a, sep, n + 1))
  }

  /** `s` names `a` or an account above it: `a` itself, or `a` continuing
      past `s` with a separator. */
  predicate Above(s: string, a: string, sep: char) {
    s == a || Strings.StartsWith(a, s + [sep])
  }

  /** The ancestors of `a` are exactly the strings above it in the
      separator sense. */
  lemma AncestorsAreAbove(a: string, sep: char, s: string)
    ensures s in Ancestors(a, sep) <==> Above(s, a, sep)
  {
    var parts := Strings.Split(a, sep);
    Strings.JoinSplit(a, sep);
    if s in Ancestors(a, sep) {
      var n :| 0 <= n < |parts| && Ancestors(a, sep)[n] == s;
      if n + 1 < |parts| {
        assert parts == parts[..n + 1] + parts[n + 1..];
        Strings.JoinAppend(parts[..n + 1], parts[n + 1..], sep);
        assert a == s + [sep] + Strings.Join(parts[n + 1..], [sep]);
        assert a[..|s + [sep]|] == s + [sep];
      } else {
        assert parts[..n + 1] == parts;
      }
    }
    if Above(s, a, sep) {
      if s == a {
        assert parts[..|parts|] == parts;
        assert Ancestors(a, sep)[|parts| - 1] == s;
      } else {
        var y := a[|s| + 1..];
        assert a == s + [sep] + y;
        Strings.SplitAppend(s, y, sep);
        var n := |Strings.Split(s, sep)|;
        assert parts[..n] == Strings.Split(s, sep);
        Strings.JoinSplit(s, sep);
        assert Ancestors(a, sep)[n - 1] == s;
      }
    }
  }

  /** Every ancestor of every account, duplicates included: the vertical
      stack of the sliced component lists. */
  function AllAncestors(accounts: seq<string>, sep: char): (r: seq<string>)
    ensures forall s :: s in r <==> exists a :: a in accounts && s in Ancestors(a, sep)
  {
    if |accounts| == 0 then []
    else
      assert forall a :: a in accounts <==> a == accounts[0] || a in accounts[1..];
      Ancestors(accounts[0], sep) + AllAncestors(accounts[1..], sep)
  }

  /** `get_accounts_df` over the account column of the final postings:
      `NoData` when there are no postings, else every posted account and
      every account above one, once each, in ascending order. */
  function AccountList(accounts: seq<string>, sep: char): (r: Result<seq<string>, AccountsError>)
    ensures r.Err? <==> |accounts| == 0
    ensures r.Ok? ==> Sorting.StrictlySorted(Strings.Less, r.value)
    ensures r.Ok? ==> forall s :: s in r.value <==> exists a :: a in accounts && Above(s, a, sep)
  {
    if |accounts| == 0 then Err(NoData)
    else
      LessIsStrictTotal();
      var all := AllAncestors(accounts, sep);
      forall s, a {
        AncestorsAreAbove(a, sep, s);
      }
      Ok(Sorting.SortUnique(Strings.Less, all))
  }
}

=== FILE: cmp.dfy ===
/** Comparing the postings of two ledgers (ledger-rs-core/src/cmp.rs): each
    side's postings are left-joined with its transaction dates, and the rows
    of the first ledger that no row of the second matches on date, account
    and both positions are the difference. Join keys follow SQL: a null
    key field matches nothing, not even another null. */
module Cmp {
  import opened Wrappers
  import opened Ledger

  /** The two `context` messages the comparison fails with. */
  datatype CmpError = NoTransactionsDf | NoPostingsDf

  /** The tables of a ledger that the comparison reads; either may not have
      been produced yet. */
  datatype Tables = Tables(transactions: Option<seq<HeaderParams>>, postings: Option<seq<FinalPosting>>)

  /** The six columns the two ledgers are compared on. */
  datatype Key = Key(
    date: Option<Date>,
    account: string,
    cpCommodity: Option<string>,
    cpQuantity: Option<Decimal>,
    tcCommodity: Option<string>,
    tcQuantity: Option<Decimal>)

  /** A row of the first ledger's enriched postings: the key and the
      transaction it belongs to. */
  datatype Row = Row(transactionNo: nat, key: Key)

  function KeyOf(f: FinalPosting, date: Option<Date>): Key {
    Key(date, f.account, f.cpCommodity, f.cpQuantity, f.tcCommodity, f.tcQuantity)
  }

  /** A required table, or the error `context` attaches when it is absent. */
  function Need<T>(table: Option<T>, e: CmpError): (r: Result<T, CmpError>)
    ensures r.Ok? <==> table.Some?
    ensures r.Ok? ==> r.value == table.value
    ensures r.Err? ==> r.error == e
  {
    match table
    case Some(t) => Ok(t)
    case None => Err(e)
  }

  // ---------------------------------------------------------------- left join

  /** The dates of the headers numbered `n`, in table order. */
  function DatesOf(hs: seq<HeaderParams>, n: nat): (r: seq<Date>)
    ensures forall d :: d in r ==> exists h :: h in hs && h.statementNo == n && h.date == d
    ensures forall h :: h in hs && h.statementNo == n ==> h.date in r
  {
    if |hs| == 0 then []
    else
      var rest := DatesOf(hs[1..], n);
      assert forall h :: h in hs[1..] ==> h in hs;
      assert forall h :: h in hs ==> h == hs[0] || h in hs[1..];
      (if hs[0].statementNo == n then [hs[0].date] else []) + rest
  }

  /** The rows one posting contributes to a left join with dates `ds`: one
      per date, or a single row without a date when there is none. */
  function JoinOne(f: FinalPosting, ds: seq<Date>): (r: seq<Row>)
    ensures |ds| == 0 ==> r == [Row(f.transactionNo, KeyOf(f, None))]
    ensures |ds| > 0 ==> |r| == |ds| && forall i :: 0 <= i < |ds| ==> r[i] == Row(f.transactionNo, KeyOf(f, Some(ds[i])))
  {
    if |ds| == 0 then [Row(f.transactionNo, KeyOf(f, None))]
    else [Row(f.transactionNo, KeyOf(f, Some(ds[0])))] + (if |ds| == 1 then [] else JoinOne(f, ds[1..]))
  }

  /** The postings left-joined with the transactions on
      `transaction_no = statement_no`, keeping the transaction number and the
      comparison columns. */
  function Enrich(fs: seq<FinalPosting>, hs: seq<HeaderParams>): (r: seq<Row>)
    ensures |fs| == 0 ==> r == []
  {
    if |fs| == 0 then []
    else JoinOne(fs[0], DatesOf(hs, fs[0].transactionNo)) + Enrich(fs[1..], hs)
  }

  /** `x` is a row the left join makes of posting `f`. */
  predicate JoinedFrom(x: Row, f: FinalPosting, hs: seq<HeaderParams>) {
    x.transactionNo == f.transactionNo && x.key == KeyOf(f, x.key.date) &&
    match x.key.date
    case None => forall h :: h in hs ==> h.statementNo != f.transactionNo
    case Some(d) => exists h :: h in hs && h.statementNo == f.transactionNo && h.date == d
  }

  /** Every enriched row comes from a posting and, when dated, from a header
      with the posting's transaction number. */
  lemma {:induction false} EnrichSound(fs: seq<FinalPosting>, hs: seq<HeaderParams>, x: Row)
    requires x in Enrich(fs, hs)
    ensures exists f :: f in fs && JoinedFrom(x, f, hs)
    decreases |fs|
  {
    var ds := DatesOf(hs, fs[0].transactionNo);
    var one := JoinOne(fs[0], ds);
    assert Enrich(fs, hs) == one + Enrich(fs[1..], hs);
    if x in one {
      if |ds| == 0 {
        assert x == Row(fs[0].transactionNo, KeyOf(fs[0], None));
      } else {
        var i :| 0 <= i < |one| && one[i] == x;
        assert ds[i] in ds;
      }
      assert JoinedFrom(x, fs[0], hs);
    } else {
      EnrichSound(fs[1..], hs, x);
      var f :| f in fs[1..] && JoinedFrom(x, f, hs);
      assert f in fs;
    }
  }

  /** Every pair of a posting and a header with its transaction number
      becomes a dated row. */
  lemma {:induction false} EnrichMatched(fs: seq<FinalPosting>, hs: seq<HeaderParams>, f: FinalPosting, h: HeaderParams)
    requires f in fs && h in hs && h.statementNo == f.transactionNo
    ensures Row(f.transactionNo, KeyOf(f, Some(h.date))) in Enrich(fs, hs)
    decreases |fs|
  {
    assert Enrich(fs, hs) == JoinOne(fs[0], DatesOf(hs, fs[0].transactionNo)) + Enrich(fs[1..], hs);
    if f == fs[0] {
      var ds := DatesOf(hs, f.transactionNo);
      var i :| 0 <= i < |ds| && ds[i] == h.date;
      assert JoinOne(f, ds)[i] == Row(f.transactionNo, KeyOf(f, Some(h.date)));
    } else {
      assert f in fs[1..];
      EnrichMatched(fs[1..], hs, f, h);
    }
  }

  /** A posting no header numbers keeps one row, without a date. */
  lemma {:induction false} EnrichUnmatched(fs: seq<FinalPosting>, hs: seq<HeaderParams>, f: FinalPosting)
    requires f in fs
    requires forall h :: h in hs ==> h.statementNo != f.transactionNo
    ensures Row(f.transactionNo, KeyOf(f, None)) in Enrich(fs, hs)
    decreases |fs|
  {
    assert Enrich(fs, hs) == JoinOne(fs[0], DatesOf(hs, fs[0].transactionNo)) + Enrich(fs[1..], hs);
    if f == fs[0] {
      DatesOfNone(hs, f.transactionNo);
    } else {
      assert f in fs[1..];
      EnrichUnmatched(fs[1..], hs, f);
    }
  }

  lemma {:induction false} DatesOfNone(hs: seq<HeaderParams>, n: nat)
    requires forall h :: h in hs ==> h.statementNo != n
    ensures DatesOf(hs, n) == []
  {
    if |hs| > 0 {
      assert hs[0] in hs;
      DatesOfNone(hs[1..], n);
    }
  }

  predicate UniqueNumbers(hs: seq<HeaderParams>) {
    forall i, j :: 0 <= i < j < |hs| ==> hs[i].statementNo != hs[j].statementNo
  }

  lemma {:induction false} DatesOfUnique(hs: seq<HeaderParams>, n: nat)
    requires UniqueNumbers(hs)
    ensures |DatesOf(hs, n)| <= 1
  {
    if |hs| > 0 {
      assert UniqueNumbers(hs[1..]) by {
        forall i, j | 0 <= i < j < |hs[1..]|
          ensures hs[1..][i].statementNo != hs[1..][j].statementNo
        {
          assert hs[1..][i] == hs[i + 1] && hs[1..][j] == hs[j + 1];
        }
      }
      DatesOfUnique(hs[1..], n);
      if hs[0].statementNo == n {
        forall h | h in hs[1..]
          ensures h.statementNo != n
        {
          var j :| 0 <= j < |hs[1..]| && hs[1..][j] == h;
          assert hs[j + 1] == h;
        }
        DatesOfNone(hs[1..], n);
      }
    }
  }

  /** With unique statement numbers, the left join neither drops nor
      duplicates postings: row `i` is posting `i`. */
  lemma {:induction false} EnrichOnePerPosting(fs: seq<FinalPosting>, hs: seq<HeaderParams>)
    requires UniqueNumbers(hs)
    ensures |Enrich(fs, hs)| == |fs|
    ensures forall i :: 0 <= i < |fs| ==> Enrich(fs, hs)[i].transactionNo == fs[i].transactionNo
    ensures forall i :: 0 <= i < |fs| ==> Enrich(fs, hs)[i].key == KeyOf(fs[i], Enrich(fs, hs)[i].key.date)
  {
    if |fs| > 0 {
      DatesOfUnique(hs, fs[0].transactionNo);
      EnrichOnePerPosting(fs[1..], hs);
      var one := JoinOne(fs[0], DatesOf(hs, fs[0].transactionNo));
      var rest := Enrich(fs[1..], hs);
      assert |one| == 1;
      assert Enrich(fs, hs) == one + rest;
      forall i | 0 < i < |fs|
        ensures Enrich(fs, hs)[i] == rest[i - 1] && fs[i] == fs[1..][i - 1]
      {
      }
    }
  }

  // ---------------------------------------------------------------- anti join

  /** All six join columns are non-null. */
  predicate Keyed(k: Key) {
    k.date.Some? && k.cpCommodity.Some? && k.cpQuantity.Some? && k.tcCommodity.Some? && k.tcQuantity.Some?
  }

  /** Equality of the join columns as the join evaluates it, column by
      column: a null on either side is not equal. */
  predicate Matches(k: Key, l: Key) {
    k.date.Some? && l.date.Some? && k.date.value == l.date.value &&
    k.account == l.account &&
    k.cpCommodity.Some? && l.cpCommodity.Some? && k.cpCommodity.value == l.cpCommodity.value &&
    k.cpQuantity.Some? && l.cpQuantity.Some? && k.cpQuantity.value == l.cpQuantity.value &&
    k.tcCommodity.Some? && l.tcCommodity.Some? && k.tcCommodity.value == l.tcCommodity.value &&
    k.tcQuantity.Some? && l.tcQuantity.Some? && k.tcQuantity.value == l.tcQuantity.value
  }

  /** Two keys match exactly when they are equal and have no null column. */
  lemma MatchesIsKeyedEqual(k: Key, l: Key)
    ensures Matches(k, l) <==> Keyed(k) && k == l
  {
  }

  /** No key of `bs` matches `k`. */
  predicate Unmatched(k: Key, bs: seq<Key>) {
    forall l :: l in bs ==> !Matches(k, l)
  }

  /** The second ledger's rows: its enriched postings without the
      transaction number. */
  function Keys(xs: seq<Row>): (r: seq<Key>)
    ensures |r| == |xs|
    ensures forall i :: 0 <= i < |xs| ==> r[i] == xs[i].key
  {
    if |xs| == 0 then [] else [xs[0].key] + Keys(xs[1..])
  }

  /** The left anti join: the rows of `xs` no key of `bs` matches, in order. */
  function AntiJoin(xs: seq<Row>, bs: seq<Key>): (r: seq<Row>)
    ensures forall x :: x in r <==> x in xs && Unmatched(x.key, bs)
  {
    if |xs| == 0 then []
    else
      var rest := AntiJoin(xs[1..], bs);
      assert forall x :: x in xs <==> x == xs[0] || x in xs[1..];
      (if Unmatched(xs[0].key, bs) then [xs[0]] else []) + rest
  }

  /** The anti join keeps every unmatched row as often as it occurs and drops
      every matched one. */
  lemma {:induction false} AntiJoinCounts(xs: seq<Row>, bs: seq<Key>, x: Row)
    ensures multiset(AntiJoin(xs, bs))[x] == if Unmatched(x.key, bs) then multiset(xs)[x] else 0
  {
    if |xs| > 0 {
      AntiJoinCounts(xs[1..], bs, x);
      assert xs == [xs[0]] + xs[1..];
      assert multiset(xs) == multiset([xs[0]]) + multiset(xs[1..]);
    }
  }

  /** AntiJoinCounts for every row at once. */
  lemma AntiJoinAllCounts(xs: seq<Row>, bs: seq<Key>)
    ensures forall x :: multiset(AntiJoin(xs, bs))[x] == if Unmatched(x.key, bs) then multiset(xs)[x] else 0
  {
    forall x {
      AntiJoinCounts(xs, bs, x);
    }
  }

  /** `compare_postings`: the first ledger's enriched postings that have no
      counterpart in the second. The tables are required in the order the
      source asks for them. */
  function ComparePostings(a: Tables, b: Tables): (r: Result<seq<Row>, CmpError>)
    ensures r == Err(NoTransactionsDf) <==> a.transactions.None? || b.transactions.None?
    ensures r == Err(NoPostingsDf) <==>
              a.transactions.Some? && b.transactions.Some? && (a.postings.None? || b.postings.None?)
    ensures r.Ok? ==> forall x :: x in r.value <==>
              x in Enrich(a.postings.value, a.transactions.value) &&
              Unmatched(x.key, Keys(Enrich(b.postings.value, b.transactions.value)))
    ensures r.Ok? ==> forall x :: multiset(r.value)[x] ==
                                  if Unmatched(x.key, Keys(Enrich(b.postings.value, b.transactions.value)))
                                  then multiset(Enrich(a.postings.value, a.transactions.value))[x] else 0
  {
    var aTransactions :- Need(a.transactions, NoTransactionsDf);
    var bTransactions :- Need(b.transactions, NoTransactionsDf);
    var aPostings :- Need(a.postings, NoPostingsDf);
    var bPostings :- Need(b.postings, NoPostingsDf);
    var rows := Enrich(aPostings, aTransactions);
    var ks := Keys(Enrich(bPostings, bTransactions));
    AntiJoinAllCounts(rows, ks);
    Ok(AntiJoin(rows, ks))
  }

  /** A ledger compared with itself reports exactly its rows with a null
      key column, since those match nothing. */
  lemma CompareWithItself(t: Tables)
    requires t.transactions.Some? && t.postings.Some?
    ensures ComparePostings(t, t).Ok?
    ensures forall x :: x in ComparePostings(t, t).value <==>
              x in Enrich(t.postings.value, t.transactions.value) && !Keyed(x.key)
  {
    var rows := Enrich(t.postings.value, t.transactions.value);
    var ks := Keys(rows);
    forall x | x in rows
      ensures Unmatched(x.key, ks) <==> !Keyed(x.key)
    {
      var i :| 0 <= i < |rows| && rows[i] == x;
      assert ks[i] == x.key;
      if Keyed(x.key) {
        assert Matches(x.key, ks[i]);
      }
    }
  }

  /** Whether a row of the first ledger is reported depends on its key
      alone: rows that differ only in their transaction number share their
      fate. */
  lemma SameKeySameFate(a: Tables, b: Tables, x: Row, y: Row)
    requires ComparePostings(a, b).Ok?
    requires x in Enrich(a.postings.value, a.transactions.value)
    requires y in Enrich(a.postings.value, a.transactions.value)
    requires x.key == y.key
    ensures x in ComparePostings(a, b).value <==> y in ComparePostings(a, b).value
  {
  }
}

=== FILE: groups.dfy ===
/** SQL `group by (transaction_no, commodity)` with `sum(quantity)`, the
    aggregation both the first and the last step of the verifier perform
    (ledger-rs-core/src/verify.rs). */
module Groups {
  import opened Wrappers
  import opened Ledger
  import Strings
  import Sorting

  /** The (transaction, commodity, quantity) columns of a row, as grouping sees them. */
  datatype Entry = Entry(transactionNo: nat, commodity: Option<string>, quantity: Option<Decimal>)

  /** A grouping key. A null commodity forms a group of its own, as in SQL. */
  datatype Key = Key(transactionNo: nat, commodity: Option<string>)

  function KeyOf(e: Entry): Key {
    Key(e.transactionNo, e.commodity)
  }

  /** Commodity order: null first, then by code. */
  predicate CommodityLess(a: Option<string>, b: Option<string>) {
    b.Some? && (a.None? || Strings.Less(a.value, b.value))
  }

  /** Key order: by transaction, then by commodity. */
  predicate KeyLess(a: Key, b: Key) {
    || a.transactionNo < b.transactionNo
    || (a.transactionNo == b.transactionNo && CommodityLess(a.commodity, b.commodity))
  }

  lemma KeyLessIsStrictTotal()
    ensures Sorting.StrictTotalOrder(KeyLess)
  {
    forall x: Key
      ensures !KeyLess(x, x)
    {
      if x.commodity.Some? {
        Strings.LessIrreflexive(x.commodity.value);
      }
    }
    forall x: Key, y: Key, z: Key | KeyLess(x, y) && KeyLess(y, z)
      ensures KeyLess(x, z)
    {
      if x.transactionNo == y.transactionNo == z.transactionNo && x.commodity.Some? {
        Strings.LessTransitive(x.commodity.value, y.commodity.value, z.commodity.value);
      }
    }
    forall x: Key, y: Key
      ensures x == y || KeyLess(x, y) || KeyLess(y, x)
    {
      if x.commodity.Some? && y.commodity.Some? {
        Strings.LessTrichotomous(x.commodity.value, y.commodity.value);
      }
    }
  }

  /** Two nullable partial sums combined the way an SQL aggregate sum
      combines them: NULL is the empty sum. */
  function AddSum(a: Option<Decimal>, b: Option<Decimal>): Option<Decimal> {
    if a.None? then b else if b.None? then a else Some(a.value + b.value)
  }

  lemma AddSumAssociative(a: Option<Decimal>, b: Option<Decimal>, c: Option<Decimal>)
    ensures AddSum(AddSum(a, b), c) == AddSum(a, AddSum(b, c))
  {
  }

  lemma AddSumCommutative(a: Option<Decimal>, b: Option<Decimal>)
    ensures AddSum(a, b) == AddSum(b, a)
  {
  }

  function Contribution(e: Entry, k: Key): Option<Decimal> {
    if KeyOf(e) == k then e.quantity else None
  }

  /** SQL `sum(quantity)` over the rows with key `k`: NULL when none of
      those rows has a quantity. */
  function SqlSum(es: seq<Entry>, k: Key): Option<Decimal> {
    if |es| == 0 then None
    else AddSum(SqlSum(es[..|es| - 1], k), Contribution(es[|es| - 1], k))
  }

  /** The sum is non-null exactly when some row of the group has a quantity. */
  lemma {:induction false} SqlSumPresent(es: seq<Entry>, k: Key)
    ensures SqlSum(es, k).Some? <==>
            exists i :: 0 <= i < |es| && KeyOf(es[i]) == k && es[i].quantity.Some?
  {
    if |es| > 0 {
      SqlSumPresent(es[..|es| - 1], k);
      assert forall i :: 0 <= i < |es| - 1 ==> es[..|es| - 1][i] == es[i];
    }
  }

  lemma {:induction false} SqlSumAppend(a: seq<Entry>, b: seq<Entry>, k: Key)
    ensures SqlSum(a + b, k) == AddSum(SqlSum(a, k), SqlSum(b, k))
    decreases |b|
  {
    if |b| == 0 {
      assert a + b == a;
    } else {
      var b' := b[..|b| - 1];
      assert (a + b)[..|a + b| - 1] == a + b';
      assert (a + b)[|a + b| - 1] == b[|b| - 1];
      SqlSumAppend(a, b', k);
      AddSumAssociative(SqlSum(a, k), SqlSum(b', k), Contribution(b[|b| - 1], k));
    }
  }

  /** The sum of a group does not depend on the order of the rows. */
  lemma {:induction false} SqlSumPermutation(a: seq<Entry>, b: seq<Entry>, k: Key)
    requires multiset(a) == multiset(b)
    ensures SqlSum(a, k) == SqlSum(b, k)
    decreases |a|
  {
    if |a| > 0 {
      var x := a[|a| - 1];
      var a' := a[..|a| - 1];
      assert a == a' + [x];
      assert x in multiset(b);
      var i :| 0 <= i < |b| && b[i] == x;
      var b' := b[..i] + b[i + 1..];
      assert b == b[..i] + [x] + b[i + 1..];
      assert multiset(b') == multiset(a') by {
        assert multiset(b) == multiset(b[..i]) + multiset{x} + multiset(b[i + 1..]);
        assert multiset(b') == multiset(b[..i]) + multiset(b[i + 1..]);
        assert multiset(a) == multiset(a') + multiset{x};
        assert multiset(a') == multiset(a) - multiset{x};
        assert multiset(b') == multiset(b) - multiset{x};
      }
      SqlSumPermutation(a', b', k);
      SqlSumAppend(b[..i], [x], k);
      SqlSumAppend(b[..i] + [x], b[i + 1..], k);
      SqlSumAppend(b[..i], b[i + 1..], k);
      assert SqlSum([x], k) == Contribution(x, k) by {
        assert [x][..0] == [];
      }
      AddSumAssociative(SqlSum(b[..i], k), Contribution(x, k), SqlSum(b[i + 1..], k));
      AddSumCommutative(Contribution(x, k), SqlSum(b[i + 1..], k));
      AddSumAssociative(SqlSum(b[..i], k), SqlSum(b[i + 1..], k), Contribution(x, k));
    }
  }

  function Keys(es: seq<Entry>): (r: seq<Key>)
    ensures |r| == |es|
    ensures forall i :: 0 <= i < |es| ==> r[i] == KeyOf(es[i])
  {
    seq(|es|, i requires 0 <= i < |es| => KeyOf(es[i]))
  }

  /** One row of a grouped table. */
  datatype Group = Group(key: Key, sum: Option<Decimal>)

  predicate GroupLess(a: Group, b: Group) {
    KeyLess(a.key, b.key)
  }

  /** `group by (transaction_no, commodity) order by transaction_no, commodity`
      with the sum of each group. */
  function GroupBy(es: seq<Entry>): (r: seq<Group>)
    ensures Sorting.StrictlySorted(GroupLess, r)
    ensures forall g :: g in r ==> g.sum == SqlSum(es, g.key)
    ensures forall k :: k in Keys(es) <==> exists g :: g in r && g.key == k
  {
    KeyLessIsStrictTotal();
    var ks := Sorting.SortUnique(KeyLess, Keys(es));
    var r := seq(|ks|, i requires 0 <= i < |ks| => Group(ks[i], SqlSum(es, ks[i])));
    assert forall k :: k in ks <==> exists g :: g in r && g.key == k by {
      forall k | k in ks
        ensures exists g :: g in r && g.key == k
      {
        var i :| 0 <= i < |ks| && ks[i] == k;
        assert r[i] in r;
      }
    }
    r
  }

  /** Two tables whose rows contribute alike to group `k`, except one row
      that contributes nothing in `a`: the sums differ by that row of `b`. */
  lemma {:induction false} SqlSumOneDifference(a: seq<Entry>, b: seq<Entry>, e: int, k: Key)
    requires |a| == |b| && 0 <= e < |a|
    requires forall i :: 0 <= i < |a| && i != e ==> Contribution(a[i], k) == Contribution(b[i], k)
    requires Contribution(a[e], k) == None
    ensures SqlSum(b, k) == AddSum(SqlSum(a, k), Contribution(b[e], k))
    decreases |a|
  {
    var n := |a| - 1;
    if n == e {
      SqlSumSameContributions(a[..n], b[..n], k);
    } else {
      SqlSumOneDifference(a[..n], b[..n], e, k);
      AddSumAssociative(SqlSum(a[..n], k), Contribution(b[e], k), Contribution(b[n], k));
      AddSumCommutative(Contribution(b[e], k), Contribution(b[n], k));
      AddSumAssociative(SqlSum(a[..n], k), Contribution(b[n], k), Contribution(b[e], k));
    }
  }

  /** Tables whose rows contribute alike to group `k` have the same sum. */
  lemma {:induction false} SqlSumSameContributions(a: seq<Entry>, b: seq<Entry>, k: Key)
    requires |a| == |b|
    requires forall i :: 0 <= i < |a| ==> Contribution(a[i], k) == Contribution(b[i], k)
    ensures SqlSum(a, k) == SqlSum(b, k)
    decreases |a|
  {
    if |a| > 0 {
      SqlSumSameContributions(a[..|a| - 1], b[..|b| - 1], k);
    }
  }

  /** The groups of `gs` that `keep` accepts, in their order. */
  function Filter(gs: seq<Group>, keep: Group -> bool): (r: seq<Group>)
    ensures forall g :: g in r <==> g in gs && keep(g)
    ensures Sorting.StrictlySorted(GroupLess, gs) ==> Sorting.StrictlySorted(GroupLess, r)
  {
    if |gs| == 0 then []
    else
      var n := |gs| - 1;
      var rest := Filter(gs[..n], keep);
      assert forall g :: g in gs <==> g in gs[..n] || g == gs[n];
      assert Sorting.StrictlySorted(GroupLess, gs) ==> forall g :: g in rest ==> GroupLess(g, gs[n]) by {
        if Sorting.StrictlySorted(GroupLess, gs) {
          forall g | g in rest
            ensures GroupLess(g, gs[n])
          {
            var i :| 0 <= i < n && gs[..n][i] == g;
          }
        }
      }
      if keep(gs[n]) then rest + [gs[n]] else rest
  }

  /** One group of `GroupBy`: a key that occurs, with its sum. */
  lemma GroupByMember(es: seq<Entry>, g: Group)
    ensures g in GroupBy(es) <==> g.key in Keys(es) && g.sum == SqlSum(es, g.key)
  {
    if g.key in Keys(es) && g.sum == SqlSum(es, g.key) {
      var g' :| g' in GroupBy(es) && g'.key == g.key;
    }
  }
}

=== FILE: import.dfy ===
/** What the CSV importers share (ledger-rs-csv/src): an intermediate
    posting, and the step that stores one record's postings in the ledger
    state. `rj_core.rs`, which declares `InterPost` and `Position`, is not
    part of this model; their shape is taken from their use. The step is
    written out three times in the source, identically, in
    `store_transaction` (rj_cdn.rs), `store_closed_transaction`
    (rj_cdn_closed.rs) and `store_us_transaction` (rj_usa.rs). */
module Import {
  import opened Wrappers
  import opened Ledger

  /** A quantity of a commodity. */
  datatype Position = Position(quantity: Decimal, commodity: string)

  /** A posting before numbering: account, commodity position, total cost. */
  datatype InterPost = InterPost(account: string, cp: Option<Position>, tc: Option<Position>)

  /** The parts of the ledger state an importer writes: the shared line
      counter and the three tables it appends to. */
  datatype Sink = Sink(
    lineCount: nat,
    transactions: seq<HeaderParams>,
    postings: seq<PostingParams>,
    verifications: seq<VerificationParams>)

  /** A failed `unwrap`: the importer panics and stores nothing more. */
  datatype ImportError = UnparsableDate(text: string)

  /** A posting the verifier has to complete: no position and no cost. */
  predicate Elided(p: InterPost) {
    p.cp.None? && p.tc.None?
  }

  /** Only the last posting may be elided; a transaction the verifier can
      complete has at most one. */
  predicate ElidedLast(posts: seq<InterPost>) {
    forall i :: 0 <= i < |posts| - 1 ==> !Elided(posts[i])
  }

  /** The postings of a cash movement, shared by the CSV importers: the
      cash position, then the target account left for the verifier to
      complete. */
  function CashPosts(cash: string, position: Position, acct: string): (r: seq<InterPost>)
    ensures ElidedLast(r)
    ensures |r| == 2
    ensures r[0] == InterPost(cash, Some(position), None) && !Elided(r[0])
    ensures Elided(r[1]) && r[1].account == acct
  {
    [InterPost(cash, Some(position), None), InterPost(acct, None, None)]
  }

  /** `r` moves cash between `cash` and `acct`: the cash position first,
      then `acct` elided. */
  predicate CashMovement(r: seq<InterPost>, cash: string, acct: string) {
    |r| == 2 && r[0].account == cash && !Elided(r[0]) && Elided(r[1]) && r[1].account == acct
  }

  /** `pp` is `p`, with its optional pairs split into two optional columns. */
  predicate Carries(pp: PostingParams, p: InterPost) {
    pp.account == p.account &&
    (pp.cpQuantity.Some? <==> p.cp.Some?) && (pp.cpCommodity.Some? <==> p.cp.Some?) &&
    (pp.tcQuantity.Some? <==> p.tc.Some?) && (pp.tcCommodity.Some? <==> p.tc.Some?) &&
    (p.cp.Some? ==> pp.cpQuantity.value == p.cp.value.quantity && pp.cpCommodity.value == p.cp.value.commodity) &&
    (p.tc.Some? ==> pp.tcQuantity.value == p.tc.value.quantity && pp.tcCommodity.value == p.tc.value.commodity)
  }

  function QuantityOf(p: Option<Position>): Option<Decimal> {
    match p
    case None => None
    case Some(x) => Some(x.quantity)
  }

  function CommodityOf(p: Option<Position>): Option<string> {
    match p
    case None => None
    case Some(x) => Some(x.commodity)
  }

  /** One numbered posting; file number and positions are 0 for imports. */
  function ToPosting(p: InterPost, statementNo: nat, transactionNo: nat): (r: PostingParams)
    ensures Carries(r, p)
    ensures r.statementNo == statementNo && r.transactionNo == transactionNo
  {
    PostingParams(statementNo, transactionNo, 0, 0, 0, p.account,
                  QuantityOf(p.cp), CommodityOf(p.cp), QuantityOf(p.tc), CommodityOf(p.tc))
  }

  /** The postings numbered from `first` on, all in transaction `transactionNo`. */
  function Number(posts: seq<InterPost>, first: nat, transactionNo: nat): (r: seq<PostingParams>)
    ensures |r| == |posts|
    ensures forall i :: 0 <= i < |r| ==> r[i].statementNo == first + i && r[i].transactionNo == transactionNo
    ensures forall i :: 0 <= i < |r| ==> Carries(r[i], posts[i])
  {
    if |posts| == 0 then []
    else [ToPosting(posts[0], first, transactionNo)] + Number(posts[1..], first + 1, transactionNo)
  }

  /** Stores one record. The counter is drawn once for the header before
      the postings are looked at, so a record without postings still uses
      a number; otherwise the header takes that number and the postings the
      next ones. */
  function Store(s: Sink, posts: seq<InterPost>, date: Date, narration: string): (r: Sink)
    ensures r.lineCount == s.lineCount + 1 + |posts|
    ensures r.verifications == s.verifications
    ensures |posts| == 0 ==> r.transactions == s.transactions && r.postings == s.postings
    ensures |posts| > 0 ==> r.transactions == s.transactions + [HeaderParams(s.lineCount, 0, 0, 0, date, narration, None)]
    ensures |r.postings| == |s.postings| + |posts| && r.postings[..|s.postings|] == s.postings
    ensures forall i :: 0 <= i < |posts| ==>
              r.postings[|s.postings| + i].statementNo == s.lineCount + 1 + i &&
              r.postings[|s.postings| + i].transactionNo == s.lineCount &&
              Carries(r.postings[|s.postings| + i], posts[i])
  {
    var posno := s.lineCount;
    if |posts| == 0 then s.(lineCount := posno + 1)
    else
      s.(lineCount := posno + 1 + |posts|,
         transactions := s.transactions + [HeaderParams(posno, 0, 0, 0, date, narration, None)],
         postings := s.postings + Number(posts, posno + 1, posno))
  }

  /** Numbering invariant of a sink the importers fill: header and posting
      numbers increase and stay below the counter, and every posting belongs
      to a stored header with a smaller number. */
  predicate WellNumbered(s: Sink) {
    (forall i, j :: 0 <= i < j < |s.transactions| ==> s.transactions[i].statementNo < s.transactions[j].statementNo) &&
    (forall i, j :: 0 <= i < j < |s.postings| ==> s.postings[i].statementNo < s.postings[j].statementNo) &&
    (forall i :: 0 <= i < |s.transactions| ==> s.transactions[i].statementNo < s.lineCount) &&
    (forall i :: 0 <= i < |s.postings| ==> s.postings[i].statementNo < s.lineCount) &&
    (forall i :: 0 <= i < |s.postings| ==> HasHeader(s, i))
  }

  predicate HasHeader(s: Sink, i: nat)
    requires i < |s.postings|
  {
    exists j :: 0 <= j < |s.transactions| &&
      s.transactions[j].statementNo == s.postings[i].transactionNo &&
      s.transactions[j].statementNo < s.postings[i].statementNo
  }

  /** Storing a record keeps the numbering invariant, from any starting sink
      that has it. */
  lemma StoreWellNumbered(s: Sink, posts: seq<InterPost>, date: Date, narration: string)
    requires WellNumbered(s)
    ensures WellNumbered(Store(s, posts, date, narration))
  {
    var r := Store(s, posts, date, narration);
    if |posts| > 0 {
      var n := |s.postings|;
      forall i | 0 <= i < |r.postings|
        ensures HasHeader(r, i)
      {
        if i < n {
          assert r.postings[i] == s.postings[i];
          assert HasHeader(s, i);
          var j :| 0 <= j < |s.transactions| &&
            s.transactions[j].statementNo == s.postings[i].transactionNo &&
            s.transactions[j].statementNo < s.postings[i].statementNo;
          assert r.transactions[j] == s.transactions[j];
        } else {
          assert r.postings[n + (i - n)] == r.postings[i];
          assert r.transactions[|s.transactions|].statementNo == s.lineCount;
        }
      }
      forall i, j | 0 <= i < j < |r.postings|
        ensures r.postings[i].statementNo < r.postings[j].statementNo
      {
        if j < n {
          assert r.postings[i] == s.postings[i] && r.postings[j] == s.postings[j];
        } else if i < n {
          assert r.postings[i] == s.postings[i];
          assert r.postings[n + (j - n)] == r.postings[j];
        } else {
          assert r.postings[n + (i - n)] == r.postings[i];
          assert r.postings[n + (j - n)] == r.postings[j];
        }
      }
      forall i | 0 <= i < |r.postings|
        ensures r.postings[i].statementNo < r.lineCount
      {
        if i < n {
          assert r.postings[i] == s.postings[i];
        } else {
          assert r.postings[n + (i - n)] == r.postings[i];
        }
      }
    } else {
      forall i | 0 <= i < |r.postings|
        ensures HasHeader(r, i)
      {
        assert HasHeader(s, i);
      }
    }
  }
}

=== FILE: ledger.dfy ===
/** The records the parser and the importers produce and the verifier
    consumes (ledger-rs-core/src/core.rs). Amounts are exact decimals,
    modelled as `real`; the u32 counters and positions as `nat`. */
module Ledger {
  import opened Wrappers

  /** rust_decimal's `Decimal`, as an exact number. */
  type Decimal = real

  /** chrono's `NaiveDate`, by its calendar fields. */
  datatype Date = Date(year: int, month: int, day: int)

  /** Action codes of a `VerificationParams` (OPEN_ACTION, BALANCE_ACTION, CLOSE_ACTION). */
  const OpenAction: nat := 0
  const BalanceAction: nat := 1
  const CloseAction: nat := 2

  /** One account movement. `cp` is the commodity position as written; `tc`
      is the position the transaction balances in (the total cost when
      one is given, otherwise the position again). */
  datatype PostingParams = PostingParams(
    statementNo: nat,
    transactionNo: nat,
    fileNo: nat,
    start: nat,
    end: nat,
    account: string,
    cpQuantity: Option<Decimal>,
    cpCommodity: Option<string>,
    tcQuantity: Option<Decimal>,
    tcCommodity: Option<string>)

  /** A transaction header; its `statementNo` is the `transactionNo` of its postings. */
  datatype HeaderParams = HeaderParams(
    statementNo: nat,
    fileNo: nat,
    start: nat,
    end: nat,
    date: Date,
    narration: string,
    tags: Option<string>)

  /** An open, balance or close assertion about an account. */
  datatype VerificationParams = VerificationParams(
    statementNo: nat,
    fileNo: nat,
    start: nat,
    end: nat,
    date: Date,
    action: nat,
    account: string,
    quantity: Option<Decimal>,
    commodity: Option<string>)

  /** A row of the final postings table: a posting whose absent cp/tc fields
      may have been filled in by the verifier. */
  datatype FinalPosting = FinalPosting(
    statementNo: nat,
    transactionNo: nat,
    fileNo: nat,
    start: nat,
    account: string,
    cpQuantity: Option<Decimal>,
    cpCommodity: Option<string>,
    tcQuantity: Option<Decimal>,
    tcCommodity: Option<string>)
}

=== FILE: lexical.dfy ===
/** The token recognisers of the ledger grammar
    (ledger-rs-core/src/parse.rs:65-184). Each recogniser looks at the
    remaining input and either fails or consumes a prefix of it; the result
    carries the number of characters consumed. The grammar's constants that
    the source imports from elsewhere (the account separator, the five base
    account names, the cost separator) and two foreign functions
    (`char::is_alphanumeric`, `Decimal::from_str_exact`) are parameters. */
module Lexical {
  import opened Wrappers
  import opened Ledger
  import Strings

  /** The grammar's parameters. `bases` lists ASSETS_BASE, LIABILITIES_BASE,
      EQUITY_BASE, INCOME_BASE and EXPENSES_BASE in the order `alt` tries them. */
  datatype Syntax = Syntax(
    sep: char,                        // ACCOUNT_SEP
    bases: seq<string>,
    costSep: string,                  // COST_SEP
    transactionFlag: string,          // TRANSACTION_FLAG
    isAlphanumeric: char -> bool,     // char::is_alphanumeric
    parseDecimal: string -> Option<Decimal>)  // Decimal::from_str_exact

  /** A recogniser's success: the value and how many characters it consumed. */
  datatype Parsed<T> = Parsed(value: T, length: nat)

  predicate IsDigit(c: char) {
    '0' <= c <= '9'
  }

  /** winnow's `space0`/`space1` characters. */
  predicate IsSpace(c: char) {
    c == ' ' || c == '\t'
  }

  /** winnow's `alphanumeric1` characters: ASCII letters and digits. */
  predicate IsAsciiAlphanumeric(c: char) {
    IsDigit(c) || ('a' <= c <= 'z') || ('A' <= c <= 'Z')
  }

  /** Characters of a commodity code. */
  predicate IsCommodityChar(c: char) {
    ('A' <= c <= 'Z') || IsDigit(c) || c == '_'
  }

  /** Characters of one account name component. */
  predicate IsNameChar(syn: Syntax, c: char) {
    syn.isAlphanumeric(c) || c == '-'
  }

  /** `IsNameChar` as a value, for the span recognisers. */
  function NameChar(syn: Syntax): char -> bool {
    c => IsNameChar(syn, c)
  }

  predicate All(t: string, p: char -> bool) {
    forall i :: 0 <= i < |t| ==> p(t[i])
  }

  /** `take_while(0.., p)`: the longest prefix whose characters satisfy `p`. */
  function Span(s: string, p: char -> bool): (n: nat)
    ensures n <= |s| && All(s[..n], p)
    ensures n == |s| || !p(s[n])
    decreases |s|
  {
    if |s| > 0 && p(s[0]) then 1 + Span(s[1..], p) else 0
  }

  /** `take_while(1.., p)`. */
  function Span1(s: string, p: char -> bool): (r: Option<nat>)
    ensures r.Some? <==> |s| > 0 && p(s[0])
    ensures r.Some? ==> r.value == Span(s, p)
  {
    var n := Span(s, p);
    if n == 0 then None else Some(n)
  }

  // ----- decimal_string -----

  predicate IsDigits(t: string) {
    |t| > 0 && All(t, IsDigit)
  }

  /** Digits, optionally followed by `.` and digits. */
  predicate IsUnsignedDecimal(t: string) {
    IsDigits(t) || exists k :: 0 < k < |t| && IsDigits(t[..k]) && t[k] == '.' && IsDigits(t[k + 1..])
  }

  /** The text `decimal_string` accepts: an optional `-`, one or more digits,
      then optionally `.` and one or more digits. */
  predicate IsDecimalText(t: string) {
    IsUnsignedDecimal(t) || (|t| > 0 && t[0] == '-' && IsUnsignedDecimal(t[1..]))
  }

  /** The characters `seq!(opt('-'), digit1, opt(preceded('.', digit1)))`
      consumes; the fraction is optional, so a `.` without digits after it
      is left unconsumed. */
  function DecimalLength(s: string): (r: Option<nat>)
    ensures r.None? <==> SignLength(s) == |s| || !IsDigit(s[SignLength(s)])
    ensures r.Some? ==> r.value <= |s| && IsDecimalText(s[..r.value])
    ensures r.Some? ==> r.value == |s| || !IsDigit(s[r.value])
    ensures r.Some? && r.value + 1 < |s| && s[r.value] == '.' && IsDigit(s[r.value + 1]) ==> '.' in s[..r.value]
  {
    var sign := SignLength(s);
    var d := Span(s[sign..], IsDigit);
    if d == 0 then None
    else
      var k := sign + d;
      var f := if k < |s| && s[k] == '.' then Span(s[k + 1..], IsDigit) else 0;
      DecimalPrefix(s, sign, k, f);
      if f > 0 then Some(k + 1 + f) else Some(k)
  }

  /** What `DecimalLength` consumes when the integer part ends at `k` and
      `f` fraction digits follow a `.` there: decimal text, not followed by
      a digit, and followed by `.` and a digit only after a fraction. */
  lemma DecimalPrefix(s: string, sign: nat, k: nat, f: nat)
    requires sign == SignLength(s) && sign < k <= |s| && k - sign == Span(s[sign..], IsDigit)
    requires f == if k < |s| && s[k] == '.' then Span(s[k + 1..], IsDigit) else 0
    ensures var n := if f > 0 then k + 1 + f else k;
            && n <= |s| && IsDecimalText(s[..n]) && (n == |s| || !IsDigit(s[n]))
            && (n + 1 < |s| && s[n] == '.' && IsDigit(s[n + 1]) ==> '.' in s[..n])
  {
    var d := k - sign;
    SpanDigits(s[sign..], d);
    assert s[sign..k] == s[sign..][..d];
    if f > 0 {
      var n := k + 1 + f;
      SpanDigits(s[k + 1..], f);
      FractionDecimal(s, sign, k, f);
      SignedDecimal(s, sign, n);
      assert s[..n][k] == '.';
      assert n == |s| || s[n] == s[k + 1..][f];
    } else {
      SignedDecimal(s, sign, k);
      assert k == |s| || s[k] == s[sign..][d];
      assert k + 1 < |s| && s[k] == '.' ==> s[k + 1] == s[k + 1..][0];
    }
  }

  /** The characters `opt('-')` takes. */
  function SignLength(s: string): (k: nat)
    ensures k <= 1 && k <= |s|
    ensures k == 1 <==> |s| > 0 && s[0] == '-'
  {
    if |s| > 0 && s[0] == '-' then 1 else 0
  }

  /** A non-empty run of digits is digit text. */
  lemma SpanDigits(s: string, d: nat)
    requires 0 < d == Span(s, IsDigit)
    ensures IsDigits(s[..d])
  {
  }

  /** Digits, `.` and digits make unsigned decimal text. */
  lemma FractionDecimal(s: string, sign: nat, k: nat, f: nat)
    requires sign < k < |s| && s[k] == '.' && k + 1 + f <= |s| && f > 0
    requires IsDigits(s[sign..k]) && IsDigits(s[k + 1..][..f])
    ensures IsUnsignedDecimal(s[sign..k + 1 + f])
  {
    var t := s[sign..k + 1 + f];
    var d := k - sign;
    assert t[..d] == s[sign..k];
    assert t[d] == '.';
    assert t[d + 1..] == s[k + 1..][..f];
  }

  /** An optional `-` before unsigned decimal text makes decimal text. */
  lemma SignedDecimal(s: string, sign: nat, n: nat)
    requires sign <= 1 && sign <= n <= |s| && (sign == 1 ==> s[0] == '-')
    requires IsUnsignedDecimal(s[sign..n])
    ensures IsDecimalText(s[..n])
  {
    if sign == 1 {
      assert s[..n][1..] == s[sign..n];
    } else {
      assert s[..n] == s[sign..n];
    }
  }

  /** `decimal_string` recognises a whole text exactly when it is decimal text. */
  lemma DecimalLengthWhole(t: string)
    ensures IsDecimalText(t) <==> DecimalLength(t) == Some(|t|)
  {
    if DecimalLength(t) == Some(|t|) {
      assert t[..|t|] == t;
    }
    if IsDecimalText(t) {
      DecimalTextConsumed(t);
    }
  }

  /** Decimal text is consumed whole. */
  lemma DecimalTextConsumed(t: string)
    requires IsDecimalText(t)
    ensures DecimalLength(t) == Some(|t|)
  {
    var sign := SignLength(t);
    SignedPart(t);
    var u := t[sign..];
    UnsignedSpans(u);
    var d := Span(u, IsDigit);
    var k := sign + d;
    if d < |u| {
      assert t[k] == '.';
      assert t[k + 1..] == u[d + 1..];
      assert Span(t[k + 1..], IsDigit) == |t| - k - 1 > 0;
    } else {
      assert k == |t|;
    }
  }

  /** Decimal text without its sign is unsigned decimal text. */
  lemma SignedPart(t: string)
    requires IsDecimalText(t)
    ensures IsUnsignedDecimal(t[SignLength(t)..])
  {
    if IsUnsignedDecimal(t) {
      UnsignedStartsWithDigit(t);
    }
  }

  lemma UnsignedStartsWithDigit(u: string)
    requires IsUnsignedDecimal(u)
    ensures |u| > 0 && IsDigit(u[0])
  {
    if !IsDigits(u) {
      var k :| 0 < k < |u| && IsDigits(u[..k]) && u[k] == '.' && IsDigits(u[k + 1..]);
      assert u[..k][0] == u[0];
    }
  }

  /** How the digit spans split an unsigned decimal text. */
  lemma UnsignedSpans(u: string)
    requires IsUnsignedDecimal(u)
    ensures var d := Span(u, IsDigit);
            d > 0 && (d == |u| || (u[d] == '.' && Span(u[d + 1..], IsDigit) == |u| - d - 1 && d + 1 < |u|))
  {
    var d := Span(u, IsDigit);
    if IsDigits(u) {
      SpanOfAll(u, IsDigit);
    } else {
      var k :| 0 < k < |u| && IsDigits(u[..k]) && u[k] == '.' && IsDigits(u[k + 1..]);
      SpanStopsAt(u, IsDigit, k);
      SpanOfAll(u[k + 1..], IsDigit);
    }
  }

  lemma {:induction false} SpanOfAll(s: string, p: char -> bool)
    requires All(s, p)
    ensures Span(s, p) == |s|
    decreases |s|
  {
    if |s| > 0 {
      SpanOfAll(s[1..], p);
    }
  }

  lemma {:induction false} SpanStopsAt(s: string, p: char -> bool, k: nat)
    requires k < |s| && All(s[..k], p) && !p(s[k])
    ensures Span(s, p) == k
    decreases |s|
  {
    if k > 0 {
      assert s[1..][..k - 1] == s[..k][1..];
      SpanStopsAt(s[1..], p, k - 1);
    }
  }

  /** `decimal_string`: the decimal text and its value, failing when
      `from_str_exact` rejects the text. */
  function DecimalString(syn: Syntax, s: string): (r: Option<Parsed<Decimal>>)
    ensures r.Some? ==> r.value.length <= |s| && IsDecimalText(s[..r.value.length])
    ensures r.Some? ==> syn.parseDecimal(s[..r.value.length]) == Some(r.value.value)
    ensures DecimalLength(s).Some? && syn.parseDecimal(s[..DecimalLength(s).value]).Some? ==> r.Some?
  {
    var n :- DecimalLength(s);
    var d :- syn.parseDecimal(s[..n]);
    Some(Parsed(d, n))
  }

  // ----- commodity -----

  /** `commodity`: one or more upper-case letters, digits or `_`; the value
      is the consumed text. */
  function Commodity(s: string): (r: Option<Parsed<string>>)
    ensures r.Some? ==> r.value.length <= |s| && r.value.value == s[..r.value.length]
    ensures r.Some? ==> |r.value.value| > 0 && All(r.value.value, IsCommodityChar)
    ensures r.Some? ==> r.value.length == |s| || !IsCommodityChar(s[r.value.length])
    ensures r.None? <==> |s| == 0 || !IsCommodityChar(s[0])
  {
    var n :- Span1(s, IsCommodityChar);
    Some(Parsed(s[..n], n))
  }

  // ----- account_name, subaccount, full_account -----

  /** Characters of `(ACCOUNT_SEP account_name)*` as `separated` continues
      a list: a separator not followed by a name is left unconsumed. */
  function MoreNamesLength(syn: Syntax, s: string): (n: nat)
    ensures n <= |s|
    decreases |s|
  {
    if |s| > 0 && s[0] == syn.sep && Span(s[1..], NameChar(syn)) > 0 then
      var k := 1 + Span(s[1..], NameChar(syn));
      k + MoreNamesLength(syn, s[k..])
    else 0
  }

  /** `subaccount`: `separated(1.., account_name, ACCOUNT_SEP)`. */
  function SubaccountLength(syn: Syntax, s: string): (r: Option<nat>)
    ensures r.Some? ==> 0 < r.value <= |s|
  {
    var n :- Span1(s, NameChar(syn));
    Some(n + MoreNamesLength(syn, s[n..]))
  }

  /** `base_account_name`: the first base name, in `alt` order, that the
      input starts with. */
  function BaseLength(bases: seq<string>, s: string): (r: Option<nat>)
    ensures r.Some? ==> exists i :: 0 <= i < |bases| && r.value == |bases[i]| && FirstBase(bases, s, i)
    ensures r.None? ==> forall i :: 0 <= i < |bases| ==> !Strings.StartsWith(s, bases[i])
  {
    if |bases| == 0 then None
    else if Strings.StartsWith(s, bases[0]) then
      assert FirstBase(bases, s, 0);
      Some(|bases[0]|)
    else
      var r := BaseLength(bases[1..], s);
      assert forall i :: 0 < i < |bases| ==> bases[i] == bases[1..][i - 1];
      if r.Some? then
        var i :| 0 <= i < |bases[1..]| && r.value == |bases[1..][i]| && FirstBase(bases[1..], s, i);
        assert FirstBase(bases, s, i + 1);
        r
      else r
  }

  /** `bases[i]` starts `s` and no base before it in `alt` order does. */
  predicate FirstBase(bases: seq<string>, s: string, i: nat)
    requires i < |bases|
  {
    Strings.StartsWith(s, bases[i]) && forall j :: 0 <= j < i ==> !Strings.StartsWith(s, bases[j])
  }

  /** `full_account`: a base name, the separator, and one or more names
      joined by separators; the value is exactly the consumed text. */
  function FullAccount(syn: Syntax, s: string): (r: Option<Parsed<string>>)
    ensures r.Some? ==> 0 < r.value.length <= |s| && r.value.value == s[..r.value.length]
  {
    var b :- BaseLength(syn.bases, s);
    if b < |s| && s[b] == syn.sep then
      var n :- SubaccountLength(syn, s[b + 1..]);
      Some(Parsed(s[..b + 1 + n], b + 1 + n))
    else None
  }

  /** Every component of `u`, split at the separator, is a non-empty name. */
  predicate IsNames(syn: Syntax, u: string) {
    forall p :: p in Strings.Split(u, syn.sep) ==> IsName(syn, p)
  }

  /** One account name component. */
  predicate IsName(syn: Syntax, p: string) {
    |p| > 0 && All(p, NameChar(syn))
  }

  /** An account name: a base name, the separator, then non-empty names
      between separators. */
  predicate IsAccountText(syn: Syntax, t: string) {
    exists i :: 0 <= i < |syn.bases| && Strings.StartsWith(t, syn.bases[i] + [syn.sep])
             && IsNames(syn, t[|syn.bases[i]| + 1..])
  }

  /** What `full_account` accepts is an account name, provided the separator
      is not itself a name character. */
  lemma FullAccountIsAccount(syn: Syntax, s: string)
    requires !IsNameChar(syn, syn.sep)
    requires FullAccount(syn, s).Some?
    ensures IsAccountText(syn, FullAccount(syn, s).value.value)
  {
    var b, n := FullAccountShape(syn, s);
    var i := BaseIndex(syn.bases, s, b);
    SubaccountNames(syn, s[b + 1..]);
    AccountFromParts(syn, s, i, b, n);
  }

  /** The base name `BaseLength` found. */
  lemma BaseIndex(bases: seq<string>, s: string, b: nat) returns (i: nat)
    requires BaseLength(bases, s) == Some(b)
    ensures i < |bases| && b == |bases[i]| && FirstBase(bases, s, i)
  {
    i :| 0 <= i < |bases| && b == |bases[i]| && FirstBase(bases, s, i);
  }

  /** At most one base is the first to start `s`. */
  lemma FirstBaseUnique(bases: seq<string>, s: string, i: nat, j: nat)
    requires i < |bases| && j < |bases| && FirstBase(bases, s, i) && FirstBase(bases, s, j)
    ensures i == j
  {
  }

  /** After a base name of length `b`: the separator and a name character. */
  predicate SubaccountFollows(syn: Syntax, s: string, b: nat) {
    b + 1 < |s| && s[b] == syn.sep && IsNameChar(syn, s[b + 1])
  }

  /** `full_account` accepts exactly when the first base name in `alt` order
      that starts the input is followed by the separator and a name
      character. */
  lemma FullAccountAccepts(syn: Syntax, s: string)
    ensures FullAccount(syn, s).Some? <==>
              exists i :: 0 <= i < |syn.bases| && FirstBase(syn.bases, s, i) && SubaccountFollows(syn, s, |syn.bases[i]|)
  {
    var r := BaseLength(syn.bases, s);
    if r.Some? {
      var i := BaseIndex(syn.bases, s, r.value);
      forall j | 0 <= j < |syn.bases| && FirstBase(syn.bases, s, j)
        ensures j == i
      {
        FirstBaseUnique(syn.bases, s, i, j);
      }
      var b := r.value;
      if b < |s| && s[b] == syn.sep {
        assert SubaccountLength(syn, s[b + 1..]).Some? <==> b + 1 < |s| && IsNameChar(syn, s[b + 1]);
      }
    }
  }

  /** Where `full_account` stops the input cannot go on: it ends, or the
      next character is neither a name character nor the separator before
      one. */
  predicate AccountEnds(syn: Syntax, s: string, k: nat)
    requires k <= |s|
  {
    k == |s| || (!IsNameChar(syn, s[k]) && !SubaccountFollows(syn, s, k))
  }

  /** `full_account` consumes as much as it can. */
  lemma FullAccountMaximal(syn: Syntax, s: string)
    requires FullAccount(syn, s).Some?
    ensures AccountEnds(syn, s, FullAccount(syn, s).value.length)
  {
    var b, n := FullAccountShape(syn, s);
    var u := s[b + 1..];
    var k := Span(u, NameChar(syn));
    var m := MoreNamesLength(syn, u[k..]);
    assert n == k + m;
    MoreNamesMaximal(syn, u[k..]);
    if b + 1 + n < |s| {
      assert s[b + 1 + n] == u[k..][m];
      if b + 1 + n + 1 < |s| {
        assert s[b + 1 + n + 1] == u[k..][m + 1];
      }
    }
  }

  /** The separated names stop where no separator and name follow, given
      that they start after a maximal name. */
  lemma {:induction false} MoreNamesMaximal(syn: Syntax, t: string)
    requires |t| == 0 || !IsNameChar(syn, t[0])
    ensures AccountEnds(syn, t, MoreNamesLength(syn, t))
    decreases |t|
  {
    if |t| > 0 && t[0] == syn.sep && Span(t[1..], NameChar(syn)) > 0 {
      var k := 1 + Span(t[1..], NameChar(syn));
      assert k == |t| || t[k] == t[1..][k - 1];
      MoreNamesMaximal(syn, t[k..]);
      var m := MoreNamesLength(syn, t[k..]);
      if k + m < |t| {
        assert t[k + m] == t[k..][m];
        if k + m + 1 < |t| {
          assert t[k + m + 1] == t[k..][m + 1];
        }
      }
    } else if |t| > 1 {
      assert NameChar(syn)(t[1]) == IsNameChar(syn, t[1]);
      assert t[1] == t[1..][0];
    }
  }

  /** What `full_account` consumed: a base name of length `b`, the
      separator, and `n` characters of sub-account names. */
  lemma FullAccountShape(syn: Syntax, s: string) returns (b: nat, n: nat)
    requires FullAccount(syn, s).Some?
    ensures BaseLength(syn.bases, s) == Some(b) && b < |s| && s[b] == syn.sep
    ensures SubaccountLength(syn, s[b + 1..]) == Some(n)
    ensures FullAccount(syn, s).value.value == s[..b + 1 + n]
  {
    b := BaseLength(syn.bases, s).value;
    n := SubaccountLength(syn, s[b + 1..]).value;
  }

  /** A base name, the separator and names make account text. */
  lemma AccountFromParts(syn: Syntax, s: string, i: int, b: nat, n: nat)
    requires 0 <= i < |syn.bases| && b == |syn.bases[i]| && Strings.StartsWith(s, syn.bases[i])
    requires b < |s| && s[b] == syn.sep
    requires n <= |s| - b - 1
    requires IsNames(syn, s[b + 1..][..n])
    ensures IsAccountText(syn, s[..b + 1 + n])
  {
    var t := s[..b + 1 + n];
    assert t[..b + 1] == syn.bases[i] + [syn.sep];
    assert t[b + 1..] == s[b + 1..][..n];
  }

  /** The text `subaccount` consumes splits into non-empty names. */
  lemma SubaccountNames(syn: Syntax, s: string)
    requires !IsNameChar(syn, syn.sep)
    requires SubaccountLength(syn, s).Some?
    ensures IsNames(syn, s[..SubaccountLength(syn, s).value])
  {
    var n := Span(s, NameChar(syn));
    var m := MoreNamesLength(syn, s[n..]);
    MoreNames(syn, s[n..]);
    var tail := s[n..][..m];
    if m > 0 {
      assert tail[1..] == s[n..][1..m];
    }
    assert s[..n + m] == s[..n] + tail;
    NameThenMore(syn, s[..n], tail);
  }

  /** The text `(ACCOUNT_SEP account_name)*` consumes, when not empty, is a
      separator followed by non-empty names between separators. */
  lemma {:induction false} MoreNames(syn: Syntax, s: string)
    requires !IsNameChar(syn, syn.sep)
    ensures var m := MoreNamesLength(syn, s);
            m > 0 ==> s[0] == syn.sep && IsNames(syn, s[1..m])
    decreases |s|
  {
    var m := MoreNamesLength(syn, s);
    if m > 0 {
      var k := 1 + Span(s[1..], NameChar(syn));
      var m' := MoreNamesLength(syn, s[k..]);
      MoreNames(syn, s[k..]);
      assert m == k + m';
      var name := s[1..k];
      assert name == s[1..][..k - 1];
      var tail := s[k..][..m'];
      if m' > 0 {
        assert tail[1..] == s[k..][1..m'];
      }
      assert s[1..m] == name + tail;
      NameThenMore(syn, name, tail);
    }
  }

  /** A name followed by nothing, or by the separator and a list of names,
      is a list of names. */
  lemma NameThenMore(syn: Syntax, name: string, tail: string)
    requires !IsNameChar(syn, syn.sep) && IsName(syn, name)
    requires |tail| == 0 || (tail[0] == syn.sep && IsNames(syn, tail[1..]))
    ensures IsNames(syn, name + tail)
  {
    NameHasNoSep(syn, name);
    if |tail| == 0 {
      assert name + tail == name;
      OneName(syn, name);
    } else {
      assert name + tail == name + [syn.sep] + tail[1..];
      NamesAppend(syn, name, tail[1..]);
    }
  }

  /** One non-empty name is a list of names. */
  lemma OneName(syn: Syntax, name: string)
    requires IsName(syn, name) && syn.sep !in name
    ensures IsNames(syn, name)
  {
    SplitNoSep(name, syn.sep);
  }

  /** A name, the separator and a list of names make a list of names. */
  lemma NamesAppend(syn: Syntax, name: string, rest: string)
    requires IsName(syn, name) && syn.sep !in name
    requires IsNames(syn, rest)
    ensures IsNames(syn, name + [syn.sep] + rest)
  {
    Strings.SplitAppend(name, rest, syn.sep);
    SplitNoSep(name, syn.sep);
    assert Strings.Split(name + [syn.sep] + rest, syn.sep) == [name] + Strings.Split(rest, syn.sep);
  }

  lemma NameHasNoSep(syn: Syntax, name: string)
    requires !IsNameChar(syn, syn.sep) && All(name, NameChar(syn))
    ensures syn.sep !in name
  {
  }

  /** A string without the separator is one piece. */
  lemma {:induction false} SplitNoSep(s: string, sep: char)
    requires sep !in s
    ensures Strings.Split(s, sep) == [s]
    decreases |s|
  {
    if |s| > 0 {
      SplitNoSep(s[1..], sep);
      assert [s[0]] + s[1..] == s;
    }
  }

  // ----- date_string -----

  /** The value of a run of decimal digits. */
  function DigitsValue(t: string): nat
    requires All(t, IsDigit)
  {
    if |t| == 0 then 0 else 10 * DigitsValue(t[..|t| - 1]) + (t[|t| - 1] as int - '0' as int)
  }

  predicate IsLeapYear(y: int) {
    (y % 4 == 0 && y % 100 != 0) || y % 400 == 0
  }

  function DaysInMonth(y: int, m: int): int
    requires 1 <= m <= 12
  {
    if m == 2 then (if IsLeapYear(y) then 29 else 28)
    else if m == 4 || m == 6 || m == 9 || m == 11 then 30
    else 31
  }

  /** A day of the proleptic Gregorian calendar. */
  predicate ValidDate(d: Date) {
    1 <= d.month <= 12 && 1 <= d.day <= DaysInMonth(d.year, d.month)
  }

  /** The shape `date_string` checks first: four digits, `-`, two digits,
      `-`, two digits. */
  predicate HasDateShape(s: string) {
    && |s| >= 10
    && All(s[..4], IsDigit) && s[4] == '-'
    && All(s[5..7], IsDigit) && s[7] == '-'
    && All(s[8..10], IsDigit)
  }

  /** `date_string`: the shape, then chrono's `%Y-%m-%d` reading of those ten
      characters, which fails for a day the calendar does not have. */
  function DateString(s: string): (r: Option<Parsed<Date>>)
    ensures r.Some? <==> HasDateShape(s) && ValidDate(Date(DigitsValue(s[..4]), DigitsValue(s[5..7]), DigitsValue(s[8..10])))
    ensures r.Some? ==> r.value.length == 10 && ValidDate(r.value.value)
  {
    if !HasDateShape(s) then None
    else
      var d := Date(DigitsValue(s[..4]), DigitsValue(s[5..7]), DigitsValue(s[8..10]));
      if ValidDate(d) then Some(Parsed(d, 10)) else None
  }

  /** Two decimal digits of `n`, with a leading zero. */
  function Digits2(n: nat): string
    requires n < 100
  {
    [(('0' as int) + n / 10) as char, (('0' as int) + n % 10) as char]
  }

  /** Four decimal digits of `n`, with leading zeros. */
  function Digits4(n: nat): string
    requires n < 10000
  {
    Digits2(n / 100) + Digits2(n % 100)
  }

  /** A date written `%Y-%m-%d` with a four-digit year. */
  function FormatDate(d: Date): string
    requires 0 <= d.year < 10000 && ValidDate(d)
  {
    Digits4(d.year) + "-" + Digits2(d.month) + "-" + Digits2(d.day)
  }

  lemma Digits2Value(n: nat)
    requires n < 100
    ensures All(Digits2(n), IsDigit) && DigitsValue(Digits2(n)) == n
  {
    var t := Digits2(n);
    assert t[..1] == [t[0]] && [t[0]][..0] == [];
    assert DigitsValue([t[0]]) == n / 10;
  }

  lemma Digits4Value(n: nat)
    requires n < 10000
    ensures All(Digits4(n), IsDigit) && DigitsValue(Digits4(n)) == n
  {
    Digits2Value(n / 100);
    Digits2Value(n % 100);
    DigitsValueAppend(Digits2(n / 100), Digits2(n % 100));
    assert Pow10(2) == 100;
  }

  lemma {:induction false} DigitsValueAppend(a: string, b: string)
    requires All(a, IsDigit) && All(b, IsDigit)
    ensures All(a + b, IsDigit)
    ensures DigitsValue(a + b) == DigitsValue(a) * Pow10(|b|) + DigitsValue(b)
    decreases |b|
  {
    if |b| == 0 {
      assert a + b == a;
    } else {
      var b' := b[..|b| - 1];
      var d := b[|b| - 1] as int - '0' as int;
      assert (a + b)[..|a + b| - 1] == a + b';
      assert (a + b)[|a + b| - 1] == b[|b| - 1];
      DigitsValueAppend(a, b');
      assert DigitsValue(a + b) == 10 * DigitsValue(a + b') + d;
      assert DigitsValue(b) == 10 * DigitsValue(b') + d;
      ShiftDigit(DigitsValue(a), DigitsValue(b'), Pow10(|b'|), d);
    }
  }

  /** One more digit after `a` followed by `b'`: the arithmetic step. */
  lemma ShiftDigit(va: int, vb: int, p: int, d: int)
    ensures 10 * (va * p + vb) + d == va * (10 * p) + (10 * vb + d)
  {
    assert 10 * (va * p) == va * (10 * p);
  }

  function Pow10(n: nat): nat {
    if n == 0 then 1 else 10 * Pow10(n - 1)
  }

  /** Reading back a written date gives the date. */
  lemma DateRoundTrip(d: Date)
    requires 0 <= d.year < 10000 && ValidDate(d)
    ensures DateString(FormatDate(d)) == Some(Parsed(d, 10))
  {
    var s := FormatDate(d);
    Digits4Value(d.year);
    Digits2Value(d.month);
    Digits2Value(d.day);
    assert s[..4] == Digits4(d.year);
    assert s[5..7] == Digits2(d.month);
    assert s[8..10] == Digits2(d.day);
  }

  // ----- tag, tag_list -----

  /** `#` followed by one or more ASCII letters or digits. */
  predicate IsTagText(t: string) {
    |t| > 1 && t[0] == '#' && All(t[1..], IsAsciiAlphanumeric)
  }

  /** `tag`: `#` and one or more ASCII letters or digits; the value is the
      consumed text, `#` included. */
  function Tag(s: string): (r: Option<Parsed<string>>)
    ensures r.Some? ==> 1 < r.value.length <= |s| && r.value.value == s[..r.value.length]
    ensures r.Some? ==> IsTagText(r.value.value)
    ensures r.Some? ==> r.value.length == |s| || !IsAsciiAlphanumeric(s[r.value.length])
    ensures r.None? <==> !(1 < |s| && s[0] == '#' && IsAsciiAlphanumeric(s[1]))
  {
    if |s| > 0 && s[0] == '#' then
      var n :- Span1(s[1..], IsAsciiAlphanumeric);
      assert s[..1 + n][1..] == s[1..][..n];
      Some(Parsed(s[..1 + n], 1 + n))
    else None
  }

  /** `separated(1.., tag, " ")`: the tags, and the characters consumed; a
      space not followed by a tag is left unconsumed. */
  function Tags(s: string): (r: Option<Parsed<seq<string>>>)
    ensures r.Some? ==> 0 < r.value.length <= |s| && |r.value.value| > 0
    ensures r.Some? ==> forall t :: t in r.value.value ==> IsTagText(t)
    ensures r.None? <==> Tag(s).None?
    ensures r.Some? ==> TagsEnd(s, r.value.length)
    decreases |s|
  {
    var t :- Tag(s);
    var n := t.length;
    if n < |s| && s[n] == ' ' && Tag(s[n + 1..]).Some? then
      var rest := Tags(s[n + 1..]).value;
      Some(Parsed([t.value] + rest.value, n + 1 + rest.length))
    else Some(Parsed([t.value], n))
  }

  /** The list stops at `k`: at the end of the text, or where no space and
      tag follow. */
  predicate TagsEnd(s: string, k: nat)
    requires k <= |s|
  {
    k == |s| || s[k] != ' ' || Tag(s[k + 1..]).None?
  }

  /** `tag_list`: the tags joined with single spaces. */
  function TagList(s: string): (r: Option<Parsed<string>>)
    ensures r.Some? <==> Tags(s).Some?
    ensures r.Some? ==> r.value.length == Tags(s).value.length
    ensures r.None? <==> Tag(s).None?
    ensures r.Some? ==> r.value.length <= |s| && TagsEnd(s, r.value.length)
  {
    var ts :- Tags(s);
    Some(Parsed(Strings.Join(ts.value, " "), ts.length))
  }

  /** Joining the tags with single spaces gives back exactly the text the
      tag list was read from. */
  lemma TagListIsText(s: string)
    requires TagList(s).Some?
    ensures TagList(s).value.value == s[..TagList(s).value.length]
  {
    TagsText(s);
  }

  lemma {:induction false} TagsText(s: string)
    requires Tags(s).Some?
    ensures Strings.Join(Tags(s).value.value, " ") == s[..Tags(s).value.length]
    decreases |s|
  {
    var t := Tag(s).value;
    var n := t.length;
    if n < |s| && s[n] == ' ' && Tag(s[n + 1..]).Some? {
      var u := s[n + 1..];
      var rest := Tags(u).value;
      TagsText(u);
      JoinCons(t.value, rest.value, " ");
      SliceAroundSpace(s, n, rest.length);
    }
  }

  lemma SliceAt(s: string, a: nat, k: nat, m: nat)
    requires a <= k && 0 < m && k + m <= |s|
    ensures s[a..k + m] == s[a..k] + [s[k]] + s[k..][1..m]
  {
  }

  lemma SliceAroundSpace(s: string, n: nat, m: nat)
    requires n < |s| && s[n] == ' ' && n + 1 + m <= |s|
    ensures s[..n + 1 + m] == s[..n] + " " + s[n + 1..][..m]
  {
  }

  lemma JoinCons(x: string, xs: seq<string>, sep: string)
    requires |xs| > 0
    ensures Strings.Join([x] + xs, sep) == x + sep + Strings.Join(xs, sep)
  {
    assert ([x] + xs)[1..] == xs;
  }

  // ----- opt_commodity_position, opt_total_cost -----

  /** `space1`: one or more spaces or tabs. */
  function Space1(s: string): (r: Option<nat>)
    ensures r.Some? ==> 0 < r.value <= |s|
  {
    Span1(s, IsSpace)
  }

  /** `(space1, decimal_string, space1, commodity)`. */
  function CommodityPosition(syn: Syntax, s: string): (r: Option<Parsed<(Decimal, string)>>)
    ensures r.Some? ==> r.value.length <= |s|
  {
    var a :- Space1(s);
    var q :- DecimalString(syn, s[a..]);
    var b :- Space1(s[a + q.length..]);
    var c :- Commodity(s[a + q.length + b..]);
    Some(Parsed((q.value, c.value), a + q.length + b + c.length))
  }

  /** `(space1, COST_SEP, space1, decimal_string, space1, commodity)`. */
  function TotalCost(syn: Syntax, s: string): (r: Option<Parsed<(Decimal, string)>>)
    ensures r.Some? ==> r.value.length <= |s|
  {
    var a :- Space1(s);
    if !Strings.StartsWith(s[a..], syn.costSep) then None
    else
      var k := a + |syn.costSep|;
      var p :- CommodityPosition(syn, s[k..]);
      Some(Parsed(p.value, k + p.length))
  }

  /** A quantity and commodity read together, both present or both absent. */
  datatype Position = Position(quantity: Option<Decimal>, commodity: Option<string>)

  /** `opt(...)` over a position recogniser: a failure consumes nothing and
      gives an absent pair. */
  function OptPosition(r: Option<Parsed<(Decimal, string)>>): (o: Parsed<Position>)
    ensures o.value.quantity.Some? <==> o.value.commodity.Some?
    ensures r.None? ==> o.length == 0
    ensures r.Some? ==> o.value == Position(Some(r.value.value.0), Some(r.value.value.1)) && o.length == r.value.length
  {
    match r
    case None => Parsed(Position(None, None), 0)
    case Some(p) => Parsed(Position(Some(p.value.0), Some(p.value.1)), p.length)
  }

  /** `opt_commodity_position`. */
  function OptCommodityPosition(syn: Syntax, s: string): (r: Parsed<Position>)
    ensures r.value.quantity.Some? <==> r.value.commodity.Some?
    ensures r.length <= |s|
  {
    OptPosition(CommodityPosition(syn, s))
  }

  /** `opt_total_cost`. */
  function OptTotalCost(syn: Syntax, s: string): (r: Parsed<Position>)
    ensures r.value.quantity.Some? <==> r.value.commodity.Some?
    ensures r.length <= |s|
  {
    OptPosition(TotalCost(syn, s))
  }
}

=== FILE: parse.dfy ===
/** Transaction statements of the ledger grammar and what parsing them
    records (ledger-rs-core/src/parse.rs:306-374, 453-484): a header line,
    a line ending, and one or more posting lines separated by line endings.
    The header's statement number becomes the current transaction number,
    which every following posting carries. Positions are offsets into the
    file, converted to u32 with `as u32`; the source's spans count UTF-8
    bytes, this model counts characters, which agree on ASCII text. */
module Parse {
  import opened Wrappers
  import opened Ledger
  import opened Lexical
  import Strings
  import ParserState

  /** Rust's `n as u32` on a `usize`: the low 32 bits. */
  function AsU32(n: nat): (r: nat)
    ensures r <= ParserState.U32Max
    ensures n <= ParserState.U32Max ==> r == n
  {
    n % (ParserState.U32Max + 1)
  }

  predicate IsLineChar(c: char) {
    c != Strings.LineFeed && c != Strings.CarriageReturn
  }

  /** `space0`. */
  function Space0(s: string): (n: nat)
    ensures n <= |s|
  {
    Span(s, IsSpace)
  }

  /** `comment`: `;` and the rest of the line. */
  function Comment(s: string): (r: Option<nat>)
    ensures r.Some? <==> |s| > 0 && s[0] == ';'
    ensures r.Some? ==> 0 < r.value <= |s| && All(s[1..r.value], IsLineChar)
    ensures r.Some? ==> r.value == |s| || !IsLineChar(s[r.value])
  {
    if |s| > 0 && s[0] == ';' then
      var n := Span(s[1..], IsLineChar);
      assert s[1..1 + n] == s[1..][..n];
      Some(1 + n)
    else None
  }

  /** `opt(comment)`: the characters a comment takes, if there is one. */
  function OptComment(s: string): (n: nat)
    ensures n <= |s|
  {
    match Comment(s)
    case Some(n) => n
    case None => 0
  }

  /** The delimiter of a quoted narration. */
  predicate IsQuote(c: char) {
    c == '"'
  }

  predicate IsNotQuote(c: char) {
    !IsQuote(c)
  }

  /** `quoted_string`: one or more characters other than a double quote,
      between two double quotes; the value is the text between them. */
  function QuotedString(s: string): (r: Option<Parsed<string>>)
    ensures r.Some? ==> 2 < r.value.length <= |s| && IsQuote(s[0]) && IsQuote(s[r.value.length - 1])
    ensures r.Some? ==> r.value.length == |r.value.value| + 2 && r.value.value == s[1..][..|r.value.value|]
    ensures r.Some? ==> All(r.value.value, IsNotQuote)
  {
    if |s| > 0 && IsQuote(s[0]) then
      var n :- Span1(s[1..], IsNotQuote);
      if 1 + n < |s| && IsQuote(s[1 + n]) then
        assert s[1..1 + n] == s[1..][..n];
        Some(Parsed(s[1..1 + n], n + 2))
      else None
    else None
  }

  /** The text of one posting line. */
  datatype PostingText = PostingText(account: string, cost: Position, totalCost: Position)

  /** `posting`'s recogniser: two spaces, an account, an optional position,
      an optional total cost, spaces and an optional comment. */
  function PostingLine(syn: Syntax, s: string): (r: Option<Parsed<PostingText>>)
    ensures r.Some? ==> 2 < r.value.length <= |s| && Strings.StartsWith(s, "  ")
    ensures r.Some? ==> FullAccount(syn, s[2..]).Some? && r.value.value.account == FullAccount(syn, s[2..]).value.value
    ensures r.Some? ==> FieldsRead(syn, s, 2 + FullAccount(syn, s[2..]).value.length, r.value.value)
  {
    if !Strings.StartsWith(s, "  ") then None
    else
      var a :- FullAccount(syn, s[2..]);
      Some(PostingFields(syn, s, a.value, 2 + a.length))
  }

  /** `p`'s cost and total cost are what `opt_commodity_position` and then
      `opt_total_cost` read from offset `k` of `s`. */
  predicate FieldsRead(syn: Syntax, s: string, k: nat, p: PostingText) {
    && k <= |s|
    && p.cost == OptCommodityPosition(syn, s[k..]).value
    && k + OptCommodityPosition(syn, s[k..]).length <= |s|
    && p.totalCost == OptTotalCost(syn, s[k + OptCommodityPosition(syn, s[k..]).length..]).value
  }

  /** What a posting line holds after its account, which ends at `k`: an
      optional position, an optional total cost, spaces and an optional
      comment. */
  function PostingFields(syn: Syntax, s: string, account: string, k: nat): (r: Parsed<PostingText>)
    requires k <= |s|
    ensures k <= r.length <= |s| && r.value.account == account
    ensures FieldsRead(syn, s, k, r.value)
  {
    var cp := OptCommodityPosition(syn, s[k..]);
    var k1 := k + cp.length;
    var tc := OptTotalCost(syn, s[k1..]);
    var k2 := k1 + tc.length;
    var n := k2 + Space0(s[k2..]);
    Parsed(PostingText(account, cp.value, tc.value), n + OptComment(s[n..]))
  }

  /** The text of one transaction header line. */
  datatype HeaderText = HeaderText(date: Date, narration: string, tags: Option<string>)

  /** `opt(opt_tag_list)`: spaces, then tags joined by single spaces. */
  function OptTagList(s: string): (r: Parsed<Option<string>>)
    ensures r.length <= |s|
    ensures r.value.Some? <==> Space1(s).Some? && TagList(s[Space1(s).value..]).Some?
  {
    match Space1(s)
    case None => Parsed(None, 0)
    case Some(a) =>
      match TagList(s[a..])
      case None => Parsed(None, 0)
      case Some(t) => Parsed(Some(t.value), a + t.length)
  }

  /** `h`'s narration is a quoted string that starts after the date, and its
      tags are what `opt_tag_list` reads right after that string. */
  predicate NarrationRead(s: string, h: HeaderText) {
    exists i, j ::
      && 10 < i <= j <= |s| && QuotedString(s[i..]).Some?
      && h.narration == QuotedString(s[i..]).value.value
      && j == i + QuotedString(s[i..]).value.length
      && h.tags == OptTagList(s[j..]).value
  }

  /** `transaction_header`'s recogniser: a date, the transaction flag, a
      quoted narration, optional tags, spaces and an optional comment. */
  function HeaderLine(syn: Syntax, s: string): (r: Option<Parsed<HeaderText>>)
    ensures r.Some? ==> 10 < r.value.length <= |s|
    ensures r.Some? ==> DateString(s).Some? && r.value.value.date == DateString(s).value.value
    ensures r.Some? ==> NarrationRead(s, r.value.value)
  {
    var d :- DateString(s);
    var a :- Space1(s[10..]);
    var k := 10 + a;
    if !Strings.StartsWith(s[k..], syn.transactionFlag) then None
    else
      var k1 := k + |syn.transactionFlag|;
      var b :- Space1(s[k1..]);
      var q :- QuotedString(s[k1 + b..]);
      var m := k1 + b + q.length;
      var tags := OptTagList(s[m..]);
      var m1 := m + tags.length;
      var n := m1 + Space0(s[m1..]);
      Some(Parsed(HeaderText(d.value, q.value, tags.value), n + OptComment(s[n..])))
  }

  /** `line_ending`: `\n` or `\r\n`. */
  function LineEnding(s: string): (r: Option<nat>)
    ensures r.Some? ==> 0 < r.value <= |s|
    ensures r == Some(1) <==> Strings.StartsWith(s, Strings.Lf)
    ensures r == Some(2) <==> Strings.StartsWith(s, Strings.CrLf)
  {
    if |s| > 0 && s[0] == Strings.LineFeed then
      assert s[..1] == Strings.Lf;
      Some(1)
    else if |s| > 1 && s[0] == Strings.CarriageReturn && s[1] == Strings.LineFeed then
      assert s[..2] == Strings.CrLf;
      Some(2)
    else None
  }

  /** A recognised piece of text with its span in the file. */
  datatype Located<T> = Located(value: T, start: nat, end: nat)

  predicate StrictlyIncreasing<T>(ls: seq<Located<T>>) {
    forall i, j :: 0 <= i < j < |ls| ==> ls[i].start < ls[j].start
  }

  /** A recogniser that consumes at least one character when it accepts. */
  ghost predicate Consumes<T>(item: string -> Option<Parsed<T>>) {
    forall t :: item(t).Some? ==> 0 < item(t).value.length <= |t|
  }

  /** `separated(1.., item, line_ending)` on the text at offset `base`: the
      items with their spans, and the characters consumed. A line ending not
      followed by an item is left unconsumed. The items start where the list
      does, in increasing position, each inside the consumed text. */
  function SeparatedLines<T>(item: string -> Option<Parsed<T>>, s: string, base: nat): (r: Option<(seq<Located<T>>, nat)>)
    requires Consumes(item)
    ensures r.Some? <==> item(s).Some?
    ensures r.Some? ==> 0 < |r.value.0| && r.value.1 <= |s|
    ensures r.Some? ==> r.value.0[0].start == base && StrictlyIncreasing(r.value.0)
    ensures r.Some? ==> forall i :: 0 <= i < |r.value.0| ==> base <= r.value.0[i].start < base + r.value.1
    decreases |s|
  {
    var p :- item(s);
    var n := p.length;
    var first := Located(p.value, base, base + n);
    match LineEnding(s[n..])
    case Some(e) =>
      if item(s[n + e..]).Some? then
        var rest := SeparatedLines(item, s[n + e..], base + n + e).value;
        ConsOrdered(first, rest.0, base, base + n + e, base + n + e + rest.1);
        Some(([first] + rest.0, n + e + rest.1))
      else
        ConsOrdered(first, [], base, base + n, base + n);
        Some(([first], n))
    case None =>
      ConsOrdered(first, [], base, base + n, base + n);
      Some(([first], n))
  }

  /** An item in front of a list that starts later keeps the list ordered
      and inside the wider bounds. */
  lemma ConsOrdered<T>(first: Located<T>, rest: seq<Located<T>>, lo: nat, mid: nat, hi: nat)
    requires first.start == lo < mid <= hi
    requires StrictlyIncreasing(rest)
    requires forall i :: 0 <= i < |rest| ==> mid <= rest[i].start < hi
    ensures ([first] + rest)[0].start == lo
    ensures StrictlyIncreasing([first] + rest)
    ensures forall i :: 0 <= i < |[first] + rest| ==> lo <= ([first] + rest)[i].start < hi
  {
    var ls := [first] + rest;
    assert forall i :: 1 <= i < |ls| ==> ls[i] == rest[i - 1];
  }

  /** `posting`'s recogniser as a value. */
  function PostingItem(syn: Syntax): (item: string -> Option<Parsed<PostingText>>)
    ensures Consumes(item)
  {
    t => PostingLine(syn, t)
  }

  /** `transaction_header`'s recogniser as a value. */
  function HeaderItem(syn: Syntax): (item: string -> Option<Parsed<HeaderText>>)
    ensures Consumes(item)
  {
    t => HeaderLine(syn, t)
  }

  /** A header line, a line ending, then items separated by line endings,
      at offset `base`. The items come after the header, in increasing
      position, inside the consumed text. */
  function HeadedLines<H, T>(header: string -> Option<Parsed<H>>, item: string -> Option<Parsed<T>>, s: string, base: nat): (r: Option<(Located<H>, seq<Located<T>>, nat)>)
    requires Consumes(header) && Consumes(item)
    ensures r.Some? ==> r.value.0.start == base && r.value.2 <= |s| && |r.value.1| > 0
    ensures r.Some? ==> StrictlyIncreasing(r.value.1)
    ensures r.Some? ==> forall i :: 0 <= i < |r.value.1| ==> base < r.value.1[i].start < base + r.value.2
  {
    var h :- header(s);
    var e :- LineEnding(s[h.length..]);
    var k := h.length + e;
    var ps :- SeparatedLines(item, s[k..], base + k);
    Some((Located(h.value, base, base + h.length), ps.0, k + ps.1))
  }

  /** `transaction_statement`'s text at offset `base`: the header, a line
      ending, and the postings. */
  function TransactionLines(syn: Syntax, s: string, base: nat): (r: Option<(Located<HeaderText>, seq<Located<PostingText>>, nat)>)
    ensures r.Some? ==> r.value.0.start == base && r.value.2 <= |s| && |r.value.1| > 0
  {
    HeadedLines(HeaderItem(syn), PostingItem(syn), s, base)
  }

  // ----- What parsing records -----

  /** The parser state `parse.rs` updates: the file stack and statement
      counter, the current transaction number, and the records pushed. */
  datatype Session = Session(
    state: ParserState.State,
    transactionNo: nat,
    transactions: seq<HeaderParams>,
    postings: seq<PostingParams>)

  /** `transaction_header`'s effect: the header's statement number becomes
      the transaction number, and the header is recorded. */
  function Header(sess: Session, h: Located<HeaderText>): (r: Result<Session, ParserState.Panic>)
    ensures r.Ok? <==> ParserState.StatementNo(sess.state, AsU32(h.start)).Ok?
    ensures r.Ok? ==> |r.value.transactions| > 0 && r.value.transactions == sess.transactions + [Last(r.value.transactions)]
    ensures r.Ok? ==> r.value.postings == sess.postings
    ensures r.Ok? ==> var t := Last(r.value.transactions);
              && t.statementNo == r.value.transactionNo == r.value.state.statementNo
              && t.date == h.value.date && t.narration == h.value.narration && t.tags == h.value.tags
              && t.start == AsU32(h.start) && t.end == AsU32(h.end)
    ensures r.Ok? ==> r.value.state == ParserState.StatementNo(sess.state, AsU32(h.start)).value.0
  {
    var (st, no) :- ParserState.StatementNo(sess.state, AsU32(h.start));
    match ParserState.FileNo(st)
    case None => Err(ParserState.NoCurrentFile)
    case Some(f) =>
      var t := HeaderParams(no, f, AsU32(h.start), AsU32(h.end), h.value.date, h.value.narration, h.value.tags);
      Ok(Session(st, no, sess.transactions + [t], sess.postings))
  }

  function Last<T>(xs: seq<T>): T
    requires |xs| > 0
  {
    xs[|xs| - 1]
  }

  /** `posting`'s effect: a posting numbered by its position, carrying the
      current transaction number; its tc fields are the total cost when one
      is written and the position otherwise. */
  function Posting(sess: Session, p: Located<PostingText>): (r: Result<Session, ParserState.Panic>)
    ensures r.Ok? <==> ParserState.StatementNo(sess.state, AsU32(p.start)).Ok?
    ensures r.Ok? ==> |r.value.postings| > 0 && r.value.postings == sess.postings + [Last(r.value.postings)]
    ensures r.Ok? ==> r.value.transactions == sess.transactions && r.value.transactionNo == sess.transactionNo
    ensures r.Ok? ==> var q := Last(r.value.postings);
              && q.statementNo == r.value.state.statementNo
              && q.transactionNo == sess.transactionNo
              && q.account == p.value.account
              && q.cpQuantity == p.value.cost.quantity && q.cpCommodity == p.value.cost.commodity
              && q.start == AsU32(p.start) && q.end == AsU32(p.end)
    ensures r.Ok? ==> var q := Last(r.value.postings);
              if p.value.totalCost.quantity.None? && p.value.totalCost.commodity.None?
              then q.tcQuantity == p.value.cost.quantity && q.tcCommodity == p.value.cost.commodity
              else q.tcQuantity == p.value.totalCost.quantity && q.tcCommodity == p.value.totalCost.commodity
    ensures r.Ok? ==> r.value.state == ParserState.StatementNo(sess.state, AsU32(p.start)).value.0
  {
    var (st, no) :- ParserState.StatementNo(sess.state, AsU32(p.start));
    match ParserState.FileNo(st)
    case None => Err(ParserState.NoCurrentFile)
    case Some(f) =>
      var cp := p.value.cost;
      var tc := if !(p.value.totalCost.quantity.None? && p.value.totalCost.commodity.None?) then p.value.totalCost else cp;
      var q := PostingParams(no, sess.transactionNo, f, AsU32(p.start), AsU32(p.end), p.value.account,
                             cp.quantity, cp.commodity, tc.quantity, tc.commodity);
      Ok(Session(st, sess.transactionNo, sess.transactions, sess.postings + [q]))
  }

  /** The effects of the postings in order. */
  function Postings(sess: Session, ps: seq<Located<PostingText>>): (r: Result<Session, ParserState.Panic>)
    decreases |ps|
  {
    if |ps| == 0 then Ok(sess)
    else
      var s1 :- Posting(sess, ps[0]);
      Postings(s1, ps[1..])
  }

  /** `transaction_statement`'s effect: the header, then its postings. */
  function TransactionStatement(sess: Session, h: Located<HeaderText>, ps: seq<Located<PostingText>>): (r: Result<Session, ParserState.Panic>)
  {
    var s1 :- Header(sess, h);
    Postings(s1, ps)
  }

  // ----- transaction_statement inside `alt` -----

  /** What `transaction_statement`'s recognisers found at offset `base`:
      the header line, and the whole statement (header, line ending,
      postings) when it is there. */
  type StatementText = (Located<HeaderText>, seq<Located<PostingText>>, nat)

  /** A whole statement starts with the header line that was found. */
  predicate Recognised(header: Option<Parsed<HeaderText>>, lines: Option<StatementText>, base: nat) {
    lines.Some? ==> header.Some? && lines.value.0 == Located(header.value.value, base, base + header.value.length)
  }

  /** The recognisers of the grammar find a header and a statement that
      agree. */
  lemma TransactionHeader(syn: Syntax, s: string, base: nat)
    ensures Recognised(HeaderLine(syn, s), TransactionLines(syn, s, base), base)
  {
    assert HeaderItem(syn)(s) == HeaderLine(syn, s);
  }

  /** Trying `transaction_statement` at offset `base`, as the code runs,
      given what the recognisers found: winnow's `alt` resets the input
      when an alternative fails, but not the parser state, so once the
      header line is recognised its effect stays even when no line ending
      or posting follows. The second component is how many characters the
      statement consumed, `None` when it failed and `alt` goes on to the
      next alternative. */
  function TransactionAttempt(sess: Session, header: Option<Parsed<HeaderText>>, lines: Option<StatementText>, base: nat): (r: Result<(Session, Option<nat>), ParserState.Panic>)
    requires Recognised(header, lines, base)
    ensures header.None? ==> r == Ok((sess, None))
    ensures lines.None? && r.Ok? ==> r.value.1.None?
    ensures header.Some? && lines.None? && r.Ok? ==>
              && |r.value.0.transactions| == |sess.transactions| + 1
              && r.value.0.postings == sess.postings
  {
    match header
    case None => Ok((sess, None))
    case Some(h) =>
      match Header(sess, Located(h.value, base, base + h.length))
      case Err(e) => Err(e)
      case Ok(s1) =>
        match lines
        case None => Ok((s1, None))
        case Some(l) => Consumed(Postings(s1, l.1), l.2)
  }

  /** A statement's outcome with the characters it consumed. */
  function Consumed(r: Result<Session, ParserState.Panic>, n: nat): (c: Result<(Session, Option<nat>), ParserState.Panic>)
    ensures c.Ok? <==> r.Ok?
    ensures c.Ok? ==> c.value == (r.value, Some(n))
  {
    match r
    case Err(e) => Err(e)
    case Ok(s) => Ok((s, Some(n)))
  }

  /** `transaction_statement` all or nothing: the header and its postings
      are recorded together, and a statement that is not there leaves the
      session as it was. */
  function TransactionAtomic(sess: Session, lines: Option<StatementText>): (r: Result<(Session, Option<nat>), ParserState.Panic>)
    ensures lines.None? ==> r == Ok((sess, None))
    ensures lines.Some? ==> (r.Ok? <==> TransactionStatement(sess, lines.value.0, lines.value.1).Ok?)
    ensures lines.Some? && r.Ok? ==> r.value == (TransactionStatement(sess, lines.value.0, lines.value.1).value, Some(lines.value.2))
  {
    match lines
    case None => Ok((sess, None))
    case Some(l) => Consumed(TransactionStatement(sess, l.0, l.1), l.2)
  }

  /** When the whole statement is there, the code and the all-or-nothing
      version agree. */
  lemma AttemptIsAtomicWhenComplete(sess: Session, header: Option<Parsed<HeaderText>>, lines: Option<StatementText>, base: nat)
    requires Recognised(header, lines, base) && lines.Some?
    ensures TransactionAttempt(sess, header, lines, base) == TransactionAtomic(sess, lines)
  {
    var l := lines.value;
    match Header(sess, l.0)
    case Err(e) =>
    case Ok(s1) =>
      assert TransactionStatement(sess, l.0, l.1) == Postings(s1, l.1);
  }

  /** When a header line is not followed by a line ending and a posting,
      the code records a header the all-or-nothing version does not. */
  lemma HeaderSurvivesFailedTransaction(sess: Session, header: Option<Parsed<HeaderText>>, base: nat)
    requires header.Some? && TransactionAttempt(sess, header, None, base).Ok?
    ensures TransactionAtomic(sess, None) == Ok((sess, None))
    ensures TransactionAttempt(sess, header, None, base).value.1 == TransactionAtomic(sess, None).value.1
    ensures TransactionAttempt(sess, header, None, base).value.0 != TransactionAtomic(sess, None).value.0
  {
  }

  /** A header line at the end of the text, or followed by a line ending
      and a line that does not start with two spaces (a blank line, say),
      is no transaction. */
  lemma HeaderWithoutPostings(syn: Syntax, s: string, base: nat)
    requires HeaderLine(syn, s).Some?
    requires var n := HeaderLine(syn, s).value.length;
             || n == |s|
             || (LineEnding(s[n..]).Some? && !Strings.StartsWith(s[n + LineEnding(s[n..]).value..], "  "))
    ensures TransactionLines(syn, s, base).None?
  {
    var n := HeaderLine(syn, s).value.length;
    var header, item := HeaderItem(syn), PostingItem(syn);
    assert header(s) == HeaderLine(syn, s);
    if LineEnding(s[n..]).Some? {
      var k := n + LineEnding(s[n..]).value;
      assert PostingLine(syn, s[k..]).None?;
      assert item(s[k..]).None?;
    }
    HeadedLinesStop(header, item, s, base, n);
  }

  /** A header not followed by a line ending and an item is no list. */
  lemma HeadedLinesStop<H, T>(header: string -> Option<Parsed<H>>, item: string -> Option<Parsed<T>>, s: string, base: nat, n: nat)
    requires Consumes(header) && Consumes(item) && header(s).Some? && header(s).value.length == n
    requires n <= |s| && (LineEnding(s[n..]).None? || item(s[n + LineEnding(s[n..]).value..]).None?)
    ensures HeadedLines(header, item, s, base).None?
  {
  }

  /** The position the current file's previous statement started at. */
  function PreviousPosition(st: ParserState.State): nat {
    match ParserState.FileNo(st)
    case Some(f) => if f in st.previous then st.previous[f] else 0
    case None => 0
  }

  /** Postings at increasing positions, after the previous position of
      their file, keep the transaction number and get increasing statement
      numbers above the counter they start from. */
  lemma {:induction false} PostingsNumbered(sess: Session, ps: seq<Located<PostingText>>)
    requires Postings(sess, ps).Ok?
    requires forall i :: 0 <= i < |ps| ==> ps[i].start <= ParserState.U32Max
    requires StrictlyIncreasing(ps)
    requires |ps| > 0 ==> PreviousPosition(sess.state) < ps[0].start
    ensures var r := Postings(sess, ps).value;
            && r.transactions == sess.transactions && r.transactionNo == sess.transactionNo
            && |r.postings| == |sess.postings| + |ps| && r.postings[..|sess.postings|] == sess.postings
    ensures var added := Postings(sess, ps).value.postings[|sess.postings|..];
            forall i :: 0 <= i < |added| ==> added[i].transactionNo == sess.transactionNo && added[i].statementNo > sess.state.statementNo
    ensures var added := Postings(sess, ps).value.postings[|sess.postings|..];
            forall i, j :: 0 <= i < j < |added| ==> added[i].statementNo < added[j].statementNo
    decreases |ps|
  {
    if |ps| > 0 {
      var s1 := Posting(sess, ps[0]).value;
      var q := Last(s1.postings);
      assert q.statementNo > sess.state.statementNo;
      assert PreviousPosition(s1.state) == ps[0].start;
      assert StrictlyIncreasing(ps[1..]);
      PostingsNumbered(s1, ps[1..]);
      var r := Postings(sess, ps).value;
      var added := r.postings[|sess.postings|..];
      var rest := r.postings[|s1.postings|..];
      assert added == [q] + rest;
    }
  }

  /** A parsed transaction statement, applied: the header's statement number
      is the transaction number of every one of its postings, and the header
      and its postings are numbered in increasing order. */
  lemma TransactionNumbering(syn: Syntax, sess: Session, s: string, base: nat)
    requires TransactionLines(syn, s, base).Some?
    requires base + |s| <= ParserState.U32Max
    requires var lines := TransactionLines(syn, s, base).value;
             TransactionStatement(sess, lines.0, lines.1).Ok?
    ensures var lines := TransactionLines(syn, s, base).value;
            var ps := lines.1;
            var r := TransactionStatement(sess, lines.0, ps).value;
            && |r.transactions| == |sess.transactions| + 1
            && |r.postings| == |sess.postings| + |ps|
            && r.postings[..|sess.postings|] == sess.postings
            && var t := Last(r.transactions);
               forall i :: |sess.postings| <= i < |r.postings| ==>
                 r.postings[i].transactionNo == t.statementNo && t.statementNo < r.postings[i].statementNo
    ensures var lines := TransactionLines(syn, s, base).value;
            var r := TransactionStatement(sess, lines.0, lines.1).value;
            forall i, j :: |sess.postings| <= i < j < |r.postings| ==> r.postings[i].statementNo < r.postings[j].statementNo
  {
    var lines := TransactionLines(syn, s, base).value;
    var h, ps := lines.0, lines.1;
    var s1 := Header(sess, h).value;
    assert PreviousPosition(s1.state) == base;
    PostingsNumbered(s1, ps);
    var r := TransactionStatement(sess, h, ps).value;
    var added := r.postings[|sess.postings|..];
    forall i | |sess.postings| <= i < |r.postings|
      ensures r.postings[i] == added[i - |sess.postings|]
    {
    }
  }

  // ----- active_statement -----

  /** The line characters of `s` stop at position `k`: at the end of the
      input, or at a line feed, or at a carriage return before one. */
  predicate EndsLine(s: string, k: nat)
    requires k <= |s|
  {
    k == |s| || s[k] == Strings.LineFeed || (k + 1 < |s| && s[k + 1] == Strings.LineFeed)
  }

  /** A line ending, `\n` or `\r\n`, starts at position `k` of `s`. */
  predicate LineEndingAt(s: string, k: nat)
    requires k <= |s|
  {
    Strings.StartsWith(s[k..], Strings.Lf) || Strings.StartsWith(s[k..], Strings.CrLf)
  }

  /** `till_line_ending`: the characters before the next `\n` or `\r\n`.
      winnow's version fails on a `\r` that no `\n` follows. */
  function TillLineEnding(s: string): (r: Option<nat>)
    ensures r.Some? <==> EndsLine(s, Span(s, IsLineChar))
    ensures r.Some? ==> r.value <= |s|
    ensures r.Some? ==> forall i :: 0 <= i < r.value ==> IsLineChar(s[i])
    ensures r.Some? ==> r.value == |s| || LineEndingAt(s, r.value)
  {
    var k := Span(s, IsLineChar);
    if k == |s| || s[k] == Strings.LineFeed then Some(k)
    else if k + 1 < |s| && s[k + 1] == Strings.LineFeed then Some(k)
    else None
  }

  /** `active_statement`: the first of the statement recognisers, in the
      order `alt` tries them, that accepts the input; when none does,
      `other_statement` takes the rest of the line. */
  function ActiveStatement(alternatives: seq<string -> Option<nat>>, s: string): (r: Option<nat>)
    ensures NoneBefore(alternatives, s, |alternatives|) ==> r == TillLineEnding(s)
    ensures forall i :: 0 <= i < |alternatives| && alternatives[i](s).Some? && NoneBefore(alternatives, s, i) ==> r == alternatives[i](s)
  {
    if |alternatives| == 0 then TillLineEnding(s)
    else if alternatives[0](s).Some? then alternatives[0](s)
    else
      var r := ActiveStatement(alternatives[1..], s);
      assert forall i :: 1 <= i < |alternatives| ==> alternatives[i] == alternatives[1..][i - 1];
      assert forall i :: 1 <= i <= |alternatives| ==> NoneBefore(alternatives, s, i) == NoneBefore(alternatives[1..], s, i - 1);
      r
  }

  /** None of the first `i` alternatives accepts `s`. */
  predicate NoneBefore(alternatives: seq<string -> Option<nat>>, s: string, i: nat)
    requires i <= |alternatives|
  {
    forall j :: 0 <= j < i ==> alternatives[j](s).None?
  }

  /** `active_statement` fails only on a line that ends in a `\r` without a
      `\n` after it, whatever the other statement recognisers do. */
  lemma ActiveStatementFallsThrough(alternatives: seq<string -> Option<nat>>, s: string)
    requires EndsLine(s, Span(s, IsLineChar))
    ensures ActiveStatement(alternatives, s).Some?
  {
    if !NoneBefore(alternatives, s, |alternatives|) {
      var i := FirstAccepting(alternatives, s);
    }
  }

  /** The first alternative that accepts, when one does. */
  lemma FirstAccepting(alternatives: seq<string -> Option<nat>>, s: string) returns (i: nat)
    requires exists k :: 0 <= k < |alternatives| && alternatives[k](s).Some?
    ensures i < |alternatives| && alternatives[i](s).Some?
    ensures NoneBefore(alternatives, s, i)
  {
    i := 0;
    while alternatives[i](s).None?
      invariant i < |alternatives|
      invariant forall j :: 0 <= j < i ==> alternatives[j](s).None?
      invariant exists k :: i <= k < |alternatives| && alternatives[k](s).Some?
      decreases |alternatives| - i
    {
      i := i + 1;
    }
  }
}

=== FILE: qfx.dfy ===
/** The QFX (Quicken OFX) importer (ledger-rs-qfx/src/qfx.rs): the OFX part
    of the file is cut out line by line, its statements are flattened into
    transactions and closing balances, bank statements before the credit
    card statement, and these are numbered into the ledger tables. The SGML
    parse and the byte decoding are not modelled; the parsed document comes
    in as an `Ofx` value. */
module Qfx {
  import opened Wrappers
  import opened Ledger
  import Strings

  // ---------------------------------------------------------------- file

  /** The decoders `parse_qfx_file` can ask for. */
  datatype Encoding = Windows1252

  /** Only the text "1252" selects Windows-1252; anything else, or nothing,
      leaves the decoder to detect the encoding. */
  function EncodingChoice(e: Option<string>): (r: Option<Encoding>)
    ensures r.Some? <==> e == Some("1252")
    ensures r.Some? ==> r.value == Windows1252
  {
    match e
    case Some(s) => if s == "1252" then Some(Windows1252) else None
    case None => None
  }

  /** The line that opens the OFX data: after trimming, it starts with `<OFX>`. */
  predicate IsOfxStart(line: string) {
    Strings.StartsWith(Strings.Trim(line), "<OFX>")
  }

  /** The index of the first line at or after `from` that `isStart` accepts. */
  function FirstFrom(lines: seq<string>, isStart: string -> bool, from: nat): (r: Option<nat>)
    requires from <= |lines|
    ensures r.None? <==> forall j :: from <= j < |lines| ==> !isStart(lines[j])
    ensures r.Some? ==> (from <= r.value < |lines| && isStart(lines[r.value]) &&
              forall j :: from <= j < r.value ==> !isStart(lines[j]))
    decreases |lines| - from
  {
    if from == |lines| then None
    else if isStart(lines[from]) then Some(from)
    else FirstFrom(lines, isStart, from + 1)
  }

  /** The capture loop of `get_ofx_data`: a flag is raised at the first line
      `isStart` accepts, and from then on every line is kept. */
  method CaptureFrom(lines: seq<string>, isStart: string -> bool) returns (kept: seq<string>)
    ensures (forall j :: 0 <= j < |lines| ==> !isStart(lines[j])) ==> kept == []
    ensures forall k :: (0 <= k < |lines| && isStart(lines[k]) &&
              (forall j :: 0 <= j < k ==> !isStart(lines[j]))) ==> kept == lines[k..]
  {
    ghost var first := FirstFrom(lines, isStart, 0);
    var inOfxData := false;
    kept := [];
    var i := 0;
    while i < |lines|
      invariant 0 <= i <= |lines|
      invariant !inOfxData <==> forall j :: 0 <= j < i ==> !isStart(lines[j])
      invariant !inOfxData ==> kept == []
      invariant inOfxData ==> first.Some? && first.value < i && kept == lines[first.value..i]
    {
      var l := lines[i];
      if !inOfxData && isStart(l) {
        inOfxData := true;
        kept := kept + [l];
      } else if inOfxData {
        kept := kept + [l];
      }
      i := i + 1;
    }
    if inOfxData {
      assert lines[first.value..|lines|] == lines[first.value..];
    }
  }

  /** `get_ofx_data` on the file's lines: drops every line before the first
      one that opens the OFX data, keeps that line and all after it, and
      joins them with newlines; no opening line gives the empty text. */
  method GetOfxData(lines: seq<string>) returns (r: string)
    ensures (forall j :: 0 <= j < |lines| ==> !IsOfxStart(lines[j])) ==> r == ""
    ensures forall k :: (0 <= k < |lines| && IsOfxStart(lines[k]) &&
              (forall j :: 0 <= j < k ==> !IsOfxStart(lines[j]))) ==> r == Strings.Join(lines[k..], Strings.Lf)
  {
    var kept := CaptureFrom(lines, IsOfxStart);
    r := Strings.Join(kept, Strings.Lf);
  }

  datatype QfxError = ShortDate(text: string) | BadDate(text: string)

  /** `from_qfx_datetime`: the date is the first eight characters read as
      `%Y%m%d` (`parseDate`); a shorter field makes the slice panic, here
      an error. */
  function FromQfxDatetime(s: string, parseDate: string -> Option<Date>): (r: Result<Date, QfxError>)
    ensures |s| < 8 ==> r == Err(ShortDate(s))
    ensures |s| >= 8 ==> (r.Ok? <==> parseDate(s[..8]).Some?)
    ensures r.Ok? ==> r.value == parseDate(s[..8]).value
  {
    if |s| < 8 then Err(ShortDate(s))
    else
      match parseDate(s[..8])
      case None => Err(BadDate(s))
      case Some(d) => Ok(d)
  }

  // ---------------------------------------------------------------- document

  /** A `<STMTTRN>` entry. */
  datatype StmtTrn = StmtTrn(dtPosted: Date, trnAmt: Decimal, name: Option<string>, memo: Option<string>)

  /** A `<LEDGERBAL>`: the closing balance. */
  datatype LedgerBal = LedgerBal(balAmt: Decimal, dtAsOf: Date)

  /** A bank or credit-card statement: currency, account id, entries, balance. */
  datatype Statement = Statement(curDef: string, acctId: string, tranList: seq<StmtTrn>, ledgerBal: LedgerBal)

  /** The parsed document: a list of bank statements and one credit-card
      statement, either of which may be absent. */
  datatype Ofx = Ofx(bank: Option<seq<Statement>>, creditCard: Option<Statement>)

  datatype InterTrans = InterTrans(date: Date, narration: string, account: string, quantity: Decimal, commodity: string)
  datatype InterBalance = InterBalance(date: Date, account: string, quantity: Decimal, commodity: string)
  datatype ImportState = ImportState(transactions: seq<InterTrans>, balances: seq<InterBalance>)

  /** The narration of an entry: "name / memo", or whichever of the two is
      present, or "PROBLEM". */
  function Narration(name: Option<string>, memo: Option<string>): (r: string)
    ensures name.Some? ==> Strings.StartsWith(r, name.value)
    ensures memo.Some? && name.None? ==> r == memo.value
    ensures name.Some? && memo.Some? ==> r == name.value + " / " + memo.value
    ensures name.None? && memo.None? ==> r == "PROBLEM"
  {
    match (name, memo)
    case (Some(n), Some(m)) =>
      assert (n + " / " + m)[..|n|] == n;
      n + " / " + m
    case (Some(n), None) =>
      assert n[..|n|] == n;
      n
    case (None, Some(m)) => m
    case (None, None) => "PROBLEM"
  }

  function EntryToBk(t: StmtTrn, acctId: string, currency: string): InterTrans {
    InterTrans(t.dtPosted, Narration(t.name, t.memo), acctId, t.trnAmt, currency)
  }

  function EntriesToBk(ts: seq<StmtTrn>, acctId: string, currency: string): (r: seq<InterTrans>)
    ensures |r| == |ts|
    ensures forall i :: 0 <= i < |ts| ==> r[i] == EntryToBk(ts[i], acctId, currency)
  {
    if |ts| == 0 then [] else [EntryToBk(ts[0], acctId, currency)] + EntriesToBk(ts[1..], acctId, currency)
  }

  /** A statement's entries, in order, then its closing balance, all in
      the statement's account and currency. */
  function StatementToBk(st: ImportState, s: Statement): (r: ImportState)
    ensures |r.transactions| == |st.transactions| + |s.tranList| && r.transactions[..|st.transactions|] == st.transactions
    ensures forall i :: 0 <= i < |s.tranList| ==>
              var e := r.transactions[|st.transactions| + i];
              e.date == s.tranList[i].dtPosted && e.narration == Narration(s.tranList[i].name, s.tranList[i].memo) &&
              e.account == s.acctId &&
              e.quantity == s.tranList[i].trnAmt && e.commodity == s.curDef
    ensures |r.balances| == |st.balances| + 1 && r.balances[..|st.balances|] == st.balances
    ensures r.balances[|st.balances|] == InterBalance(s.ledgerBal.dtAsOf, s.acctId, s.ledgerBal.balAmt, s.curDef)
  {
    ImportState(st.transactions + EntriesToBk(s.tranList, s.acctId, s.curDef),
                st.balances + [InterBalance(s.ledgerBal.dtAsOf, s.acctId, s.ledgerBal.balAmt, s.curDef)])
  }

  function StatementsToBk(st: ImportState, ss: seq<Statement>): ImportState
    decreases |ss|
  {
    if |ss| == 0 then st else StatementsToBk(StatementToBk(st, ss[0]), ss[1..])
  }

  /** `OFX::to_bk`: the bank statements in list order, then the credit-card
      statement. */
  function OfxToBk(st: ImportState, o: Ofx): ImportState {
    var afterBank := if o.bank.Some? then StatementsToBk(st, o.bank.value) else st;
    if o.creditCard.Some? then StatementToBk(afterBank, o.creditCard.value) else afterBank
  }

  /** The statements of a document in the order they are processed. */
  function Statements(o: Ofx): seq<Statement> {
    o.bank.GetOr([]) + (if o.creditCard.Some? then [o.creditCard.value] else [])
  }

  lemma {:induction false} StatementsToBkAppend(st: ImportState, ss: seq<Statement>, s: Statement)
    ensures StatementsToBk(st, ss + [s]) == StatementToBk(StatementsToBk(st, ss), s)
    decreases |ss|
  {
    if |ss| > 0 {
      assert (ss + [s])[1..] == ss[1..] + [s];
      StatementsToBkAppend(StatementToBk(st, ss[0]), ss[1..], s);
    } else {
      assert ss + [s] == [s];
    }
  }

  /** One balance per statement, in processing order: the bank statements
      come first and the credit-card statement last. */
  lemma {:induction false} OneBalancePerStatement(st: ImportState, ss: seq<Statement>)
    ensures |StatementsToBk(st, ss).balances| == |st.balances| + |ss|
    ensures StatementsToBk(st, ss).balances[..|st.balances|] == st.balances
    ensures forall i :: 0 <= i < |ss| ==>
              StatementsToBk(st, ss).balances[|st.balances| + i].account == ss[i].acctId &&
              StatementsToBk(st, ss).balances[|st.balances| + i].quantity == ss[i].ledgerBal.balAmt
    decreases |ss|
  {
    if |ss| > 0 {
      var next := StatementToBk(st, ss[0]);
      OneBalancePerStatement(next, ss[1..]);
      var r := StatementsToBk(st, ss);
      assert r == StatementsToBk(next, ss[1..]);
      forall i | 0 <= i < |ss|
        ensures r.balances[|st.balances| + i].account == ss[i].acctId &&
                r.balances[|st.balances| + i].quantity == ss[i].ledgerBal.balAmt
      {
        if i == 0 {
          assert r.balances[..|next.balances|] == next.balances;
          assert r.balances[|st.balances|] == next.balances[|st.balances|];
        } else {
          assert ss[1..][i - 1] == ss[i];
          assert r.balances[|next.balances| + (i - 1)] == r.balances[|st.balances| + i];
        }
      }
      assert r.balances[..|st.balances|] == r.balances[..|next.balances|][..|st.balances|];
    }
  }

  /** `OFX::to_bk` processes exactly the document's statements, bank first. */
  lemma OfxToBkIsStatements(st: ImportState, o: Ofx)
    ensures OfxToBk(st, o) == StatementsToBk(st, Statements(o))
  {
    var bank := o.bank.GetOr([]);
    if o.creditCard.Some? {
      StatementsToBkAppend(st, bank, o.creditCard.value);
    } else {
      assert Statements(o) == bank;
    }
  }

  // ---------------------------------------------------------------- numbering

  /** The ledger account of a QFX account id: its symbol-file name when
      there is one, the id itself otherwise. */
  function LedgerAccount(symbols: map<string, string>, acctId: string): string {
    if acctId in symbols then symbols[acctId] else acctId
  }

  /** The tables `parse_qfx_file` fills. */
  datatype Tables = Tables(transactions: seq<HeaderParams>, postings: seq<PostingParams>, verifications: seq<VerificationParams>)

  /** `parse_qfx_file` after the import: every transaction becomes a header
      and one posting, both numbered `count`, from 1; every balance becomes a
      balance assertion, numbered on from where the transactions stopped.
      All three are appended to the tables already in the ledger state. */
  method NumberImport(t0: Tables, st: ImportState, symbols: map<string, string>) returns (r: Tables)
    ensures |r.transactions| == |t0.transactions| + |st.transactions| && r.transactions[..|t0.transactions|] == t0.transactions
    ensures |r.postings| == |t0.postings| + |st.transactions| && r.postings[..|t0.postings|] == t0.postings
    ensures |r.verifications| == |t0.verifications| + |st.balances| && r.verifications[..|t0.verifications|] == t0.verifications
    ensures forall i :: 0 <= i < |st.transactions| ==>
              Imported(r.transactions[|t0.transactions| + i], r.postings[|t0.postings| + i], st.transactions[i], i + 1, symbols)
    ensures forall j :: 0 <= j < |st.balances| ==>
              Asserted(r.verifications[|t0.verifications| + j], st.balances[j], |st.transactions| + 1 + j, symbols)
  {
    var count: nat := 1;
    var transactions := t0.transactions;
    var postings := t0.postings;
    var i := 0;
    while i < |st.transactions|
      invariant 0 <= i <= |st.transactions|
      invariant count == i + 1
      invariant |transactions| == |t0.transactions| + i && transactions[..|t0.transactions|] == t0.transactions
      invariant |postings| == |t0.postings| + i && postings[..|t0.postings|] == t0.postings
      invariant forall k :: 0 <= k < i ==>
                  Imported(transactions[|t0.transactions| + k], postings[|t0.postings| + k], st.transactions[k], k + 1, symbols)
    {
      var t := st.transactions[i];
      var acct := LedgerAccount(symbols, t.account);
      transactions := transactions + [HeaderParams(count, 0, 0, 0, t.date, t.narration, None)];
      postings := postings + [PostingParams(count, count, 0, 0, 0, acct,
                                            Some(t.quantity), Some(t.commodity), Some(t.quantity), Some(t.commodity))];
      count := count + 1;
      i := i + 1;
    }
    var verifications := t0.verifications;
    var j := 0;
    while j < |st.balances|
      invariant 0 <= j <= |st.balances|
      invariant count == |st.transactions| + 1 + j
      invariant |verifications| == |t0.verifications| + j && verifications[..|t0.verifications|] == t0.verifications
      invariant forall k :: 0 <= k < j ==>
                  Asserted(verifications[|t0.verifications| + k], st.balances[k], |st.transactions| + 1 + k, symbols)
    {
      var b := st.balances[j];
      verifications := verifications + [VerificationParams(count, 0, 0, 0, b.date, BalanceAction,
                                                           LedgerAccount(symbols, b.account),
                                                           Some(b.quantity), Some(b.commodity))];
      count := count + 1;
      j := j + 1;
    }
    r := Tables(transactions, postings, verifications);
  }

  /** Header `h` and posting `p` record transaction `t` under number `n`:
      one posting carrying the amount as both position and cost, in the
      mapped account. */
  predicate Imported(h: HeaderParams, p: PostingParams, t: InterTrans, n: nat, symbols: map<string, string>) {
    h.statementNo == n && h.date == t.date && h.narration == t.narration && h.tags.None? &&
    p.statementNo == n && p.transactionNo == n &&
    p.account == LedgerAccount(symbols, t.account) &&
    p.cpQuantity == p.tcQuantity == Some(t.quantity) &&
    p.cpCommodity == p.tcCommodity == Some(t.commodity)
  }

  /** `v` asserts balance `b` under number `n`, in the mapped account. */
  predicate Asserted(v: VerificationParams, b: InterBalance, n: nat, symbols: map<string, string>) {
    v.statementNo == n && v.date == b.date && v.action == BalanceAction &&
    v.account == LedgerAccount(symbols, b.account) &&
    v.quantity == Some(b.quantity) && v.commodity == Some(b.commodity)
  }

  /** `parse_qfx_file` from the parsed document on: flatten the document
      into an empty import state, then number it into the ledger tables.
      Each statement leaves exactly one balance assertion, in statement
      order, in the statement's mapped account. */
  method ParseQfxFile(t0: Tables, o: Ofx, symbols: map<string, string>) returns (r: Tables)
    ensures |r.verifications| == |t0.verifications| + |Statements(o)|
    ensures forall j :: 0 <= j < |Statements(o)| ==>
              r.verifications[|t0.verifications| + j].account == LedgerAccount(symbols, Statements(o)[j].acctId) &&
              r.verifications[|t0.verifications| + j].quantity == Some(Statements(o)[j].ledgerBal.balAmt)
    ensures |r.transactions| - |t0.transactions| == |r.postings| - |t0.postings| == |OfxToBk(ImportState([], []), o).transactions|
  {
    var empty := ImportState([], []);
    var st := OfxToBk(empty, o);
    OfxToBkIsStatements(empty, o);
    OneBalancePerStatement(empty, Statements(o));
    r := NumberImport(t0, st, symbols);
  }

  /** The statement numbers one import adds: headers, then assertions. */
  function AddedNumbers(t0: Tables, t: Tables): seq<int>
    requires |t0.transactions| <= |t.transactions| && |t0.verifications| <= |t.verifications|
  {
    seq(|t.transactions| - |t0.transactions|, i requires 0 <= i < |t.transactions| - |t0.transactions| =>
          t.transactions[|t0.transactions| + i].statementNo) +
    seq(|t.verifications| - |t0.verifications|, j requires 0 <= j < |t.verifications| - |t0.verifications| =>
          t.verifications[|t0.verifications| + j].statementNo)
  }

  /** The numbers an import hands out are 1, 2, 3, ... in order, so unique
      and increasing across transactions and balances. */
  lemma NumbersConsecutive(t0: Tables, st: ImportState, symbols: map<string, string>, t: Tables)
    requires |t.transactions| == |t0.transactions| + |st.transactions| && |t.postings| == |t0.postings| + |st.transactions|
    requires |t.verifications| == |t0.verifications| + |st.balances|
    requires forall i :: 0 <= i < |st.transactions| ==>
               Imported(t.transactions[|t0.transactions| + i], t.postings[|t0.postings| + i], st.transactions[i], i + 1, symbols)
    requires forall j :: 0 <= j < |st.balances| ==>
               Asserted(t.verifications[|t0.verifications| + j], st.balances[j], |st.transactions| + 1 + j, symbols)
    ensures |AddedNumbers(t0, t)| == |st.transactions| + |st.balances|
    ensures forall k :: 0 <= k < |AddedNumbers(t0, t)| ==> AddedNumbers(t0, t)[k] == k + 1
  {
    var ns := AddedNumbers(t0, t);
    var n := |st.transactions|;
    forall k | 0 <= k < |ns|
      ensures ns[k] == k + 1
    {
      if k < n {
        assert Imported(t.transactions[|t0.transactions| + k], t.postings[|t0.postings| + k], st.transactions[k], k + 1, symbols);
      } else {
        assert ns[k] == t.verifications[|t0.verifications| + (k - n)].statementNo;
        assert Asserted(t.verifications[|t0.verifications| + (k - n)], st.balances[k - n], n + 1 + (k - n), symbols);
      }
    }
  }
}

=== FILE: report.dfy ===
/** Balances by account and commodity, rolled up the account hierarchy
    (ledger-rs-core/src/report.rs). A posting's total counts towards every
    listed account whose name its account name starts with, as a plain
    string prefix: "Assets:Cash" also collects "Assets:CashBack". The
    relation deciding which accounts roll up into which is a parameter, so
    that the same definitions describe the code and the component-wise
    roll-up it evidently intends. */
module Report {
  import opened Wrappers
  import opened Ledger
  import Strings
  import Sorting
  import Accounts

  /** Which pair of final columns a balance reads. */
  datatype Columns = TcColumns | CpColumns

  /** One row of a balances table. */
  datatype Balance = Balance(account: string, commodity: string, total: Decimal)

  function QuantityIn(f: FinalPosting, cols: Columns): Option<Decimal> {
    match cols
    case TcColumns => f.tcQuantity
    case CpColumns => f.cpQuantity
  }

  function CommodityIn(f: FinalPosting, cols: Columns): Option<string> {
    match cols
    case TcColumns => f.tcCommodity
    case CpColumns => f.cpCommodity
  }

  /** `f` is in the `totals_df` group of account `b` and commodity `c`. */
  predicate InGroup(f: FinalPosting, cols: Columns, b: string, c: string) {
    f.account == b && CommodityIn(f, cols) == Some(c)
  }

  /** What `f` adds to the total of (`b`, `c`); Polars' `sum` skips nulls. */
  function Part(f: FinalPosting, cols: Columns, b: string, c: string): Decimal {
    if InGroup(f, cols, b, c) then QuantityIn(f, cols).GetOr(0.0) else 0.0
  }

  /** `totals_df`: the total of account `b` in commodity `c`. */
  function Total(fs: seq<FinalPosting>, cols: Columns, b: string, c: string): Decimal {
    if |fs| == 0 then 0.0 else Part(fs[0], cols, b, c) + Total(fs[1..], cols, b, c)
  }

  /** `totals_df` has a row for (`b`, `c`). */
  predicate HasTotal(fs: seq<FinalPosting>, cols: Columns, b: string, c: string) {
    exists i :: 0 <= i < |fs| && InGroup(fs[i], cols, b, c)
  }

  /** `under(b, a)`: the totals of account `b` roll up into account `a`. */
  type Under = (string, string) -> bool

  /** The code's relation: `account_right.starts_with(account)`. */
  function StringPrefix(): Under {
    (b, a) => Strings.StartsWith(b, a)
  }

  /** The hierarchy the account names describe: `a` itself, or `a` followed
      by the separator and more components. */
  function Hierarchy(sep: char): Under {
    (b, a) => Accounts.Above(a, b, sep)
  }

  /** The rolled-up total of `a` in `c`: the totals of every listed account
      that rolls up into `a`. */
  function RollUp(fs: seq<FinalPosting>, cols: Columns, accounts: seq<string>, under: Under, a: string, c: string): Decimal {
    if |accounts| == 0 then 0.0
    else (if under(accounts[0], a) then Total(fs, cols, accounts[0], c) else 0.0)
         + RollUp(fs, cols, accounts[1..], under, a, c)
  }

  /** The inner join keeps (`a`, `c`) when some account rolling up into `a`
      has a total in `c`. */
  predicate Present(fs: seq<FinalPosting>, cols: Columns, accounts: seq<string>, under: Under, a: string, c: string) {
    exists b :: b in accounts && under(b, a) && HasTotal(fs, cols, b, c)
  }

  /** A row the result holds for the given inputs. */
  predicate IsRow(fs: seq<FinalPosting>, cols: Columns, accounts: seq<string>, under: Under, cs: seq<string>, x: Balance) {
    x.commodity in cs && Present(fs, cols, accounts, under, x.account, x.commodity)
    && x.total == RollUp(fs, cols, accounts, under, x.account, x.commodity)
  }

  /** The rows of account `a`, one per commodity of `cs` it has a total in. */
  function RowsFor(fs: seq<FinalPosting>, cols: Columns, accounts: seq<string>, under: Under, a: string, cs: seq<string>): (r: seq<Balance>)
    ensures forall x :: x in r <==> x.account == a && IsRow(fs, cols, accounts, under, cs, x)
  {
    if |cs| == 0 then []
    else
      var rest := RowsFor(fs, cols, accounts, under, a, cs[1..]);
      assert forall c :: c in cs <==> c == cs[0] || c in cs[1..];
      if Present(fs, cols, accounts, under, a, cs[0]) then
        [Balance(a, cs[0], RollUp(fs, cols, accounts, under, a, cs[0]))] + rest
      else rest
  }

  /** The rows of every account of `ls`. */
  function Rows(fs: seq<FinalPosting>, cols: Columns, accounts: seq<string>, under: Under, ls: seq<string>, cs: seq<string>): (r: seq<Balance>)
    ensures forall x :: x in r <==> x.account in ls && IsRow(fs, cols, accounts, under, cs, x)
  {
    if |ls| == 0 then []
    else
      assert forall a :: a in ls <==> a == ls[0] || a in ls[1..];
      RowsFor(fs, cols, accounts, under, ls[0], cs) + Rows(fs, cols, accounts, under, ls[1..], cs)
  }

  /** Rows ordered by account, then commodity. */
  predicate BalanceLess(x: Balance, y: Balance) {
    Strings.Less(x.account, y.account) || (x.account == y.account && Strings.Less(x.commodity, y.commodity))
  }

  /** `BalanceLess`, with the total breaking ties so that it orders every
      two different rows. */
  predicate RowLess(x: Balance, y: Balance) {
    BalanceLess(x, y) || (x.account == y.account && x.commodity == y.commodity && x.total < y.total)
  }

  lemma RowLessIsStrictTotal()
    ensures Sorting.StrictTotalOrder(RowLess)
  {
    forall x: Balance
      ensures !RowLess(x, x)
    {
      Strings.LessIrreflexive(x.account);
      Strings.LessIrreflexive(x.commodity);
    }
    forall x: Balance, y: Balance, z: Balance | RowLess(x, y) && RowLess(y, z)
      ensures RowLess(x, z)
    {
      if Strings.Less(x.account, y.account) && Strings.Less(y.account, z.account) {
        Strings.LessTransitive(x.account, y.account, z.account);
      }
      if Strings.Less(x.commodity, y.commodity) && Strings.Less(y.commodity, z.commodity) {
        Strings.LessTransitive(x.commodity, y.commodity, z.commodity);
      }
    }
    forall x: Balance, y: Balance
      ensures x == y || RowLess(x, y) || RowLess(y, x)
    {
      Strings.LessTrichotomous(x.account, y.account);
      Strings.LessTrichotomous(x.commodity, y.commodity);
    }
  }

  predicate Distinct<T(==)>(xs: seq<T>) {
    forall i, j :: 0 <= i < j < |xs| ==> xs[i] != xs[j]
  }

  /** `get_balances_df`: for every listed account and commodity with a
      matching total below it, the rolled-up total, sorted by account then
      commodity. `accounts` stands for `accounts_df` and `commodities` for
      `get_commodities_df`; neither may repeat a value, or the cross joins
      would count a total more than once. */
  function GetBalances(fs: seq<FinalPosting>, cols: Columns, accounts: seq<string>, commodities: seq<string>, under: Under): (r: seq<Balance>)
    requires Distinct(accounts) && Distinct(commodities)
    ensures Sorting.StrictlySorted(BalanceLess, r)
    ensures forall x :: x in r <==> x.account in accounts && IsRow(fs, cols, accounts, under, commodities, x)
  {
    RowLessIsStrictTotal();
    var r := Sorting.SortUnique(RowLess, Rows(fs, cols, accounts, under, accounts, commodities));
    forall i, j | 0 <= i < j < |r|
      ensures BalanceLess(r[i], r[j])
    {
      assert r[i] in r && r[j] in r;
    }
    r
  }

  /** `tc_balances`: the balances of the final tc columns. */
  function TcBalances(fs: seq<FinalPosting>, accounts: seq<string>, commodities: seq<string>): (r: seq<Balance>)
    requires Distinct(accounts) && Distinct(commodities)
    ensures Sorting.StrictlySorted(BalanceLess, r)
    ensures forall x :: x in r <==> x.account in accounts && IsRow(fs, TcColumns, accounts, StringPrefix(), commodities, x)
  {
    GetBalances(fs, TcColumns, accounts, commodities, StringPrefix())
  }

  /** `cp_balances`: the balances of the final cp columns. */
  function CpBalances(fs: seq<FinalPosting>, accounts: seq<string>, commodities: seq<string>): (r: seq<Balance>)
    requires Distinct(accounts) && Distinct(commodities)
    ensures Sorting.StrictlySorted(BalanceLess, r)
    ensures forall x :: x in r <==> x.account in accounts && IsRow(fs, CpColumns, accounts, StringPrefix(), commodities, x)
  {
    GetBalances(fs, CpColumns, accounts, commodities, StringPrefix())
  }

  // ----- The roll-up as a sum over postings -----

  /** What one posting adds to the roll-up of `a` in `c`. */
  function Share(f: FinalPosting, cols: Columns, accounts: seq<string>, under: Under, a: string, c: string): Decimal {
    if f.account in accounts && under(f.account, a) && CommodityIn(f, cols) == Some(c) then QuantityIn(f, cols).GetOr(0.0) else 0.0
  }

  /** The sum of the shares of the postings. */
  function DirectSum(fs: seq<FinalPosting>, cols: Columns, accounts: seq<string>, under: Under, a: string, c: string): Decimal {
    if |fs| == 0 then 0.0 else Share(fs[0], cols, accounts, under, a, c) + DirectSum(fs[1..], cols, accounts, under, a, c)
  }

  /** The rolled-up total of `a` is the sum of the quantities of the postings
      whose account is listed and rolls up into `a`. */
  lemma {:induction false} RollUpIsDirectSum(fs: seq<FinalPosting>, cols: Columns, accounts: seq<string>, under: Under, a: string, c: string)
    requires Distinct(accounts)
    ensures RollUp(fs, cols, accounts, under, a, c) == DirectSum(fs, cols, accounts, under, a, c)
    decreases |fs|
  {
    if |fs| == 0 {
      RollUpOfNothing(cols, accounts, under, a, c);
    } else {
      RollUpSplit(fs, cols, accounts, under, a, c);
      RollUpOfOne(fs[0], cols, accounts, under, a, c);
      RollUpIsDirectSum(fs[1..], cols, accounts, under, a, c);
    }
  }

  lemma {:induction false} RollUpOfNothing(cols: Columns, accounts: seq<string>, under: Under, a: string, c: string)
    ensures RollUp([], cols, accounts, under, a, c) == 0.0
    decreases |accounts|
  {
    if |accounts| > 0 {
      RollUpOfNothing(cols, accounts[1..], under, a, c);
    }
  }

  /** The roll-up of a non-empty list is the first posting's plus the rest's. */
  lemma {:induction false} RollUpSplit(fs: seq<FinalPosting>, cols: Columns, accounts: seq<string>, under: Under, a: string, c: string)
    requires |fs| > 0
    ensures RollUp(fs, cols, accounts, under, a, c) == RollUp([fs[0]], cols, accounts, under, a, c) + RollUp(fs[1..], cols, accounts, under, a, c)
    decreases |accounts|
  {
    if |accounts| > 0 {
      RollUpSplit(fs, cols, accounts[1..], under, a, c);
      assert [fs[0]][1..] == [];
      assert Total(fs, cols, accounts[0], c) == Total([fs[0]], cols, accounts[0], c) + Total(fs[1..], cols, accounts[0], c);
    }
  }

  /** One posting adds its quantity to the roll-up exactly when its account
      is listed (once) and rolls up into `a`. */
  lemma {:induction false} RollUpOfOne(f: FinalPosting, cols: Columns, accounts: seq<string>, under: Under, a: string, c: string)
    requires Distinct(accounts)
    ensures RollUp([f], cols, accounts, under, a, c) == Share(f, cols, accounts, under, a, c)
    decreases |accounts|
  {
    if |accounts| > 0 {
      assert [f][1..] == [];
      assert Total([f], cols, accounts[0], c) == Part(f, cols, accounts[0], c);
      assert forall j :: 0 <= j < |accounts[1..]| ==> accounts[1..][j] == accounts[j + 1];
      assert Distinct(accounts[1..]);
      RollUpOfOne(f, cols, accounts[1..], under, a, c);
      assert accounts[0] !in accounts[1..];
      assert f.account in accounts <==> f.account == accounts[0] || f.account in accounts[1..];
    }
  }

  // ----- String prefixes are not account components -----

  function ExampleFinal(account: string, q: Decimal): FinalPosting {
    FinalPosting(1, 1, 0, 0, account, Some(q), Some("USD"), Some(q), Some("USD"))
  }

  /** "Assets:Cash" is not above "Assets:CashBack" in the account hierarchy. */
  lemma SiblingNotAbove()
    ensures !Accounts.Above("Assets:Cash", "Assets:CashBack", ':')
  {
    assert "Assets:CashBack"[11] != "Assets:Cash:"[11];
  }

  /** A total in "Assets:CashBack" rolls up into "Assets:Cash", which is not
      its parent: the code reports 10 USD in "Assets:Cash". */
  lemma SiblingRolledUp(fs: seq<FinalPosting>, accounts: seq<string>, commodities: seq<string>)
    requires Distinct(accounts) && Distinct(commodities)
    requires "Assets:Cash" in accounts && "Assets:CashBack" in accounts && "USD" in commodities
    requires fs == [ExampleFinal("Assets:CashBack", 10.0)]
    ensures Balance("Assets:Cash", "USD", 10.0) in TcBalances(fs, accounts, commodities)
    ensures !Accounts.Above("Assets:Cash", "Assets:CashBack", ':')
  {
    var cash, back := "Assets:Cash", "Assets:CashBack";
    assert back[..|cash|] == cash;
    assert InGroup(fs[0], TcColumns, back, "USD");
    assert Present(fs, TcColumns, accounts, StringPrefix(), cash, "USD");
    RollUpIsDirectSum(fs, TcColumns, accounts, StringPrefix(), cash, "USD");
    assert fs[1..] == [];
    SiblingNotAbove();
  }

  /** Rolled up along the hierarchy instead, an account collects only its
      own postings and those of its sub-accounts. */
  lemma HierarchicalRollUp(fs: seq<FinalPosting>, cols: Columns, accounts: seq<string>, commodities: seq<string>, sep: char, x: Balance)
    requires Distinct(accounts) && Distinct(commodities)
    requires x in GetBalances(fs, cols, accounts, commodities, Hierarchy(sep))
    ensures x.total == DirectSum(fs, cols, accounts, Hierarchy(sep), x.account, x.commodity)
    ensures forall f :: f in fs && Share(f, cols, accounts, Hierarchy(sep), x.account, x.commodity) != 0.0 ==>
              f.account == x.account || Strings.StartsWith(f.account, x.account + [sep])
  {
    RollUpIsDirectSum(fs, cols, accounts, Hierarchy(sep), x.account, x.commodity);
  }

  /** Along the hierarchy, the sibling of the example contributes nothing:
      "Assets:Cash" gets no row. */
  lemma SiblingNotRolledUp(fs: seq<FinalPosting>, accounts: seq<string>, commodities: seq<string>)
    requires Distinct(accounts) && Distinct(commodities)
    requires fs == [ExampleFinal("Assets:CashBack", 10.0)]
    ensures forall x :: x in GetBalances(fs, TcColumns, accounts, commodities, Hierarchy(':')) ==> x.account != "Assets:Cash"
  {
    SiblingNotAbove();
    forall c: string, b: string | HasTotal(fs, TcColumns, b, c)
      ensures b == "Assets:CashBack"
    {
    }
    assert !exists c :: Present(fs, TcColumns, accounts, Hierarchy(':'), "Assets:Cash", c);
  }
}

=== FILE: rj_cdn.dfy ===
/** The importer of Canadian brokerage activity and holdings
    (ledger-rs-csv/src/rj_cdn.rs): each activity record becomes a fixed
    pattern of postings chosen by its transaction type, and each holding
    record a balance assertion. Amounts are exact; `rescale(3)` is taken to
    keep the value. */
module RjCdn {
  import opened Wrappers
  import opened Ledger
  import opened Import
  import RjCommon
  import RjDecimal

  /** The `Tran Types` column. */
  datatype TranType =
    | Buy | CashReceipt | CanadianCashDividend | Distribution | ExpiringRightsAndWarrants
    | ForeignDividend | ForeignNonResidentTax | ForeignTransfer | GoodsAndServicesTax
    | InternalTransfer | MandatoryExchange | MFNotionalDistribution | MutualFundDividend
    | OtherManagedAcctFees | OtherManagedAcctFeeRegistered | PartnersFeeNonRegistered
    | QuebecSalesTax | ReinvestmentDividend | RRSPContribution | SecTfrCosts | Sell
    | SpinOffForeign | SpinOffUS | StockSplit | USCashDividend | USSourceLongTermGains
    | ViridanFeesNonRegistered | MonthlyInterest | MFReturnOfCapital

  /** The `Display` text of a type, spelling slips included. */
  function Display(t: TranType): string {
    match t
    case Buy => "Buy"
    case CanadianCashDividend => "CanadianCashDividend"
    case CashReceipt => "CashReceipt"
    case Distribution => "Distribution"
    case ExpiringRightsAndWarrants => "ExpiringRightsAndWarrants"
    case ForeignDividend => "ForeignDivident"
    case ForeignNonResidentTax => "ForeignNonResidentTax"
    case ForeignTransfer => "ForeignTransfer"
    case GoodsAndServicesTax => "GoodsAndServicesTax"
    case InternalTransfer => "InternalTransfer"
    case MFNotionalDistribution => "MFNotionalDistribution"
    case MandatoryExchange => "MandatoryExchange"
    case MutualFundDividend => "MutualFundDivident"
    case OtherManagedAcctFeeRegistered => "OtherManagedAcctFeeRegistered"
    case OtherManagedAcctFees => "OtherManagedAcctFees"
    case PartnersFeeNonRegistered => "PartnersFeeNonRegistered"
    case QuebecSalesTax => "QuebecSalesTax"
    case RRSPContribution => "RRSPContribution"
    case ReinvestmentDividend => "ReinvestmentDividend"
    case SecTfrCosts => "SecTfrCosts"
    case Sell => "Sell"
    case SpinOffForeign => "SpinOffForeign"
    case SpinOffUS => "SpinOffUS"
    case StockSplit => "StockSplit"
    case USCashDividend => "USCashDividend"
    case USSourceLongTermGains => "USSourceLongTermGains"
    case ViridanFeesNonRegistered => "ViridanFeesNonRegistered"
    case MonthlyInterest => "MonthlyInterest"
    case MFReturnOfCapital => "MFReturnOfCapital"
  }

  /** The columns of an activity record the importer reads. */
  datatype TransRecord = TransRecord(
    settled: string,
    tranType: TranType,
    description: string,
    price: Decimal,
    quantity: Decimal,
    amount: Decimal)

  /** The lookup table from description to security symbol. */
  type SymbolsMap = map<string, string>

  function CashPosition(t: TransRecord, currency: string): Position {
    Position(t.amount, currency)
  }

  /** The security, looked up by description, with the record's quantity. */
  function SecPosition(t: TransRecord, symbols: SymbolsMap): (r: Position)
    ensures r.quantity == t.quantity
    ensures t.description in symbols ==> r.commodity == symbols[t.description]
    ensures t.description !in symbols ==> r.commodity == "UNKNOENSEC"
  {
    var sec := if t.description in symbols then symbols[t.description] else "UNKNOENSEC";
    Position(t.quantity, sec)
  }

  /** The cost: price times quantity, made non-negative. */
  function Cost(t: TransRecord, currency: string): (r: Position)
    ensures r.quantity >= 0.0
    ensures r.quantity == t.price * t.quantity || r.quantity == -(t.price * t.quantity)
    ensures r.commodity == currency
  {
    Position(RjDecimal.Abs(t.price * t.quantity), currency)
  }

  /** An internal transfer: the cash movement when there is one, the
      security movement at cost when there is one, and an elided TODO. */
  function Transfer(t: TransRecord, currency: string, symbols: SymbolsMap, cash: string, sec: string, todo: string): (r: seq<InterPost>)
    ensures |r| == 1 + (if t.amount != 0.0 then 1 else 0) + (if t.quantity != 0.0 then 1 else 0)
    ensures t.amount != 0.0 ==> r[0] == InterPost(cash, Some(CashPosition(t, currency)), None)
    ensures t.quantity != 0.0 ==> r[|r| - 2] == InterPost(sec, Some(SecPosition(t, symbols)), Some(Cost(t, currency)))
    ensures Elided(r[|r| - 1]) && r[|r| - 1].account == todo
    ensures ElidedLast(r)
  {
    var withCash := if t.amount != 0.0 then [InterPost(cash, Some(CashPosition(t, currency)), None)] else [];
    var withSec := if t.quantity != 0.0 then [InterPost(sec, Some(SecPosition(t, symbols)), Some(Cost(t, currency)))] else [];
    withCash + withSec + [InterPost(todo, None, None)]
  }

  /** A purchase: the security at a cost of the cash amount made
      non-negative, then the cash movement. */
  function BuyPosts(t: TransRecord, currency: string, symbols: SymbolsMap, cash: string, sec: string): (r: seq<InterPost>)
    ensures ElidedLast(r)
    ensures |r| == 2 && !Elided(r[0]) && !Elided(r[1])
    ensures r[0].account == sec && r[0].cp == Some(SecPosition(t, symbols))
    ensures r[0].tc == Some(Position(RjDecimal.Abs(t.amount), currency))
    ensures r[1] == InterPost(cash, Some(CashPosition(t, currency)), None)
  {
    var costP := Position(RjDecimal.Abs(t.amount), currency);
    [InterPost(sec, Some(SecPosition(t, symbols)), Some(costP)),
     InterPost(cash, Some(CashPosition(t, currency)), None)]
  }

  /** A purchase paid in cash (the amount is not positive) balances: the
      cost of the security and the cash movement cancel. */
  lemma BuyBalances(t: TransRecord, currency: string, symbols: SymbolsMap, cash: string, sec: string)
    requires t.amount <= 0.0
    ensures BuyPosts(t, currency, symbols, cash, sec)[0].tc.value.quantity +
            BuyPosts(t, currency, symbols, cash, sec)[1].cp.value.quantity == 0.0
  {
  }

  /** A cash movement against an account the verifier completes. */
  function CashTransaction(t: TransRecord, currency: string, cash: string, acct: string): (r: seq<InterPost>)
    ensures ElidedLast(r)
    ensures |r| == 2
    ensures r[0] == InterPost(cash, Some(CashPosition(t, currency)), None)
    ensures Elided(r[1]) && r[1].account == acct
  {
    CashPosts(cash, CashPosition(t, currency), acct)
  }

  /** A sale: the security, the cash, and an elided gain or loss. */
  function SellPosts(t: TransRecord, currency: string, symbols: SymbolsMap, cash: string, sec: string, gl: string): (r: seq<InterPost>)
    ensures ElidedLast(r)
    ensures |r| == 3
    ensures r[0] == InterPost(sec, Some(SecPosition(t, symbols)), None)
    ensures r[1] == InterPost(cash, Some(CashPosition(t, currency)), None)
    ensures Elided(r[2]) && r[2].account == gl
  {
    [InterPost(sec, Some(SecPosition(t, symbols)), None),
     InterPost(cash, Some(CashPosition(t, currency)), None),
     InterPost(gl, None, None)]
  }

  /** A reinvested dividend: the security at cost, and the income account
      with the sign-reversed cost. */
  function Reinvestment(t: TransRecord, currency: string, symbols: SymbolsMap, sec: string, acct: string): (r: seq<InterPost>)
    ensures ElidedLast(r)
    ensures |r| == 2 && !Elided(r[0]) && !Elided(r[1])
    ensures r[0] == InterPost(sec, Some(SecPosition(t, symbols)), Some(Cost(t, currency)))
    ensures r[1].account == acct && r[1].tc.None?
    ensures r[1].cp == Some(Position(-Cost(t, currency).quantity, currency))
  {
    var costP := Cost(t, currency);
    var rev := RjDecimal.ReverseSign(RjDecimal.Signed(false, costP.quantity));
    RjDecimal.ReverseSignCancels(RjDecimal.Signed(false, costP.quantity));
    [InterPost(sec, Some(SecPosition(t, symbols)), Some(costP)),
     InterPost(acct, Some(Position(RjDecimal.Value(rev), currency)), None)]
  }

  /** A reinvestment balances: the income posting cancels the cost. */
  lemma ReinvestmentBalances(t: TransRecord, currency: string, symbols: SymbolsMap, sec: string, acct: string)
    ensures Reinvestment(t, currency, symbols, sec, acct)[0].tc.value.quantity +
            Reinvestment(t, currency, symbols, sec, acct)[1].cp.value.quantity == 0.0
  {
  }

  /** The accounts of one owner and brokerage account. */
  function Cash(owner: string, acct: string): string { RjCommon.AcctCash(owner, acct) }
  function Sec(owner: string, acct: string): string { RjCommon.AcctSecurities(owner, acct) }

  /** Where each transaction type books its money: a cash movement to the
      matching income, expense or to-do account, or a sale's elided gain or
      loss last. */
  predicate BooksAs(tt: TranType, r: seq<InterPost>, acct: string, owner: string) {
    var cash := Cash(owner, acct);
    && (tt in {CanadianCashDividend, ForeignDividend, MutualFundDividend, USCashDividend} ==>
          CashMovement(r, cash, RjCommon.AcctDividend(owner)))
    && (tt in {GoodsAndServicesTax, OtherManagedAcctFeeRegistered, OtherManagedAcctFees, PartnersFeeNonRegistered,
               QuebecSalesTax, SecTfrCosts, ViridanFeesNonRegistered} ==>
          CashMovement(r, cash, RjCommon.AcctFees(owner)))
    && (tt in {CashReceipt, ForeignTransfer, RRSPContribution} ==> CashMovement(r, cash, RjCommon.AcctTodo(owner)))
    && (tt == Distribution ==> CashMovement(r, cash, RjCommon.AcctDistribution(owner)))
    && (tt == ForeignNonResidentTax ==> CashMovement(r, cash, RjCommon.AcctForeignTax(owner)))
    && (tt == USSourceLongTermGains ==> CashMovement(r, cash, RjCommon.AcctCapGains(owner)))
    && (tt == MonthlyInterest ==> CashMovement(r, cash, RjCommon.AcctInterest(owner)))
    && (tt in {ExpiringRightsAndWarrants, MFNotionalDistribution, MandatoryExchange, Sell} ==>
          |r| == 3 && r[2].account == RjCommon.AcctGainLoss(owner) && Elided(r[2]))
    && (tt in {Buy, SpinOffForeign, SpinOffUS, StockSplit} ==>
          |r| == 2 && r[0].account == Sec(owner, acct) && r[1].account == cash)
    && (tt == InternalTransfer ==> r != [] && r[|r| - 1].account == RjCommon.AcctTodo(owner) && Elided(r[|r| - 1]))
    && (tt == ReinvestmentDividend ==>
          |r| == 2 && r[0].account == Sec(owner, acct) && r[1].account == RjCommon.AcctDividend(owner))
  }

  /** The postings of a record, by transaction type. Only a return of
      capital yields none; at most the last posting is elided; a US cash
      dividend is in USD. */
  function Posts(t: TransRecord, acct: string, owner: string, currency: string, symbols: SymbolsMap): (r: seq<InterPost>)
    ensures |r| == 0 <==> t.tranType == MFReturnOfCapital
    ensures ElidedLast(r)
    ensures t.tranType == USCashDividend ==> r[0].cp.Some? && r[0].cp.value.commodity == "USD"
    ensures BooksAs(t.tranType, r, acct, owner)
  {
    var cash := Cash(owner, acct);
    var sec := Sec(owner, acct);
    var todo := RjCommon.AcctTodo(owner);
    var dividend := RjCommon.AcctDividend(owner);
    var fees := RjCommon.AcctFees(owner);
    match t.tranType
    case Buy => BuyPosts(t, currency, symbols, cash, sec)
    case CanadianCashDividend => CashTransaction(t, currency, cash, dividend)
    case CashReceipt => CashTransaction(t, currency, cash, todo)
    case Distribution => CashTransaction(t, currency, cash, RjCommon.AcctDistribution(owner))
    case ExpiringRightsAndWarrants | MFNotionalDistribution | MandatoryExchange | Sell =>
      SellPosts(t, currency, symbols, cash, sec, RjCommon.AcctGainLoss(owner))
    case ForeignDividend => CashTransaction(t, currency, cash, dividend)
    case ForeignNonResidentTax => CashTransaction(t, currency, cash, RjCommon.AcctForeignTax(owner))
    case ForeignTransfer => CashTransaction(t, currency, cash, todo)
    case GoodsAndServicesTax => CashTransaction(t, currency, cash, fees)
    case InternalTransfer => Transfer(t, currency, symbols, cash, sec, todo)
    case MutualFundDividend => CashTransaction(t, currency, cash, dividend)
    case OtherManagedAcctFeeRegistered => CashTransaction(t, currency, cash, fees)
    case OtherManagedAcctFees => CashTransaction(t, currency, cash, fees)
    case PartnersFeeNonRegistered => CashTransaction(t, currency, cash, fees)
    case QuebecSalesTax => CashTransaction(t, currency, cash, fees)
    case RRSPContribution => CashTransaction(t, currency, cash, todo)
    case ReinvestmentDividend => Reinvestment(t, currency, symbols, sec, dividend)
    case SecTfrCosts => CashTransaction(t, currency, cash, fees)
    case SpinOffForeign => BuyPosts(t, currency, symbols, cash, sec)
    case SpinOffUS => BuyPosts(t, currency, symbols, cash, sec)
    case StockSplit => BuyPosts(t, currency, symbols, cash, sec)
    case USCashDividend => CashTransaction(t, "USD", cash, dividend)
    case USSourceLongTermGains => CashTransaction(t, currency, cash, RjCommon.AcctCapGains(owner))
    case ViridanFeesNonRegistered => CashTransaction(t, currency, cash, fees)
    case MonthlyInterest => CashTransaction(t, currency, cash, RjCommon.AcctInterest(owner))
    case MFReturnOfCapital => []
  }

  function Narration(t: TransRecord): string {
    Display(t.tranType) + ":" + t.description
  }

  /** `store_transaction`: the settlement date must parse (the source
      unwraps it), then the record's postings are stored. `parseDate`
      stands for chrono's `%Y-%m-%d` parser. */
  function StoreTransaction(s: Sink, t: TransRecord, acct: string, owner: string, currency: string,
                            symbols: SymbolsMap, parseDate: string -> Option<Date>): (r: Result<Sink, ImportError>)
    ensures r.Err? <==> parseDate(t.settled).None?
    ensures r.Ok? ==> r.value == Store(s, Posts(t, acct, owner, currency, symbols), parseDate(t.settled).value, Narration(t))
  {
    match parseDate(t.settled)
    case None => Err(UnparsableDate(t.settled))
    case Some(date) => Ok(Store(s, Posts(t, acct, owner, currency, symbols), date, Narration(t)))
  }

  /** A return of capital stores nothing but still uses a number; any other
      record adds a header numbered with the counter and its postings after. */
  lemma StoreTransactionNumbering(s: Sink, t: TransRecord, acct: string, owner: string, currency: string,
                                  symbols: SymbolsMap, parseDate: string -> Option<Date>)
    requires parseDate(t.settled).Some?
    ensures var r := StoreTransaction(s, t, acct, owner, currency, symbols, parseDate).value;
      r.lineCount > s.lineCount &&
      (t.tranType == MFReturnOfCapital <==> r.transactions == s.transactions) &&
      (t.tranType != MFReturnOfCapital ==>
        r.transactions[|s.transactions|].statementNo == s.lineCount &&
        forall i :: |s.postings| <= i < |r.postings| ==>
          r.postings[i].transactionNo == s.lineCount && r.postings[i].statementNo == s.lineCount + 1 + (i - |s.postings|))
  {
    var posts := Posts(t, acct, owner, currency, symbols);
    var r := Store(s, posts, parseDate(t.settled).value, Narration(t));
    if |posts| > 0 {
      assert |r.transactions| == |s.transactions| + 1;
      forall i | |s.postings| <= i < |r.postings|
        ensures r.postings[i].transactionNo == s.lineCount && r.postings[i].statementNo == s.lineCount + 1 + (i - |s.postings|)
      {
        assert r.postings[|s.postings| + (i - |s.postings|)] == r.postings[i];
      }
    }
  }

  // ---------------------------------------------------------------- holdings

  /** The columns of a holding record the importer reads. */
  datatype HoldingRecord = HoldingRecord(
    clientName: string,
    accountNumber: string,
    symbol: string,
    holding: string,
    quantity: Decimal,
    fund: string)

  /** The owner short name of a client. */
  function Owner(clientName: string): string {
    if clientName == "ROBERT HUM" then "Stan"
    else if clientName == "JESSICA DUBY" then "Jess"
    else if clientName == "ROBERT/JESSICA HUM/DUBY" then "Joint"
    else "UNKNOWN"
  }

  /** `store_balance`: a balance assertion on the cash account (in the fund
      currency, or `currency` when the fund is blank) for a cash holding,
      on the securities account in the symbol otherwise. */
  function StoreBalance(s: Sink, h: HoldingRecord, date: Date, currency: string): (r: Sink)
    ensures r.lineCount == s.lineCount + 1
    ensures r.transactions == s.transactions && r.postings == s.postings
    ensures |r.verifications| == |s.verifications| + 1 && r.verifications[..|s.verifications|] == s.verifications
    ensures var v := r.verifications[|s.verifications|];
      v.statementNo == s.lineCount && v.action == BalanceAction && v.date == date &&
      v.quantity == Some(h.quantity) &&
      (h.holding == "CASH" ==> v.account == Cash(Owner(h.clientName), h.accountNumber) &&
                               v.commodity == Some(if h.fund != "" then h.fund else currency)) &&
      (h.holding != "CASH" ==> v.account == Sec(Owner(h.clientName), h.accountNumber) &&
                               v.commodity == Some(h.symbol))
  {
    var owner := Owner(h.clientName);
    var posno := s.lineCount;
    var v :=
      if h.holding == "CASH" then
        var c := if h.fund != "" then h.fund else currency;
        VerificationParams(posno, 0, 0, 0, date, BalanceAction, Cash(owner, h.accountNumber), Some(h.quantity), Some(c))
      else
        VerificationParams(posno, 0, 0, 0, date, BalanceAction, Sec(owner, h.accountNumber), Some(h.quantity), Some(h.symbol));
    s.(lineCount := posno + 1, verifications := s.verifications + [v])
  }

  /** A holding's balance assertion is on an account the activity import of
      the same owner and account number posts to: its cash account for cash,
      its securities account otherwise. */
  lemma BalanceOnImportedAccount(s: Sink, h: HoldingRecord, date: Date, currency: string,
                                 t: TransRecord, symbols: SymbolsMap)
    requires t.tranType == Buy
    ensures var v := StoreBalance(s, h, date, currency).verifications[|s.verifications|];
      var posts := Posts(t, h.accountNumber, Owner(h.clientName), currency, symbols);
      v.account == (if h.holding == "CASH" then posts[1].account else posts[0].account)
  {
  }
}

=== FILE: rj_cdn_closed.dfy ===
/** The importer of closed Canadian brokerage accounts
    (ledger-rs-csv/src/rj_cdn_closed.rs). Its records carry a symbol
    column instead of a symbol lookup, and their amounts count a decrease
    of cash as positive, so the cash position is the reversed amount. */
module RjCdnClosed {
  import opened Wrappers
  import opened Ledger
  import opened Import
  import RjCommon
  import RjDecimal
  import Strings

  /** The `Tran` column. */
  datatype ClosedTranType = ATI | BUY | CN | CR | DVR | DVU | EFT | GST | QST | SEL | TFE | TSF | VFN | VFR

  function Display(t: ClosedTranType): string {
    match t
    case ATI => "ATI"
    case BUY => "BUY"
    case CN => "CN"
    case CR => "CR"
    case DVR => "DVR"
    case DVU => "DVU"
    case EFT => "EFT"
    case GST => "GST"
    case QST => "QST"
    case SEL => "SEL"
    case TFE => "TFE"
    case TSF => "TSF"
    case VFN => "VFN"
    case VFR => "VFR"
  }

  /** The columns of a record the importer reads. */
  datatype ClosedRecord = ClosedRecord(
    settled: string,
    tranType: ClosedTranType,
    description: string,
    symbol: string,
    quantity: Decimal,
    cost: Decimal,
    amount: Decimal)

  /** The cash movement: the amount with its sign reversed. */
  function CashPosition(t: ClosedRecord, currency: string): (r: Position)
    ensures r.quantity == -t.amount && r.commodity == currency
  {
    var amt := if t.amount < 0.0 then RjDecimal.Signed(true, -t.amount) else RjDecimal.Signed(false, t.amount);
    Position(RjDecimal.Value(RjDecimal.ReverseSign(amt)), currency)
  }

  /** The security, `UNKNOWNSEC` when the symbol column is empty. */
  function SecPosition(t: ClosedRecord): (r: Position)
    ensures r.quantity == t.quantity
    ensures r.commodity == (if t.symbol == "" then "UNKNOWNSEC" else t.symbol)
  {
    Position(t.quantity, if t.symbol == "" then "UNKNOWNSEC" else t.symbol)
  }

  /** The cost column made non-negative. */
  function Cost(t: ClosedRecord, currency: string): (r: Position)
    ensures r.quantity >= 0.0 && (r.quantity == t.cost || r.quantity == -t.cost)
    ensures r.commodity == currency
  {
    Position(RjDecimal.Abs(t.cost), currency)
  }

  /** A transfer in: cash when there is no symbol, otherwise the security
      at cost; then an elided TODO. */
  function Transfer(t: ClosedRecord, currency: string, cash: string, sec: string, todo: string): (r: seq<InterPost>)
    ensures ElidedLast(r)
    ensures |r| == 2 && !Elided(r[0]) && Elided(r[1]) && r[1].account == todo
    ensures t.symbol == "" ==> r[0] == InterPost(cash, Some(CashPosition(t, currency)), None)
    ensures t.symbol != "" ==> r[0] == InterPost(sec, Some(SecPosition(t)), Some(Cost(t, currency)))
  {
    var first :=
      if t.symbol == "" then InterPost(cash, Some(CashPosition(t, currency)), None)
      else InterPost(sec, Some(SecPosition(t)), Some(Cost(t, currency)));
    [first, InterPost(todo, None, None)]
  }

  /** A purchase, only of a named security. */
  function BuyPosts(t: ClosedRecord, currency: string, cash: string, sec: string): (r: seq<InterPost>)
    ensures ElidedLast(r)
    ensures t.symbol == "" <==> r == []
    ensures t.symbol != "" ==> r == [InterPost(sec, Some(SecPosition(t)), Some(Cost(t, currency))),
                                     InterPost(cash, Some(CashPosition(t, currency)), None)]
  {
    if t.symbol != "" then
      [InterPost(sec, Some(SecPosition(t)), Some(Cost(t, currency))),
       InterPost(cash, Some(CashPosition(t, currency)), None)]
    else []
  }

  /** A cash movement against an account the verifier completes. */
  function CashTransaction(t: ClosedRecord, currency: string, cash: string, acct: string): (r: seq<InterPost>)
    ensures ElidedLast(r)
    ensures |r| == 2
    ensures r[0] == InterPost(cash, Some(CashPosition(t, currency)), None)
    ensures Elided(r[1]) && r[1].account == acct
  {
    CashPosts(cash, CashPosition(t, currency), acct)
  }

  /** A dividend: nothing when amount and cost are both zero; the security
      at cost when only the cost is non-zero; the cash otherwise; each time
      followed by the elided income account. */
  function Dividend(t: ClosedRecord, currency: string, cash: string, sec: string, acct: string): (r: seq<InterPost>)
    ensures ElidedLast(r)
    ensures t.amount == 0.0 && t.cost == 0.0 <==> r == []
    ensures t.amount == 0.0 && t.cost != 0.0 ==>
              r == [InterPost(sec, Some(SecPosition(t)), Some(Cost(t, currency))), InterPost(acct, None, None)]
    ensures t.amount != 0.0 ==> r == CashTransaction(t, currency, cash, acct)
  {
    if t.amount == 0.0 then
      if t.cost != 0.0 then [InterPost(sec, Some(SecPosition(t)), Some(Cost(t, currency))), InterPost(acct, None, None)]
      else []
    else CashTransaction(t, currency, cash, acct)
  }

  /** A sale, only of a named security: the security, the cash and an
      elided gain or loss. */
  function SellPosts(t: ClosedRecord, currency: string, cash: string, sec: string, gl: string): (r: seq<InterPost>)
    ensures ElidedLast(r)
    ensures t.symbol == "" <==> r == []
    ensures t.symbol != "" ==> (
              |r| == 3 && Elided(r[2]) && r[2].account == gl &&
              r[0] == InterPost(sec, Some(SecPosition(t)), None) &&
              r[1] == InterPost(cash, Some(CashPosition(t, currency)), None))
  {
    if t.symbol != "" then
      [InterPost(sec, Some(SecPosition(t)), None),
       InterPost(cash, Some(CashPosition(t, currency)), None),
       InterPost(gl, None, None)]
    else []
  }

  /** Where each transaction type books its money: a cash movement to the
      to-do or fees account, a dividend, sale or transfer ending in its
      income, gain/loss or to-do account, a purchase as the security then
      the cash. */
  predicate BooksAs(tt: ClosedTranType, r: seq<InterPost>, acct: string, owner: string) {
    var cash := RjCommon.AcctCash(owner, acct);
    var sec := RjCommon.AcctSecurities(owner, acct);
    && (tt in {CN, CR, EFT} ==> CashMovement(r, cash, RjCommon.AcctTodo(owner)))
    && (tt in {GST, QST, TFE, VFN, VFR} ==> CashMovement(r, cash, RjCommon.AcctFees(owner)))
    && (tt in {ATI, TSF} ==> r != [] && r[|r| - 1].account == RjCommon.AcctTodo(owner) && Elided(r[|r| - 1]))
    && (tt in {DVR, DVU} && r != [] ==> r[|r| - 1].account == RjCommon.AcctDividend(owner) && Elided(r[|r| - 1]))
    && (tt == SEL && r != [] ==> r[|r| - 1].account == RjCommon.AcctGainLoss(owner) && Elided(r[|r| - 1]))
    && (tt == BUY && r != [] ==> |r| == 2 && r[0].account == sec && r[1].account == cash)
  }

  /** A purchase paid in cash balances: the cost of the security and the
      cash paid out cancel when the amount paid is the cost. */
  lemma BuyBalances(t: ClosedRecord, currency: string, cash: string, sec: string)
    requires t.symbol != "" && 0.0 <= t.amount && (t.cost == t.amount || t.cost == -t.amount)
    ensures BuyPosts(t, currency, cash, sec)[0].tc.value.quantity +
            BuyPosts(t, currency, cash, sec)[1].cp.value.quantity == 0.0
  {
  }

  /** The postings of a record, by transaction type. Only a buy or sale
      without a symbol, or a dividend with neither amount nor cost, yields
      none; at most the last posting is elided; a US dividend is in USD. */
  function Posts(t: ClosedRecord, acct: string, owner: string, currency: string): (r: seq<InterPost>)
    ensures |r| == 0 <==>
              ((t.tranType == BUY || t.tranType == SEL) && t.symbol == "") ||
              ((t.tranType == DVR || t.tranType == DVU) && t.amount == 0.0 && t.cost == 0.0)
    ensures ElidedLast(r)
    ensures t.tranType == DVU && t.amount != 0.0 ==> r[0].cp.Some? && r[0].cp.value.commodity == "USD"
    ensures t.tranType == DVU && t.amount == 0.0 && t.cost != 0.0 ==> r[0].tc.Some? && r[0].tc.value.commodity == "USD"
    ensures BooksAs(t.tranType, r, acct, owner)
  {
    var cash := RjCommon.AcctCash(owner, acct);
    var sec := RjCommon.AcctSecurities(owner, acct);
    var todo := RjCommon.AcctTodo(owner);
    var dividend := RjCommon.AcctDividend(owner);
    var fees := RjCommon.AcctFees(owner);
    match t.tranType
    case ATI => Transfer(t, currency, cash, sec, todo)
    case BUY => BuyPosts(t, currency, cash, sec)
    case CN => CashTransaction(t, currency, cash, todo)
    case CR => CashTransaction(t, currency, cash, todo)
    case DVR => Dividend(t, currency, cash, sec, dividend)
    case DVU => Dividend(t, "USD", cash, sec, dividend)
    case EFT => CashTransaction(t, currency, cash, todo)
    case GST => CashTransaction(t, currency, cash, fees)
    case QST => CashTransaction(t, currency, cash, fees)
    case SEL => SellPosts(t, currency, cash, sec, RjCommon.AcctGainLoss(owner))
    case TFE => CashTransaction(t, currency, cash, fees)
    case TSF => Transfer(t, currency, cash, sec, todo)
    case VFN => CashTransaction(t, currency, cash, fees)
    case VFR => CashTransaction(t, currency, cash, fees)
  }

  /** "type - description", trimmed. */
  function Narration(t: ClosedRecord): string {
    Strings.Trim(Display(t.tranType) + " - " + t.description)
  }

  /** The line appended to the commodity file: the trimmed symbol and the
      description, when the trimmed symbol is not empty. */
  function CommodityLine(t: ClosedRecord): (r: Option<string>)
    ensures r.Some? <==> Strings.Trim(t.symbol) != ""
  {
    var symbol := Strings.Trim(t.symbol);
    if symbol != "" then Some(symbol + "," + t.description + "\n") else None
  }

  /** `store_closed_transaction` without the commodity-file write: the
      settlement date must parse (the source unwraps it), then the postings
      are stored. */
  function StoreClosedTransaction(s: Sink, t: ClosedRecord, acct: string, owner: string, currency: string,
                                  parseDate: string -> Option<Date>): (r: Result<Sink, ImportError>)
    ensures r.Err? <==> parseDate(t.settled).None?
    ensures r.Ok? ==> r.value == Store(s, Posts(t, acct, owner, currency), parseDate(t.settled).value, Narration(t))
  {
    match parseDate(t.settled)
    case None => Err(UnparsableDate(t.settled))
    case Some(date) => Ok(Store(s, Posts(t, acct, owner, currency), date, Narration(t)))
  }

  /** A record without postings stores no header but uses a number; any
      other adds one header and its postings, numbered consecutively. */
  lemma StoreClosedNumbering(s: Sink, t: ClosedRecord, acct: string, owner: string, currency: string,
                             parseDate: string -> Option<Date>)
    requires parseDate(t.settled).Some?
    ensures var r := StoreClosedTransaction(s, t, acct, owner, currency, parseDate).value;
      var n := |Posts(t, acct, owner, currency)|;
      r.lineCount == s.lineCount + 1 + n &&
      (n == 0 <==> r.transactions == s.transactions) &&
      (n > 0 ==> r.transactions[|s.transactions|].statementNo == s.lineCount &&
                 r.transactions[|s.transactions|].narration == Narration(t))
  {
    var posts := Posts(t, acct, owner, currency);
    var r := Store(s, posts, parseDate(t.settled).value, Narration(t));
    if |posts| > 0 {
      assert |r.transactions| == |s.transactions| + 1;
    }
  }
}

=== FILE: rj_common.dfy ===
/** The account names the CSV importers post to (the `acct_*` macros of
    ledger-rs-csv/src/rj_common.rs), for an owner and a brokerage account
    number. */
module RjCommon {
  import Strings

  /** The twelve accounts an importer can name. */
  datatype AccountKind =
    | Cash | Securities | Todo
    | CapGains | Distribution | Dividend | LongTermCapGains | ShortTermCapGains | GainLoss | Interest
    | Fees | ForeignTax

  /** The top-level part every name of a kind starts with. */
  function Root(k: AccountKind): string {
    match k
    case Cash | Securities | Todo => "Assets:Investments:"
    case Fees | ForeignTax => "Expenses:Investments:"
    case _ => "Income:Investments:"
  }

  /** What follows the owner. Only the cash and securities accounts carry
      the brokerage account number. */
  function Tail(k: AccountKind, acct: string): string {
    match k
    case Cash => ":" + (acct + ":Cash")
    case Securities => ":" + (acct + ":Securities")
    case Todo => ":" + "TODO"
    case Fees => ":Fees"
    case ForeignTax => ":ForeignTax"
    case _ => ":Taxable:" + IncomeLeaf(k)
  }

  /** The last component of an income account. */
  function IncomeLeaf(k: AccountKind): string {
    match k
    case CapGains => "CapitalGains"
    case Distribution => "Distribution"
    case Dividend => "Dividend"
    case LongTermCapGains => "LongTermCapitalGains"
    case ShortTermCapGains => "ShortTermCapitalGains"
    case GainLoss => "GainLoss"
    case Interest => "Interest"
    case _ => ""
  }

  /** The name the `acct_*` macro of kind `k` formats. */
  function AccountName(k: AccountKind, owner: string, acct: string): string {
    Root(k) + owner + Tail(k, acct)
  }

  function AcctCash(owner: string, acct: string): (r: string)
    ensures r == "Assets:Investments:" + owner + ":" + acct + ":Cash"
  {
    AccountName(Cash, owner, acct)
  }

  function AcctSecurities(owner: string, acct: string): (r: string)
    ensures r == "Assets:Investments:" + owner + ":" + acct + ":Securities"
  {
    AccountName(Securities, owner, acct)
  }

  function AcctTodo(owner: string): (r: string)
    ensures r == "Assets:Investments:" + owner + ":TODO"
  {
    AccountName(Todo, owner, "")
  }

  function AcctCapGains(owner: string): string { AccountName(CapGains, owner, "") }
  function AcctDistribution(owner: string): string { AccountName(Distribution, owner, "") }
  function AcctDividend(owner: string): string { AccountName(Dividend, owner, "") }
  function AcctLongTermCapGains(owner: string): string { AccountName(LongTermCapGains, owner, "") }
  function AcctShortTermCapGains(owner: string): string { AccountName(ShortTermCapGains, owner, "") }
  function AcctGainLoss(owner: string): string { AccountName(GainLoss, owner, "") }
  function AcctInterest(owner: string): string { AccountName(Interest, owner, "") }
  function AcctFees(owner: string): string { AccountName(Fees, owner, "") }
  function AcctForeignTax(owner: string): string { AccountName(ForeignTax, owner, "") }

  predicate IsIncome(k: AccountKind) {
    !(k.Cash? || k.Securities? || k.Todo? || k.Fees? || k.ForeignTax?)
  }

  predicate IsExpense(k: AccountKind) {
    k == Fees || k == ForeignTax
  }

  lemma StartsWithConcat(p: string, t: string)
    ensures Strings.StartsWith(p + t, p)
  {
    assert (p + t)[..|p|] == p;
  }

  /** `root + owner + (mid + leaf)` starts with `root + owner + mid`. */
  lemma StartsWithRegrouped(root: string, owner: string, mid: string, leaf: string)
    ensures Strings.StartsWith(root + owner + (mid + leaf), root + owner + mid)
  {
    assert root + owner + (mid + leaf) == (root + owner + mid) + leaf;
    StartsWithConcat(root + owner + mid, leaf);
  }

  /** Every income account is a taxable investment income of the owner. */
  lemma IncomePrefix(k: AccountKind, owner: string, acct: string)
    requires IsIncome(k)
    ensures Strings.StartsWith(AccountName(k, owner, acct), "Income:Investments:" + owner + ":Taxable:")
  {
    assert Root(k) == "Income:Investments:";
    assert Tail(k, acct) == ":Taxable:" + IncomeLeaf(k);
    StartsWithRegrouped("Income:Investments:", owner, ":Taxable:", IncomeLeaf(k));
  }

  /** Fees and foreign tax are investment expenses of the owner. */
  lemma ExpensePrefix(k: AccountKind, owner: string, acct: string)
    requires IsExpense(k)
    ensures Strings.StartsWith(AccountName(k, owner, acct), "Expenses:Investments:" + owner)
  {
    var p := "Expenses:Investments:" + owner;
    assert AccountName(k, owner, acct) == p + Tail(k, acct);
    StartsWithConcat(p, Tail(k, acct));
  }

  /** Cash, securities and TODO are investment assets of the owner. */
  lemma AssetPrefix(k: AccountKind, owner: string, acct: string)
    requires !IsIncome(k) && !IsExpense(k)
    ensures Strings.StartsWith(AccountName(k, owner, acct), "Assets:Investments:" + owner + ":")
  {
    assert Root(k) == "Assets:Investments:";
    var rest := if k.Cash? then acct + ":Cash" else if k.Securities? then acct + ":Securities" else "TODO";
    assert Tail(k, acct) == ":" + rest;
    StartsWithRegrouped("Assets:Investments:", owner, ":", rest);
  }

  lemma RootsDiffer(k1: AccountKind, k2: AccountKind, o1: string, o2: string, t1: string, t2: string)
    requires Root(k1) != Root(k2)
    ensures Root(k1) + o1 + t1 != Root(k2) + o2 + t2
  {
    assert (Root(k1) + o1 + t1)[0] == Root(k1)[0];
    assert (Root(k2) + o2 + t2)[0] == Root(k2)[0];
  }

  /** Two different kinds of one root end differently, whatever the account number. */
  lemma TailsDiffer(k1: AccountKind, k2: AccountKind, acct: string)
    requires k1 != k2 && Root(k1) == Root(k2)
    ensures Tail(k1, acct) != Tail(k2, acct)
  {
    if k1.Cash? || k1.Securities? || k1.Todo? || IsExpense(k1) {
      TailLengthsDiffer(k1, k2, acct);
    } else {
      IncomeTailsDiffer(k1, k2, acct);
    }
  }

  lemma TailLengthsDiffer(k1: AccountKind, k2: AccountKind, acct: string)
    requires k1 != k2 && Root(k1) == Root(k2)
    requires k1.Cash? || k1.Securities? || k1.Todo? || IsExpense(k1)
    ensures |Tail(k1, acct)| != |Tail(k2, acct)|
  {
  }

  lemma IncomeTailsDiffer(k1: AccountKind, k2: AccountKind, acct: string)
    requires k1 != k2 && IsIncome(k1) && IsIncome(k2)
    ensures Tail(k1, acct) != Tail(k2, acct)
  {
    var t1, t2 := Tail(k1, acct), Tail(k2, acct);
    assert t1[9..] == IncomeLeaf(k1) && t2[9..] == IncomeLeaf(k2);
    assert IncomeLeaf(k1) != IncomeLeaf(k2);
  }

  /** For a fixed owner and account number, the twelve names are pairwise
      distinct, so no two roles of an importer share an account. */
  lemma AccountNamesDistinct(k1: AccountKind, k2: AccountKind, owner: string, acct: string)
    requires k1 != k2
    ensures AccountName(k1, owner, acct) != AccountName(k2, owner, acct)
  {
    if Root(k1) != Root(k2) {
      RootsDiffer(k1, k2, owner, owner, Tail(k1, acct), Tail(k2, acct));
    } else {
      TailsDiffer(k1, k2, acct);
      var p := Root(k1) + owner;
      assert AccountName(k1, owner, acct)[|p|..] == Tail(k1, acct);
      assert AccountName(k2, owner, acct)[|p|..] == Tail(k2, acct);
    }
  }
}

=== FILE: rj_decimal.dfy ===
/** Amount helpers of the CSV importers (ledger-rs-csv/src/rj_decimal.rs):
    the clean-up of an amount column before it is read as a decimal, and
    the sign flip. rust_decimal keeps a sign flag apart from the magnitude,
    so a zero can carry either sign; `Signed` models exactly that. */
module RjDecimal {
  import opened Wrappers
  import opened Ledger
  import Strings

  /** A decimal as sign flag and magnitude. */
  datatype Signed = Signed(negative: bool, magnitude: Decimal)

  predicate WellFormed(d: Signed) {
    d.magnitude >= 0.0
  }

  /** The number a `Signed` stands for; a negative zero is zero. */
  function Value(d: Signed): Decimal {
    if d.negative then -d.magnitude else d.magnitude
  }

  /** `is_sign_positive`: the sign flag is clear. */
  predicate IsSignPositive(d: Signed) {
    !d.negative
  }

  /** `set_sign_positive(true)`: the magnitude, whatever the sign was. */
  function SetSignPositive(d: Signed): (r: Signed)
    requires WellFormed(d)
    ensures WellFormed(r) && Value(r) >= 0.0
    ensures Value(r) == Value(d) || Value(r) == -Value(d)
  {
    Signed(false, d.magnitude)
  }

  /** `set_sign_negative(true)`: minus the magnitude. */
  function SetSignNegative(d: Signed): (r: Signed)
    requires WellFormed(d)
    ensures WellFormed(r) && Value(r) <= 0.0
    ensures Value(r) == Value(d) || Value(r) == -Value(d)
  {
    Signed(true, d.magnitude)
  }

  /** `reverse_sign`: a positive flag becomes negative and the other way round. */
  function ReverseSign(d: Signed): (r: Signed)
    requires WellFormed(d)
    ensures WellFormed(r)
    ensures Value(r) == -Value(d)
  {
    if IsSignPositive(d) then Signed(true, d.magnitude) else Signed(false, d.magnitude)
  }

  /** Reversing twice gives back the same representation, sign flag included. */
  lemma ReverseSignInvolution(d: Signed)
    requires WellFormed(d)
    ensures ReverseSign(ReverseSign(d)) == d
  {
  }

  /** A value and its reversal cancel, zero of either sign included. */
  lemma ReverseSignCancels(d: Signed)
    requires WellFormed(d)
    ensures Value(d) + Value(ReverseSign(d)) == 0.0
  {
  }

  /** The absolute value of an exact decimal, as `set_sign_positive` leaves it. */
  function Abs(d: Decimal): (r: Decimal)
    ensures r >= 0.0 && (r == d || r == -d)
  {
    if d < 0.0 then -d else d
  }

  /** `set_sign_positive` on any representation of `d` yields `Abs(d)`. */
  lemma SetSignPositiveIsAbs(d: Signed)
    requires WellFormed(d)
    ensures Value(SetSignPositive(d)) == Abs(Value(d))
  {
  }

  /** `set_sign_negative` on any representation of `d` yields `-Abs(d)`. */
  lemma SetSignNegativeIsMinusAbs(d: Signed)
    requires WellFormed(d)
    ensures Value(SetSignNegative(d)) == -Abs(Value(d))
  {
  }

  // ---------------------------------------------------------------- clean-up

  /** The amount column with every `$` and then every `,` removed. */
  function Strip(s: string): (r: string)
    ensures '$' !in r && ',' !in r
    ensures forall x :: x != '$' && x != ',' ==> (x in r <==> x in s)
  {
    Strings.Remove(Strings.Remove(s, '$'), ',')
  }

  /** The characters of `s` outside `drop`, in order, in one pass. */
  function Without(s: string, drop: set<char>): (r: string)
    ensures |r| <= |s|
  {
    if |s| == 0 then ""
    else (if s[0] in drop then "" else [s[0]]) + Without(s[1..], drop)
  }

  lemma {:induction false} RemoveIsWithout(s: string, c: char, drop: set<char>)
    ensures Without(Strings.Remove(s, c), drop) == Without(s, drop + {c})
  {
    if |s| > 0 {
      RemoveIsWithout(s[1..], c, drop);
      if s[0] != c {
        assert ([s[0]] + Strings.Remove(s[1..], c))[1..] == Strings.Remove(s[1..], c);
      }
    }
  }

  lemma {:induction false} WithoutNothing(s: string)
    ensures Without(s, {}) == s
  {
    if |s| > 0 {
      WithoutNothing(s[1..]);
      assert s == [s[0]] + s[1..];
    }
  }

  /** Stripping keeps every other character in its order: it is the
      one-pass filter of `$` and `,`. */
  lemma StripIsFilter(s: string)
    ensures Strip(s) == Without(s, {'$', ','})
  {
    var once := Strings.Remove(s, '$');
    WithoutNothing(Strip(s));
    RemoveIsWithout(once, ',', {});
    RemoveIsWithout(s, '$', {','});
    WithoutNothing(once);
    assert {','} + {'$'} == {'$', ','};
    assert Without(Strings.Remove(once, ','), {}) == Without(once, {} + {','});
  }

  lemma {:induction false} RemoveAbsent(s: string, c: char)
    requires c !in s
    ensures Strings.Remove(s, c) == s
  {
    if |s| > 0 {
      assert s[0] != c;
      assert c !in s[1..];
      RemoveAbsent(s[1..], c);
      assert s == [s[0]] + s[1..];
    }
  }

  /** Stripping an already stripped amount changes nothing. */
  lemma StripIdempotent(s: string)
    ensures Strip(Strip(s)) == Strip(s)
  {
    var t := Strip(s);
    RemoveAbsent(t, '$');
    RemoveAbsent(t, ',');
  }

  /** `deserialize`: the stripped column read by `from_str`, which is not
      modelled and comes in as `parse`; a rejected column is an error. */
  function Deserialize(s: string, parse: string -> Option<Decimal>): Option<Decimal> {
    parse(Strip(s))
  }
}

=== FILE: rj_usa.dfy ===
/** The importer of US brokerage transactions (ledger-rs-csv/src/rj_usa.rs).
    The kind of a record is read off the start of its description; the
    quantity column is text and is read only for the security posting. */
module RjUsa {
  import opened Wrappers
  import opened Ledger
  import opened Import
  import RjCommon
  import RjDecimal
  import Strings

  /** The columns of a record the importer reads. */
  datatype UsRecord = UsRecord(
    symbol: string,
    description: string,
    amount: Decimal,
    settled: string,
    quantity: string,
    details: string)

  function CashPosition(t: UsRecord, currency: string): Position {
    Position(t.amount, currency)
  }

  /** The security: the quantity column without `$` and `,`, read exactly
      by `parseExact` (`Decimal::from_str_exact`). When it does not read,
      the quantity is 0 and the symbol records the raw column. */
  function SecPosition(t: UsRecord, parseExact: string -> Option<Decimal>): (r: Position)
    ensures var sec := if t.symbol == "" then "UNKNOWNSEC" else t.symbol;
      match parseExact(RjDecimal.Strip(t.quantity))
      case Some(q) => r == Position(q, sec)
      case None => r == Position(0.0, "Error" + t.quantity + " " + sec)
  {
    var sec := if t.symbol == "" then "UNKNOWNSEC" else t.symbol;
    match parseExact(RjDecimal.Strip(t.quantity))
    case Some(q) => Position(q, sec)
    case None => Position(0.0, "Error" + t.quantity + " " + sec)
  }

  /** The cost: the cash amount made non-negative. */
  function Cost(t: UsRecord, currency: string): (r: Position)
    ensures r.quantity >= 0.0 && (r.quantity == t.amount || r.quantity == -t.amount)
    ensures r.commodity == currency
  {
    Position(RjDecimal.Abs(t.amount), currency)
  }

  /** A transfer: cash when there is no symbol, otherwise the security at
      cost; then an elided TODO. */
  function Transfer(t: UsRecord, currency: string, parseExact: string -> Option<Decimal>, cash: string, sec: string, todo: string): (r: seq<InterPost>)
    ensures ElidedLast(r)
    ensures |r| == 2 && !Elided(r[0]) && Elided(r[1]) && r[1].account == todo
    ensures t.symbol == "" ==> r[0] == InterPost(cash, Some(CashPosition(t, currency)), None)
    ensures t.symbol != "" ==> r[0] == InterPost(sec, Some(SecPosition(t, parseExact)), Some(Cost(t, currency)))
  {
    var first :=
      if t.symbol == "" then InterPost(cash, Some(CashPosition(t, currency)), None)
      else InterPost(sec, Some(SecPosition(t, parseExact)), Some(Cost(t, currency)));
    [first, InterPost(todo, None, None)]
  }

  /** A purchase, only of a named security: the security at cost, then cash. */
  function BuyPosts(t: UsRecord, currency: string, parseExact: string -> Option<Decimal>, cash: string, sec: string): (r: seq<InterPost>)
    ensures ElidedLast(r)
    ensures t.symbol == "" <==> r == []
    ensures t.symbol != "" ==> r == [InterPost(sec, Some(SecPosition(t, parseExact)), Some(Cost(t, currency))),
                                     InterPost(cash, Some(CashPosition(t, currency)), None)]
  {
    if t.symbol != "" then
      [InterPost(sec, Some(SecPosition(t, parseExact)), Some(Cost(t, currency))),
       InterPost(cash, Some(CashPosition(t, currency)), None)]
    else []
  }

  /** A purchase paid in cash (the amount is not positive) balances. */
  lemma BuyBalances(t: UsRecord, currency: string, parseExact: string -> Option<Decimal>, cash: string, sec: string)
    requires t.symbol != "" && t.amount <= 0.0
    ensures BuyPosts(t, currency, parseExact, cash, sec)[0].tc.value.quantity +
            BuyPosts(t, currency, parseExact, cash, sec)[1].cp.value.quantity == 0.0
  {
  }

  /** A cash movement against an account the verifier completes. */
  function CashTransaction(t: UsRecord, currency: string, cash: string, acct: string): (r: seq<InterPost>)
    ensures ElidedLast(r)
    ensures |r| == 2
    ensures r[0] == InterPost(cash, Some(CashPosition(t, currency)), None)
    ensures Elided(r[1]) && r[1].account == acct
  {
    CashPosts(cash, CashPosition(t, currency), acct)
  }

  /** A sale, only of a named security: the security quantity forced
      negative, the cash, and an elided gain or loss. */
  function SellPosts(t: UsRecord, currency: string, parseExact: string -> Option<Decimal>, cash: string, sec: string, gl: string): (r: seq<InterPost>)
    ensures ElidedLast(r)
    ensures t.symbol == "" <==> r == []
    ensures t.symbol != "" ==> (
              |r| == 3 && Elided(r[2]) && r[2].account == gl &&
              r[0].account == sec && r[0].tc.None? && r[0].cp.Some? &&
              r[0].cp.value.quantity == -RjDecimal.Abs(SecPosition(t, parseExact).quantity) &&
              r[0].cp.value.commodity == SecPosition(t, parseExact).commodity &&
              r[1] == InterPost(cash, Some(CashPosition(t, currency)), None))
  {
    if t.symbol != "" then
      var p := SecPosition(t, parseExact);
      var q := RjDecimal.Value(RjDecimal.SetSignNegative(RjDecimal.Signed(p.quantity < 0.0, RjDecimal.Abs(p.quantity))));
      [InterPost(sec, Some(Position(q, p.commodity)), None),
       InterPost(cash, Some(CashPosition(t, currency)), None),
       InterPost(gl, None, None)]
    else []
  }

  /** What a description prefix selects: a builder and, for a cash
      movement, the account it is booked against. */
  datatype Action = Fees | BuyIt | DividendIn | ForeignTaxOut | LongTermGain | Rollover | SellIt | ShortTermGain | TransferIn

  /** The description prefixes, in the order the source tries them. */
  function Prefixes(): seq<(string, Action)> {
    [("ADVISORY FEES", Fees),
     ("ASSET BASED FEE", Fees),
     ("MAINTENANCE FEE", Fees),
     ("BUY ", BuyIt),
     ("CASH DIVIDEND RECEIVED", DividendIn),
     ("CASH IN LIEU OF FRACTIONALSHARE RECEIVED", DividendIn),
     ("FOREIGN SECURITY DIVIDEND RECEIVED", DividendIn),
     ("FOREIGN TAX WITHHELD AT   THE SOURCE", ForeignTaxOut),
     ("LONG TERM CAPITAL GAIN    DISTRIBUTION", LongTermGain),
     ("REINVEST CASH INCOME", BuyIt),
     ("ROLLOVER CONTRIBUTION", Rollover),
     ("SELL ", SellIt),
     ("SHORT TERM CAPITAL GAIN   DISTRIBUTION", ShortTermGain),
     ("STOCK SPIN-OFF RECEIVED", BuyIt),
     ("STOCK SPLIT RECEIVED", BuyIt),
     ("YOUR ASSET TRANSFERRED", TransferIn)]
  }

  /** The action of the first prefix of `table` that starts `description`. */
  function FirstMatch(table: seq<(string, Action)>, description: string): (r: Option<Action>)
    ensures r.None? <==> forall i :: 0 <= i < |table| ==> !Strings.StartsWith(description, table[i].0)
    ensures r.Some? ==> exists i :: (0 <= i < |table| && Strings.StartsWith(description, table[i].0) &&
              table[i].1 == r.value &&
              forall j :: 0 <= j < i ==> !Strings.StartsWith(description, table[j].0))
  {
    if |table| == 0 then None
    else if Strings.StartsWith(description, table[0].0) then Some(table[0].1)
    else
      var rest := FirstMatch(table[1..], description);
      assert forall i :: 0 < i < |table| ==> table[i] == table[1..][i - 1];
      rest
  }

  function Classify(description: string): Option<Action> {
    FirstMatch(Prefixes(), description)
  }

  /** The postings of a record: by the first matching description prefix,
      none when no prefix matches. */
  function Posts(t: UsRecord, acct: string, owner: string, currency: string, parseExact: string -> Option<Decimal>): (r: seq<InterPost>)
    ensures Classify(t.description).None? ==> r == []
    ensures ElidedLast(r)
    ensures BooksAs(Classify(t.description), r, acct, owner)
  {
    ActionPosts(Classify(t.description), t, acct, owner, currency, parseExact)
  }

  /** Where each kind of record books its money: a cash movement to the
      matching income, expense or to-do account, the gain or loss of a sale
      and the to-do side of a transfer last. */
  predicate BooksAs(c: Option<Action>, r: seq<InterPost>, acct: string, owner: string) {
    var cash := RjCommon.AcctCash(owner, acct);
    && (c == Some(Fees) ==> CashMovement(r, cash, RjCommon.AcctFees(owner)))
    && (c == Some(DividendIn) ==> CashMovement(r, cash, RjCommon.AcctDividend(owner)))
    && (c == Some(ForeignTaxOut) ==> CashMovement(r, cash, RjCommon.AcctForeignTax(owner)))
    && (c == Some(LongTermGain) ==> CashMovement(r, cash, RjCommon.AcctLongTermCapGains(owner)))
    && (c == Some(ShortTermGain) ==> CashMovement(r, cash, RjCommon.AcctShortTermCapGains(owner)))
    && (c == Some(Rollover) ==> CashMovement(r, cash, RjCommon.AcctTodo(owner)))
    && (c == Some(SellIt) && r != [] ==> r[|r| - 1].account == RjCommon.AcctGainLoss(owner))
    && (c == Some(TransferIn) ==> r != [] && r[|r| - 1].account == RjCommon.AcctTodo(owner))
    && (c == Some(BuyIt) && r != [] ==>
          |r| == 2 && r[0].account == RjCommon.AcctSecurities(owner, acct) && r[1].account == cash)
  }

  /** The postings of a record classified as `c`. */
  function ActionPosts(c: Option<Action>, t: UsRecord, acct: string, owner: string, currency: string, parseExact: string -> Option<Decimal>): (r: seq<InterPost>)
    ensures c.None? ==> r == []
    ensures ElidedLast(r)
    ensures BooksAs(c, r, acct, owner)
  {
    var cash := RjCommon.AcctCash(owner, acct);
    var sec := RjCommon.AcctSecurities(owner, acct);
    match c
    case None => []
    case Some(Fees) => CashTransaction(t, currency, cash, RjCommon.AcctFees(owner))
    case Some(BuyIt) => BuyPosts(t, currency, parseExact, cash, sec)
    case Some(DividendIn) => CashTransaction(t, currency, cash, RjCommon.AcctDividend(owner))
    case Some(ForeignTaxOut) => CashTransaction(t, currency, cash, RjCommon.AcctForeignTax(owner))
    case Some(LongTermGain) => CashTransaction(t, currency, cash, RjCommon.AcctLongTermCapGains(owner))
    case Some(Rollover) => CashTransaction(t, currency, cash, RjCommon.AcctTodo(owner))
    case Some(SellIt) => SellPosts(t, currency, parseExact, cash, sec, RjCommon.AcctGainLoss(owner))
    case Some(ShortTermGain) => CashTransaction(t, currency, cash, RjCommon.AcctShortTermCapGains(owner))
    case Some(TransferIn) => Transfer(t, currency, parseExact, cash, sec, RjCommon.AcctTodo(owner))
  }

  /** The first prefix that starts the description decides. */
  lemma {:induction false} FirstMatchAt(table: seq<(string, Action)>, description: string, k: nat)
    requires k < |table| && Strings.StartsWith(description, table[k].0)
    requires forall j :: 0 <= j < k ==> !Strings.StartsWith(description, table[j].0)
    ensures FirstMatch(table, description) == Some(table[k].1)
  {
    if k > 0 {
      assert !Strings.StartsWith(description, table[0].0);
      forall j | 0 <= j < k - 1
        ensures !Strings.StartsWith(description, table[1..][j].0)
      {
        assert table[1..][j] == table[j + 1];
      }
      FirstMatchAt(table[1..], description, k - 1);
    }
  }

  /** An earlier prefix wins: a description that starts with "BUY " is a
      purchase, whatever follows. */
  lemma BuyBeforeSell(description: string)
    requires Strings.StartsWith(description, "BUY ")
    ensures Classify(description) == Some(BuyIt)
  {
    var table := Prefixes();
    assert description[0] == 'B';
    forall j | 0 <= j < 3
      ensures !Strings.StartsWith(description, table[j].0)
    {
      assert table[j].0[0] != 'B';
    }
    FirstMatchAt(table, description, 3);
  }

  /** "description-details", trimmed. */
  function Narration(t: UsRecord): string {
    Strings.Trim(t.description + "-" + t.details)
  }

  /** `store_us_transaction`. A settlement date that does not read as
      `%m-%d-%Y` (`parseDate`) clears the postings, so no header is stored
      and the date stands in as `NaiveDate::MIN` (`minDate`). */
  function StoreUsTransaction(s: Sink, t: UsRecord, acct: string, owner: string, currency: string,
                              parseExact: string -> Option<Decimal>, parseDate: string -> Option<Date>, minDate: Date): (r: Sink)
    ensures parseDate(t.settled).None? ==> r == s.(lineCount := s.lineCount + 1)
    ensures parseDate(t.settled).Some? ==>
              r == Store(s, Posts(t, acct, owner, currency, parseExact), parseDate(t.settled).value, Narration(t))
  {
    var posts := Posts(t, acct, owner, currency, parseExact);
    var (posts', date) := match parseDate(t.settled)
      case Some(d) => (posts, d)
      case None => ([], minDate);
    Store(s, posts', date, Narration(t))
  }
}

=== FILE: sorting.dfy ===
/** Ordering of finite sequences under a caller-supplied strict order, as the
    `order by` / `sort` / `unique` steps of the data-frame pipeline need it. */
module Sorting {

  ghost predicate StrictOrder<T(!new)>(lt: (T, T) -> bool) {
    && (forall x :: !lt(x, x))
    && (forall x, y, z :: lt(x, y) && lt(y, z) ==> lt(x, z))
  }

  ghost predicate StrictTotalOrder<T(!new)>(lt: (T, T) -> bool) {
    && StrictOrder(lt)
    && (forall x, y :: x == y || lt(x, y) || lt(y, x))
  }

  /** No later element sorts strictly before an earlier one. */
  predicate Sorted<T>(lt: (T, T) -> bool, xs: seq<T>) {
    forall i, j :: 0 <= i < j < |xs| ==> !lt(xs[j], xs[i])
  }

  /** Every earlier element sorts strictly before every later one: sorted
      and free of duplicates. */
  predicate StrictlySorted<T>(lt: (T, T) -> bool, xs: seq<T>) {
    forall i, j :: 0 <= i < j < |xs| ==> lt(xs[i], xs[j])
  }

  /** `x` inserted before the first element it sorts strictly before. */
  function Insert<T(!new)>(lt: (T, T) -> bool, xs: seq<T>, x: T): (r: seq<T>)
    requires StrictOrder(lt)
    requires Sorted(lt, xs)
    ensures Sorted(lt, r)
    ensures multiset(r) == multiset(xs) + multiset{x}
    ensures |r| == |xs| + 1
  {
    if |xs| == 0 then [x]
    else if lt(x, xs[0]) then
      assert xs == [xs[0]] + xs[1..];
      [x] + xs
    else
      var rest := Insert(lt, xs[1..], x);
      assert xs == [xs[0]] + xs[1..];
      InsertStepSorted(lt, xs, x, rest);
      [xs[0]] + rest
  }

  lemma InsertStepSorted<T(!new)>(lt: (T, T) -> bool, xs: seq<T>, x: T, rest: seq<T>)
    requires StrictOrder(lt)
    requires |xs| > 0 && Sorted(lt, xs) && !lt(x, xs[0])
    requires Sorted(lt, rest) && multiset(rest) == multiset(xs[1..]) + multiset{x}
    ensures Sorted(lt, [xs[0]] + rest)
  {
    forall k | 0 <= k < |rest|
      ensures !lt(rest[k], xs[0])
    {
      assert rest[k] in multiset(rest);
      if rest[k] != x {
        assert rest[k] in multiset(xs[1..]);
        var m :| 0 <= m < |xs[1..]| && xs[1..][m] == rest[k];
        assert xs[m + 1] == rest[k];
      }
    }
  }

  /** Insertion sort: a sorted permutation of `xs`. */
  function Sort<T(!new)>(lt: (T, T) -> bool, xs: seq<T>): (r: seq<T>)
    requires StrictOrder(lt)
    ensures Sorted(lt, r)
    ensures multiset(r) == multiset(xs)
    ensures |r| == |xs|
  {
    if |xs| == 0 then []
    else
      assert xs == xs[..|xs| - 1] + [xs[|xs| - 1]];
      Insert(lt, Sort(lt, xs[..|xs| - 1]), xs[|xs| - 1])
  }

  /** `x` added to a strictly sorted sequence, unless it is already there. */
  function InsertUnique<T(!new,==)>(lt: (T, T) -> bool, xs: seq<T>, x: T): (r: seq<T>)
    requires StrictTotalOrder(lt)
    requires StrictlySorted(lt, xs)
    ensures StrictlySorted(lt, r)
    ensures forall y :: y in r <==> y in xs || y == x
  {
    if |xs| == 0 then [x]
    else if x == xs[0] then xs
    else if lt(x, xs[0]) then [x] + xs
    else
      var rest := InsertUnique(lt, xs[1..], x);
      assert forall y :: y in xs <==> y == xs[0] || y in xs[1..];
      assert lt(xs[0], x);
      assert forall k :: 0 <= k < |rest| ==> lt(xs[0], rest[k]) by {
        forall k | 0 <= k < |rest|
          ensures lt(xs[0], rest[k])
        {
          assert rest[k] in rest;
          if rest[k] != x {
            var m :| 1 <= m < |xs| && xs[m] == rest[k];
          }
        }
      }
      [xs[0]] + rest
  }

  /** The distinct elements of `xs`, in increasing order. */
  function SortUnique<T(!new,==)>(lt: (T, T) -> bool, xs: seq<T>): (r: seq<T>)
    requires StrictTotalOrder(lt)
    ensures StrictlySorted(lt, r)
    ensures forall y :: y in r <==> y in xs
  {
    if |xs| == 0 then []
    else
      assert forall y :: y in xs <==> y in xs[..|xs| - 1] || y == xs[|xs| - 1];
      InsertUnique(lt, SortUnique(lt, xs[..|xs| - 1]), xs[|xs| - 1])
  }
}

=== FILE: state.dfy ===
/** The parser's file stack and statement counter
    (`LedgerParserState`, ledger-rs-core/src/state.rs). Statement numbers are
    offsets into the ledger with every included file spliced in where its
    `include` stands: each statement advances the counter by its distance
    from the previous statement of the same file. The source measures these
    offsets in UTF-8 bytes; here they are whatever unit the caller's
    positions use (characters, in the parser model). The counter and
    positions are u32; an arithmetic overflow is modelled as the panic a
    build with overflow checks raises, and an `unwrap` of nothing as the
    panic it is, both as `Err`. */
module ParserState {
  import opened Wrappers

  const U32Max: nat := 0xFFFF_FFFF

  /** The ways the state's operations panic. */
  datatype Panic =
    | NoCurrentFile       // `get_file_no().unwrap()` on an empty stack
    | NoPreviousPosition  // `previous_position.get(..).unwrap()` on a missing key
    | Overflow            // `statement_no + r_start` above u32::MAX
    | Underflow           // `... - prev` below zero
    | IndexOutOfBounds    // `current_filepath[current - 1]` past the end

  datatype State = State(
    inputFiles: map<string, nat>,  // every file seen, with its file number; paths compared as text
    fileNos: seq<nat>,             // `current_file_no`: the include stack
    filepaths: seq<string>,        // `current_filepath`: pushed, never popped
    previous: map<nat, nat>,       // last statement position seen in each file
    statementNo: nat)

  /** File numbers are the order in which files were first seen, the path
      list holds the files in that order, every file has a previous
      position, and every stacked number names a file. */
  predicate Valid(st: State) {
    && |st.filepaths| == |st.inputFiles|
    && (forall p :: p in st.inputFiles ==> st.inputFiles[p] < |st.filepaths| && st.filepaths[st.inputFiles[p]] == p)
    && (forall n :: 0 <= n < |st.filepaths| ==> st.filepaths[n] in st.inputFiles && st.inputFiles[st.filepaths[n]] == n)
    && (forall n :: n in st.previous ==> n < |st.filepaths|)
    && (forall n :: 0 <= n < |st.filepaths| ==> n in st.previous)
    && (forall n :: n in st.previous ==> st.previous[n] <= U32Max)
    && StackInRange(st)
    && st.statementNo <= U32Max
  }

  /** Every stacked file number indexes the path list. */
  predicate StackInRange(st: State) {
    forall i :: 0 <= i < |st.fileNos| ==> st.fileNos[i] < |st.filepaths|
  }

  /** `LedgerParserState::new`. */
  function New(): (r: State)
    ensures Valid(r)
    ensures FileNo(r).None? && r.statementNo == 0
  {
    State(map[], [], [], map[], 0)
  }

  /** `get_file_no`: the file being parsed, on top of the include stack. */
  function FileNo(st: State): (r: Option<nat>)
    ensures r.None? <==> |st.fileNos| == 0
    ensures r.Some? ==> r.value == st.fileNos[|st.fileNos| - 1]
  {
    if |st.fileNos| == 0 then None else Some(st.fileNos[|st.fileNos| - 1])
  }

  /** `insert`: a new file gets the next file number, becomes the current
      file and starts at position 0; a known file changes nothing. */
  function Insert(st: State, f: string): (r: State)
    ensures f in r.inputFiles
    ensures f in st.inputFiles ==> r == st
    ensures f !in st.inputFiles ==>
              && r.inputFiles == st.inputFiles[f := |st.inputFiles|]
              && r.fileNos == st.fileNos + [|st.inputFiles|]
              && r.filepaths == st.filepaths + [f]
              && r.previous == st.previous[|st.inputFiles| := 0]
              && r.statementNo == st.statementNo
  {
    if f in st.inputFiles then st
    else
      var n := |st.inputFiles|;
      State(st.inputFiles[f := n], st.fileNos + [n], st.filepaths + [f], st.previous[n := 0], st.statementNo)
  }

  /** `insert` keeps the state consistent. */
  lemma InsertValid(st: State, f: string)
    requires Valid(st)
    ensures Valid(Insert(st, f))
  {
    if f !in st.inputFiles {
      InsertNumbersPaths(st, f);
      InsertPathsNumbered(st, f);
      InsertPositionsStack(st, f);
    }
  }

  /** After `insert` of a new file, the positions and the stack cover
      exactly the known files. */
  lemma InsertPositionsStack(st: State, f: string)
    requires Valid(st) && f !in st.inputFiles
    ensures var r := Insert(st, f);
            && |r.filepaths| == |r.inputFiles|
            && (forall n :: n in r.previous ==> n < |r.filepaths|)
            && (forall n :: 0 <= n < |r.filepaths| ==> n in r.previous)
            && (forall n :: n in r.previous ==> r.previous[n] <= U32Max)
            && StackInRange(r)
  {
  }

  /** After `insert` of a new file, every file's number indexes its path. */
  lemma InsertNumbersPaths(st: State, f: string)
    requires Valid(st) && f !in st.inputFiles
    ensures var r := Insert(st, f);
            forall p :: p in r.inputFiles ==> r.inputFiles[p] < |r.filepaths| && r.filepaths[r.inputFiles[p]] == p
  {
    var r := Insert(st, f);
    forall p | p in r.inputFiles
      ensures r.inputFiles[p] < |r.filepaths| && r.filepaths[r.inputFiles[p]] == p
    {
      if p != f {
        assert r.filepaths[st.inputFiles[p]] == st.filepaths[st.inputFiles[p]];
      }
    }
  }

  /** After `insert` of a new file, every path is numbered by its index. */
  lemma InsertPathsNumbered(st: State, f: string)
    requires Valid(st) && f !in st.inputFiles
    ensures var r := Insert(st, f);
            forall i :: 0 <= i < |r.filepaths| ==> r.filepaths[i] in r.inputFiles && r.inputFiles[r.filepaths[i]] == i
  {
    var r := Insert(st, f);
    forall i | 0 <= i < |r.filepaths|
      ensures r.filepaths[i] in r.inputFiles && r.inputFiles[r.filepaths[i]] == i
    {
      if i < |st.inputFiles| {
        assert r.filepaths[i] == st.filepaths[i];
        assert st.filepaths[i] != f;
      }
    }
  }

  /** The shared arithmetic of `statement_no` and `finished_include`: the
      counter advances by the distance from the current file's previous
      position to `pos`, which becomes the previous position. */
  function Advance(st: State, pos: nat): (r: Result<State, Panic>)
    requires pos <= U32Max
    ensures r.Ok? <==>
              && FileNo(st).Some? && FileNo(st).value in st.previous
              && st.statementNo + pos <= U32Max
              && st.previous[FileNo(st).value] <= st.statementNo + pos
    ensures r.Ok? ==>
              && r.value.statementNo + st.previous[FileNo(st).value] == st.statementNo + pos
              && r.value.previous == st.previous[FileNo(st).value := pos]
              && r.value.fileNos == st.fileNos && r.value.filepaths == st.filepaths
              && r.value.inputFiles == st.inputFiles
  {
    var file := FileNo(st);
    if file.None? then Err(NoCurrentFile)
    else if file.value !in st.previous then Err(NoPreviousPosition)
    else
      var prev := st.previous[file.value];
      var sum := st.statementNo + pos;
      if sum > U32Max then Err(Overflow)
      else if sum < prev then Err(Underflow)
      else Ok(st.(statementNo := sum - prev, previous := st.previous[file.value := pos]))
  }

  /** `statement_no(r_start)`: the number of the statement starting at
      `rStart` in the current file, and the state after it. */
  function StatementNo(st: State, rStart: nat): (r: Result<(State, nat), Panic>)
    requires rStart <= U32Max
    ensures r.Ok? <==> Advance(st, rStart).Ok?
    ensures r.Ok? ==> r.value.1 == r.value.0.statementNo
    ensures r.Ok? ==> r.value.0.statementNo + st.previous[FileNo(st).value] == st.statementNo + rStart
    ensures r.Ok? ==> FileNo(r.value.0) == FileNo(st) && r.value.0.previous == st.previous[FileNo(st).value := rStart]
    ensures r.Ok? ==>
              && r.value.0.fileNos == st.fileNos && r.value.0.filepaths == st.filepaths
              && r.value.0.inputFiles == st.inputFiles
  {
    var s :- Advance(st, rStart);
    Ok((s, s.statementNo))
  }

  /** `finished_include(n)`: the counter moves to the end (`n` positions)
      of the included file, and the include stack pops it; the path list
      is left as it is. */
  function FinishedInclude(st: State, n: nat): (r: Result<State, Panic>)
    requires n <= U32Max
    ensures r.Ok? <==> Advance(st, n).Ok?
    ensures r.Ok? ==>
              && r.value.statementNo + st.previous[FileNo(st).value] == st.statementNo + n
              && r.value.fileNos == st.fileNos[..|st.fileNos| - 1]
              && r.value.filepaths == st.filepaths && r.value.inputFiles == st.inputFiles
              && r.value.previous == st.previous[FileNo(st).value := n]
  {
    var s :- Advance(st, n);
    Ok(s.(fileNos := s.fileNos[..|s.fileNos| - 1]))
  }

  /** `statement_no` and `finished_include` keep the state consistent. */
  lemma AdvanceValid(st: State, pos: nat)
    requires Valid(st) && pos <= U32Max
    ensures StatementNo(st, pos).Ok? ==> Valid(StatementNo(st, pos).value.0)
    ensures FinishedInclude(st, pos).Ok? ==> Valid(FinishedInclude(st, pos).value)
  {
  }

  /** `get_current_filepath` as written: the path list indexed by the depth
      of the include stack. Once an include has finished, the path list is
      longer than the stack and this is no longer the current file. */
  function CurrentFilepath(st: State): (r: Result<Option<string>, Panic>)
    ensures r.Err? <==> |st.fileNos| > |st.filepaths|
    ensures r == Ok(None) <==> |st.fileNos| == 0
    ensures r.Ok? && r.value.Some? ==> r.value.value == st.filepaths[|st.fileNos| - 1]
  {
    var current := |st.fileNos|;
    if current == 0 then Ok(None)
    else if current - 1 >= |st.filepaths| then Err(IndexOutOfBounds)
    else Ok(Some(st.filepaths[current - 1]))
  }

  /** The current file's path: the path list indexed by the file number on
      top of the stack, file numbers being positions in that list. */
  function CurrentFilepathFixed(st: State): (r: Option<string>)
    requires StackInRange(st)
    ensures r.None? <==> |st.fileNos| == 0
    ensures Valid(st) && r.Some? ==> r.value in st.inputFiles && FileNo(st) == Some(st.inputFiles[r.value])
  {
    if |st.fileNos| == 0 then None
    else
      Some(st.filepaths[st.fileNos[|st.fileNos| - 1]])
  }

  // ----- Numbering across includes -----

  /** An included file is spliced into the numbering where its `include`
      stands: its statements are numbered from the include's number plus
      their position, finishing it moves the counter `n` (its length) past
      the include, and the includer goes on from there, its stack restored. */
  lemma IncludeSplice(st: State, p: nat, g: string, q: nat, n: nat, p2: nat)
    requires Valid(st) && p <= U32Max && q <= U32Max && n <= U32Max && p2 <= U32Max
    requires g !in st.inputFiles
    requires StatementNo(st, p).Ok?
    ensures
      var st1 := StatementNo(st, p).value.0;
      var s := StatementNo(st, p).value.1;
      var st2 := Insert(st1, g);
      && (StatementNo(st2, q).Ok? ==> StatementNo(st2, q).value.1 == s + q)
      && (StatementNo(st2, q).Ok? && FinishedInclude(StatementNo(st2, q).value.0, n).Ok? ==>
            var st4 := FinishedInclude(StatementNo(st2, q).value.0, n).value;
            && st4.statementNo == s + n && st4.fileNos == st.fileNos
            && (StatementNo(st4, p2).Ok? ==> StatementNo(st4, p2).value.1 == s + n + p2 - p))
  {
  }

  /** A new file becomes the current file. */
  lemma InsertMakesCurrent(st: State, f: string)
    requires Valid(st) && f !in st.inputFiles
    ensures CurrentFilepathFixed(Insert(st, f)) == Some(f)
    ensures |Insert(st, f).inputFiles| == |st.inputFiles| + 1
  {
  }

  /** Finishing a newly included file makes its includer current again. */
  lemma FinishedIncludeRestoresCurrent(st: State, f: string, n: nat)
    requires Valid(st) && f !in st.inputFiles && n <= U32Max
    requires FinishedInclude(Insert(st, f), n).Ok?
    ensures CurrentFilepathFixed(FinishedInclude(Insert(st, f), n).value) == CurrentFilepathFixed(st)
  {
  }

  // ----- Findings -----

  /** `main` includes `a`, which finishes; `main` then includes `b`. Inside
      `b` the code's `get_current_filepath` names `a`, so a relative
      `include` in `b` is resolved against `a`'s directory. */
  lemma CurrentFilepathAfterSiblingInclude()
    ensures
      var st1 := Insert(Insert(New(), "main"), "a");
      FinishedInclude(st1, 10).Ok? &&
      var st3 := Insert(FinishedInclude(st1, 10).value, "b");
      && Valid(st3)
      && CurrentFilepath(st3) == Ok(Some("a"))
      && CurrentFilepathFixed(st3) == Some("b")
  {
    var st2, st3 := InsideSecondInclude();
    ReachedValid(st2);
    assert CurrentFilepath(st3) == Ok(Some("a"));
    assert CurrentFilepathFixed(st3) == Some("b");
  }

  /** `main` after `a` has finished (`st2`) and `b` has been included (`st`). */
  lemma InsideSecondInclude() returns (st2: State, st: State)
    ensures FinishedInclude(Insert(Insert(New(), "main"), "a"), 10).Ok?
    ensures st2 == FinishedInclude(Insert(Insert(New(), "main"), "a"), 10).value
    ensures "b" !in st2.inputFiles && st == Insert(st2, "b")
    ensures st.fileNos == [0, 2] && st.filepaths == ["main", "a", "b"]
  {
    st2 := AfterFirstInclude();
    InsertThird(st2);
    st := Insert(st2, "b");
  }

  /** Including `b` after `main` and `a` gives it file number 2. */
  lemma InsertThird(st2: State)
    requires st2.inputFiles == map["main" := 0, "a" := 1]
    requires st2.fileNos == [0] && st2.filepaths == ["main", "a"]
    ensures "b" !in st2.inputFiles
    ensures Insert(st2, "b").fileNos == [0, 2] && Insert(st2, "b").filepaths == ["main", "a", "b"]
  {
    assert "b" !in st2.inputFiles;
    assert |st2.inputFiles| == 2;
  }

  /** The states the example passes through are consistent, and `b` is new. */
  lemma ReachedValid(st2: State)
    requires FinishedInclude(Insert(Insert(New(), "main"), "a"), 10).Ok?
    requires st2 == FinishedInclude(Insert(Insert(New(), "main"), "a"), 10).value
    requires "b" !in st2.inputFiles
    ensures Valid(Insert(st2, "b"))
  {
    var st0 := Insert(New(), "main");
    InsertValid(New(), "main");
    InsertValid(st0, "a");
    AdvanceValid(Insert(st0, "a"), 10);
    InsertValid(st2, "b");
  }

  /** `main` with `a` included in it, nothing parsed yet. */
  lemma TwoFiles() returns (st: State)
    ensures st == Insert(Insert(New(), "main"), "a")
    ensures st == State(map["main" := 0, "a" := 1], [0, 1], ["main", "a"], map[0 := 0, 1 := 0], 0)
  {
    var st0 := Insert(New(), "main");
    assert st0 == State(map["main" := 0], [0], ["main"], map[0 := 0], 0);
    assert "a" !in st0.inputFiles;
    st := Insert(st0, "a");
  }

  /** `main` after `a`, 10 characters long, has been parsed. */
  lemma AfterFirstInclude() returns (st: State)
    ensures FinishedInclude(Insert(Insert(New(), "main"), "a"), 10).Ok?
    ensures st == FinishedInclude(Insert(Insert(New(), "main"), "a"), 10).value
    ensures st.inputFiles == map["main" := 0, "a" := 1]
    ensures st.fileNos == [0] && st.filepaths == ["main", "a"] && st.statementNo == 10
    ensures st.previous == map[0 := 0, 1 := 0][1 := 10]
  {
    var st1 := TwoFiles();
    st := FinishedInclude(st1, 10).value;
  }

  /** `insert` of a file already seen pushes nothing, but the
      `finished_include` that follows its parse pops all the same: the
      includer's number is lost. Including `a` twice from `main` leaves the
      stack empty, and the include's own `get_file_no().unwrap()` panics. */
  lemma ReincludePopsIncluder()
    ensures
      var st2 := FinishedInclude(Insert(Insert(New(), "main"), "a"), 10).value;
      var st3 := Insert(st2, "a");
      && st2.fileNos == [0] && st3 == st2
      && FinishedInclude(st3, 10).Ok? && FileNo(FinishedInclude(st3, 10).value).None?
  {
    var st2 := AfterFirstInclude();
    assert "a" in st2.inputFiles;
  }

  /** `insert` that also re-enters a known file: its number is pushed and
      its position restarts at 0, as its text is parsed again from the start. */
  function InsertFixed(st: State, f: string): (r: State)
    ensures f in r.inputFiles
    ensures r.fileNos == st.fileNos + [r.inputFiles[f]] && r.previous == st.previous[r.inputFiles[f] := 0]
    ensures r.statementNo == st.statementNo
    ensures f !in st.inputFiles ==> r == Insert(st, f)
  {
    if f in st.inputFiles then
      var n := st.inputFiles[f];
      st.(fileNos := st.fileNos + [n], previous := st.previous[n := 0])
    else Insert(st, f)
  }

  lemma InsertFixedValid(st: State, f: string)
    requires Valid(st)
    ensures Valid(InsertFixed(st, f))
  {
    if f !in st.inputFiles {
      InsertValid(st, f);
    }
  }

  /** With the corrected `insert`, an include always hands the stack back
      to its includer, whether or not the file was seen before. */
  lemma InsertFixedRestoresStack(st: State, f: string, n: nat)
    requires Valid(st) && n <= U32Max
    requires FinishedInclude(InsertFixed(st, f), n).Ok?
    ensures FinishedInclude(InsertFixed(st, f), n).value.fileNos == st.fileNos
    ensures CurrentFilepathFixed(FinishedInclude(InsertFixed(st, f), n).value) == CurrentFilepathFixed(st)
  {
  }
}

=== FILE: strings.dfy ===
/** Strings as sequences of characters: the lexicographic order used by
    SQL/Polars `order by` on text columns, prefix tests, and the few string
    transformations the importers apply (`replace`, `trim`, `join`). */
module Strings {
  /** The characters that end lines, and the two line endings. */
  const LineFeed: char := '\n'
  const CarriageReturn: char := '\r'
  const Lf: string := [LineFeed]
  const CrLf: string := [CarriageReturn, LineFeed]

  /** Strict lexicographic order by code point, which is also the byte order
      of the UTF-8 encodings. A proper prefix sorts first. */
  predicate Less(a: string, b: string)
    decreases |a|
  {
    |b| > 0 && (|a| == 0 || a[0] < b[0] || (a[0] == b[0] && Less(a[1..], b[1..])))
  }

  lemma {:induction false} LessIrreflexive(a: string)
    ensures !Less(a, a)
    decreases |a|
  {
    if |a| > 0 {
      LessIrreflexive(a[1..]);
    }
  }

  lemma {:induction false} LessTransitive(a: string, b: string, c: string)
    requires Less(a, b) && Less(b, c)
    ensures Less(a, c)
    decreases |a|
  {
    if |a| > 0 && a[0] == b[0] && b[0] == c[0] {
      LessTransitive(a[1..], b[1..], c[1..]);
    }
  }

  lemma {:induction false} LessTrichotomous(a: string, b: string)
    ensures a == b || Less(a, b) || Less(b, a)
    decreases |a|
  {
    if |a| > 0 && |b| > 0 && a[0] == b[0] {
      LessTrichotomous(a[1..], b[1..]);
      if a[1..] == b[1..] {
        assert a == [a[0]] + a[1..] && b == [b[0]] + b[1..];
      }
    }
  }

  predicate StartsWith(s: string, prefix: string) {
    |prefix| <= |s| && s[..|prefix|] == prefix
  }

  /** `s` with every occurrence of character `c` removed: Rust's
      `s.replace("c", "")` for a one-character pattern. */
  function Remove(s: string, c: char): (r: string)
    ensures c !in r
    ensures forall x :: x != c ==> (x in r <==> x in s)
    ensures |r| <= |s|
  {
    if |s| == 0 then ""
    else if s[0] == c then Remove(s[1..], c)
    else [s[0]] + Remove(s[1..], c)
  }

  /** Rust's `char::is_whitespace`: the Unicode White_Space property. */
  predicate IsWhitespace(c: char) {
    || ('\t' <= c <= '\r') || c == ' ' || c == '\U{0085}' || c == '\U{00A0}'
    || c == '\U{1680}' || ('\U{2000}' <= c <= '\U{200A}') || c == '\U{2028}'
    || c == '\U{2029}' || c == '\U{202F}' || c == '\U{205F}' || c == '\U{3000}'
  }

  function TrimStart(s: string): (r: string)
    ensures |r| <= |s| && r == s[|s| - |r|..]
    ensures |r| > 0 ==> !IsWhitespace(r[0])
    ensures forall i :: 0 <= i < |s| - |r| ==> IsWhitespace(s[i])
  {
    if |s| > 0 && IsWhitespace(s[0]) then TrimStart(s[1..]) else s
  }

  function TrimEnd(s: string): (r: string)
    ensures |r| <= |s| && r == s[..|r|]
    ensures |r| > 0 ==> !IsWhitespace(r[|r| - 1])
    ensures forall i :: |r| <= i < |s| ==> IsWhitespace(s[i])
  {
    if |s| > 0 && IsWhitespace(s[|s| - 1]) then TrimEnd(s[..|s| - 1]) else s
  }

  /** Rust's `str::trim`. */
  function Trim(s: string): string {
    TrimEnd(TrimStart(s))
  }

  /** `parts` joined with `sep` between consecutive elements (Rust's `join`). */
  function Join(parts: seq<string>, sep: string): string {
    if |parts| == 0 then ""
    else if |parts| == 1 then parts[0]
    else parts[0] + sep + Join(parts[1..], sep)
  }

  /** Rust's `join` of the parts with one separator character. */
  lemma {:induction false} JoinAppend(p: seq<string>, q: seq<string>, sep: char)
    requires |p| > 0 && |q| > 0
    ensures Join(p + q, [sep]) == Join(p, [sep]) + [sep] + Join(q, [sep])
    decreases |p|
  {
    if |p| == 1 {
      assert (p + q)[1..] == q;
    } else {
      assert (p + q)[1..] == p[1..] + q;
      JoinAppend(p[1..], q, sep);
    }
  }

  /** `s.split(sep)`: the pieces between separators, the empty string
      giving one empty piece. */
  function Split(s: string, sep: char): (r: seq<string>)
    ensures |r| >= 1
    ensures forall i :: 0 <= i < |r| ==> sep !in r[i]
    decreases |s|
  {
    if |s| == 0 then [""]
    else
      var rest := Split(s[1..], sep);
      if s[0] == sep then [""] + rest
      else [[s[0]] + rest[0]] + rest[1..]
  }

  /** Joining the pieces again gives the string back. */
  lemma {:induction false} JoinSplit(s: string, sep: char)
    ensures Join(Split(s, sep), [sep]) == s
    decreases |s|
  {
    if |s| > 0 {
      var rest := Split(s[1..], sep);
      JoinSplit(s[1..], sep);
      if s[0] == sep {
        assert ([""] + rest)[1..] == rest;
      } else if |rest| > 1 {
        assert ([[s[0]] + rest[0]] + rest[1..])[1..] == rest[1..];
        assert s == [s[0]] + s[1..];
      }
    }
  }

  /** Splitting a string with one more character in front. */
  lemma SplitCons(c: char, s: string, sep: char)
    ensures Split([c] + s, sep) ==
              if c == sep then [""] + Split(s, sep)
              else [[c] + Split(s, sep)[0]] + Split(s, sep)[1..]
  {
    assert ([c] + s)[1..] == s;
  }

  /** A separator splits a string into the pieces of either side. */
  lemma {:induction false} SplitAppend(x: string, y: string, sep: char)
    ensures Split(x + [sep] + y, sep) == Split(x, sep) + Split(y, sep)
    decreases |x|
  {
    if |x| == 0 {
      assert x + [sep] + y == [sep] + y;
      assert ([sep] + y)[1..] == y;
    } else {
      SplitAppend(x[1..], y, sep);
      SplitAppendStep(x, y, sep);
    }
  }

  /** One character more in front of both sides of `SplitAppend`. */
  lemma SplitAppendStep(x: string, y: string, sep: char)
    requires |x| > 0
    requires Split(x[1..] + [sep] + y, sep) == Split(x[1..], sep) + Split(y, sep)
    ensures Split(x + [sep] + y, sep) == Split(x, sep) + Split(y, sep)
  {
    var z := x[1..] + [sep] + y;
    assert x + [sep] + y == [x[0]] + z;
    assert [x[0]] + x[1..] == x;
    SplitCons(x[0], z, sep);
    SplitCons(x[0], x[1..], sep);
    var front, back := Split(x[1..], sep), Split(y, sep);
    if x[0] == sep {
      ConsAppend("", front, back);
    } else {
      HeadAppend(front, back);
      ConsAppend([x[0]] + front[0], front[1..], back);
    }
  }

  lemma ConsAppend<T>(h: T, a: seq<T>, b: seq<T>)
    ensures [h] + (a + b) == ([h] + a) + b
  {
  }

  lemma HeadAppend<T>(a: seq<T>, b: seq<T>)
    requires |a| > 0
    ensures (a + b)[0] == a[0] && (a + b)[1..] == a[1..] + b
  {
  }
}

=== FILE: verify.dfy ===
/** The balance verification pipeline as its SQL description lays it out
    (ledger-rs-core/src/verify.rs:14-84):
      1. group the postings by (transaction, tc commodity), negated sums;
      2. flag each transaction whose lowest-code group does not sum to zero;
      3. left-join the postings to the flags, filling absent cp/tc fields;
      4. report every final (transaction, tc commodity) group that is not zero.
    The Polars code that implements it differs; see module VerifyAsWritten. */
module Verify {
  import opened Wrappers
  import opened Ledger
  import opened Groups
  import Strings
  import Sorting
  import Accounts

  /** The tc columns of an input posting. */
  function TcEntry(p: PostingParams): Entry {
    Entry(p.transactionNo, p.tcCommodity, p.tcQuantity)
  }

  function TcEntries(ps: seq<PostingParams>): (r: seq<Entry>)
    ensures |r| == |ps|
    ensures forall i :: 0 <= i < |ps| ==> r[i] == TcEntry(ps[i])
  {
    seq(|ps|, i requires 0 <= i < |ps| => TcEntry(ps[i]))
  }

  /** The final tc columns of a final posting. */
  function FinalTcEntry(f: FinalPosting): Entry {
    Entry(f.transactionNo, f.tcCommodity, f.tcQuantity)
  }

  function FinalTcEntries(fs: seq<FinalPosting>): (r: seq<Entry>)
    ensures |r| == |fs|
    ensures forall i :: 0 <= i < |fs| ==> r[i] == FinalTcEntry(fs[i])
  {
    seq(|fs|, i requires 0 <= i < |fs| => FinalTcEntry(fs[i]))
  }

  // ----- Step 1: CommodityAggregator -----

  /** `where tc_commodity is not null`. */
  function Stated(es: seq<Entry>): (r: seq<Entry>)
    ensures forall e :: e in r <==> e in es && e.commodity.Some?
  {
    if |es| == 0 then []
    else
      assert forall e :: e in es <==> e in es[..|es| - 1] || e == es[|es| - 1];
      Stated(es[..|es| - 1]) + (if es[|es| - 1].commodity.Some? then [es[|es| - 1]] else [])
  }

  /** Dropping the rows without a commodity changes no sum of a group that has one. */
  lemma {:induction false} StatedSum(es: seq<Entry>, k: Key)
    requires k.commodity.Some?
    ensures SqlSum(Stated(es), k) == SqlSum(es, k)
  {
    if |es| > 0 {
      var last := es[|es| - 1];
      StatedSum(es[..|es| - 1], k);
      if last.commodity.Some? {
        SqlSumAppend(Stated(es[..|es| - 1]), [last], k);
        assert [last][..0] == [];
      } else {
        assert Stated(es) == Stated(es[..|es| - 1]);
        assert Contribution(last, k) == None;
      }
    }
  }

  /** `-1.0 * sum(...)`: the negation of a nullable sum is null when the sum is. */
  function Negate(s: Option<Decimal>): (r: Option<Decimal>)
    ensures r.Some? <==> s.Some?
    ensures r.Some? ==> r.value + s.value == 0.0
  {
    if s.None? then None else Some(-s.value)
  }

  lemma StatedKeys(es: seq<Entry>, k: Key)
    requires k.commodity.Some?
    ensures k in Keys(Stated(es)) <==> k in Keys(es)
  {
    if k in Keys(es) {
      var i :| 0 <= i < |es| && Keys(es)[i] == k;
      assert es[i] in Stated(es);
      var j :| 0 <= j < |Stated(es)| && Stated(es)[j] == es[i];
      assert Keys(Stated(es))[j] == k;
    }
    if k in Keys(Stated(es)) {
      var j :| 0 <= j < |Stated(es)| && Keys(Stated(es))[j] == k;
      assert Stated(es)[j] in Stated(es);
      var i :| 0 <= i < |es| && es[i] == Stated(es)[j];
      assert Keys(es)[i] == k;
    }
  }

  function NegateAll(gs: seq<Group>): (r: seq<Group>)
    ensures |r| == |gs|
    ensures forall i :: 0 <= i < |gs| ==> r[i] == Group(gs[i].key, Negate(gs[i].sum))
  {
    seq(|gs|, i requires 0 <= i < |gs| => Group(gs[i].key, Negate(gs[i].sum)))
  }

  /** Step 1: one group per (transaction, stated tc commodity), ordered by
      transaction then commodity, holding the negated sum of its tc quantities. */
  function Aggregate(ps: seq<PostingParams>): (r: seq<Group>)
    ensures Sorting.StrictlySorted(GroupLess, r)
    ensures forall g :: g in r ==> g.key.commodity.Some?
    ensures forall g :: g in r ==> g.sum == Negate(SqlSum(TcEntries(ps), g.key))
    ensures forall k: Key :: k.commodity.Some? ==>
              (k in Keys(TcEntries(ps)) <==> exists g :: g in r && g.key == k)
  {
    var es := TcEntries(ps);
    var gs := GroupBy(Stated(es));
    var r := NegateAll(gs);
    AggregateFacts(es, gs, r);
    r
  }

  lemma AggregateFacts(es: seq<Entry>, gs: seq<Group>, r: seq<Group>)
    requires gs == GroupBy(Stated(es)) && r == NegateAll(gs)
    ensures Sorting.StrictlySorted(GroupLess, r)
    ensures forall g :: g in r ==> g.key.commodity.Some?
    ensures forall g :: g in r ==> g.sum == Negate(SqlSum(es, g.key))
    ensures forall k: Key :: k.commodity.Some? ==>
              (k in Keys(es) <==> exists g :: g in r && g.key == k)
  {
    forall g | g in r
      ensures g.key.commodity.Some? && g.sum == Negate(SqlSum(es, g.key))
    {
      AggregateGroup(es, gs, r, g);
    }
    forall k: Key | k.commodity.Some?
      ensures k in Keys(es) <==> exists g :: g in r && g.key == k
    {
      AggregateKey(es, gs, r, k);
    }
  }

  lemma AggregateGroup(es: seq<Entry>, gs: seq<Group>, r: seq<Group>, g: Group)
    requires gs == GroupBy(Stated(es)) && r == NegateAll(gs)
    requires g in r
    ensures g.key.commodity.Some? && g.sum == Negate(SqlSum(es, g.key))
  {
    var i :| 0 <= i < |r| && r[i] == g;
    assert gs[i] in gs;
    assert gs[i].key in Keys(Stated(es));
    var j :| 0 <= j < |Keys(Stated(es))| && Keys(Stated(es))[j] == gs[i].key;
    assert Stated(es)[j] in Stated(es);
    StatedSum(es, g.key);
  }

  lemma AggregateKey(es: seq<Entry>, gs: seq<Group>, r: seq<Group>, k: Key)
    requires gs == GroupBy(Stated(es)) && r == NegateAll(gs)
    requires k.commodity.Some?
    ensures k in Keys(es) <==> exists g :: g in r && g.key == k
  {
    StatedKeys(es, k);
    NegateAllKeys(gs, k);
  }

  /** Negating the sums keeps the keys. */
  lemma NegateAllKeys(gs: seq<Group>, k: Key)
    ensures (exists g :: g in gs && g.key == k) <==> (exists g :: g in NegateAll(gs) && g.key == k)
  {
    var r := NegateAll(gs);
    if exists g :: g in gs && g.key == k {
      var g :| g in gs && g.key == k;
      var m :| 0 <= m < |gs| && gs[m] == g;
      assert r[m] in r;
    }
    if exists g :: g in r && g.key == k {
      var g :| g in r && g.key == k;
      var m :| 0 <= m < |r| && r[m] == g;
      assert gs[m] in gs;
    }
  }

  // ----- Step 2: UnbalancedDetector -----

  /** An inferred position for the elided posting of one transaction. */
  datatype UnbalancedFlag = UnbalancedFlag(transactionNo: nat, commodity: string, quantity: Decimal)

  /** `num = 1`: no group of the same transaction has a lower commodity code. */
  predicate RankOne(gs: seq<Group>, i: int)
    requires 0 <= i < |gs|
  {
    forall j :: 0 <= j < |gs| && gs[j].key.transactionNo == gs[i].key.transactionNo ==>
      !CommodityLess(gs[j].key.commodity, gs[i].key.commodity)
  }

  /** The flag a group yields when it is rank one and unbalanced. */
  predicate FlagOfGroup(f: UnbalancedFlag, g: Group) {
    && f.transactionNo == g.key.transactionNo
    && g.key.commodity == Some(f.commodity)
    && g.sum == Some(f.quantity)
  }

  /** In a sorted group table the rank-one group of a transaction is the
      first of its groups. */
  lemma KeyLessAsymmetric(a: Key, b: Key)
    ensures !(KeyLess(a, b) && KeyLess(b, a))
  {
    KeyLessIsStrictTotal();
  }

  /** In a sorted table, transaction numbers never decrease. */
  lemma TransactionsBefore(gs: seq<Group>, i: int)
    requires Sorting.StrictlySorted(GroupLess, gs)
    requires 0 < i < |gs| && gs[i - 1].key.transactionNo != gs[i].key.transactionNo
    ensures forall j :: 0 <= j < i ==> gs[j].key.transactionNo < gs[i].key.transactionNo
  {
    assert GroupLess(gs[i - 1], gs[i]);
    forall j | 0 <= j < i - 1
      ensures gs[j].key.transactionNo < gs[i].key.transactionNo
    {
      assert GroupLess(gs[j], gs[i - 1]);
    }
  }

  /** Two groups of a sorted table with the same key are the same row. */
  lemma KeysDistinct(gs: seq<Group>, a: int, b: int)
    requires Sorting.StrictlySorted(GroupLess, gs)
    requires 0 <= a < |gs| && 0 <= b < |gs| && gs[a].key == gs[b].key
    ensures a == b
  {
    KeyLessIsStrictTotal();
  }

  lemma RankOneIsFirst(gs: seq<Group>, i: int)
    requires Sorting.StrictlySorted(GroupLess, gs)
    requires 0 <= i < |gs|
    ensures RankOne(gs, i) <==> (i == 0 || gs[i - 1].key.transactionNo != gs[i].key.transactionNo)
  {
    if i > 0 && gs[i - 1].key.transactionNo == gs[i].key.transactionNo {
      assert GroupLess(gs[i - 1], gs[i]);
    }
    if i == 0 || gs[i - 1].key.transactionNo != gs[i].key.transactionNo {
      if i > 0 {
        TransactionsBefore(gs, i);
      }
      forall j | 0 <= j < |gs| && gs[j].key.transactionNo == gs[i].key.transactionNo
        ensures !CommodityLess(gs[j].key.commodity, gs[i].key.commodity)
      {
        KeyLessAsymmetric(gs[j].key, gs[i].key);
        KeyLessIsStrictTotal();
        if j > i {
          assert GroupLess(gs[i], gs[j]);
        }
      }
    }
  }

  lemma RankOnePrefix(gs: seq<Group>, n: int, i: int)
    requires Sorting.StrictlySorted(GroupLess, gs)
    requires 0 <= i < n <= |gs|
    ensures RankOne(gs[..n], i) <==> RankOne(gs, i)
  {
    RankOneIsFirst(gs, i);
    RankOneIsFirst(gs[..n], i);
  }

  /** Step 2: the rank-one groups whose sum is present and non-zero, one flag
      per transaction at most, ordered by transaction. */
  function Detect(gs: seq<Group>): (r: seq<UnbalancedFlag>)
    requires Sorting.StrictlySorted(GroupLess, gs)
    requires forall g :: g in gs ==> g.key.commodity.Some?
    ensures forall i, j :: 0 <= i < j < |r| ==> r[i].transactionNo < r[j].transactionNo
    ensures forall f :: f in r <==>
              exists i :: 0 <= i < |gs| && RankOne(gs, i) && f.quantity != 0.0 && FlagOfGroup(f, gs[i])
  {
    if |gs| == 0 then []
    else
      var n := |gs| - 1;
      var g := gs[n];
      var rest := Detect(gs[..n]);
      DetectStep(gs, gs[..n], rest);
      if RankOne(gs, n) && g.sum.Some? && g.sum.value != 0.0 then
        rest + [UnbalancedFlag(g.key.transactionNo, g.key.commodity.value, g.sum.value)]
      else
        rest
  }

  /** What `Detect` needs to extend the flags of all groups but the last:
      rank one means the same on the prefix, and a rank-one last group
      belongs to a later transaction than every earlier flag. */
  lemma DetectStep(gs: seq<Group>, pre: seq<Group>, rest: seq<UnbalancedFlag>)
    requires Sorting.StrictlySorted(GroupLess, gs)
    requires forall g :: g in gs ==> g.key.commodity.Some?
    requires |gs| > 0 && pre == gs[..|gs| - 1]
    requires forall f :: f in rest <==>
               exists i :: 0 <= i < |pre| && RankOne(pre, i) && f.quantity != 0.0 && FlagOfGroup(f, pre[i])
    ensures forall i :: 0 <= i < |pre| ==> (RankOne(pre, i) <==> RankOne(gs, i))
    ensures forall i :: 0 <= i < |pre| ==> pre[i] == gs[i]
    ensures RankOne(gs, |pre|) ==> forall k :: 0 <= k < |rest| ==> rest[k].transactionNo < gs[|pre|].key.transactionNo
  {
    var n := |gs| - 1;
    forall i | 0 <= i < n
      ensures RankOne(pre, i) <==> RankOne(gs, i)
    {
      RankOnePrefix(gs, n, i);
    }
    RankOneIsFirst(gs, n);
    if RankOne(gs, n) {
      KeyLessIsStrictTotal();
      forall k | 0 <= k < |rest|
        ensures rest[k].transactionNo < gs[n].key.transactionNo
      {
        assert rest[k] in rest;
        var i :| 0 <= i < n && RankOne(pre, i) && rest[k].quantity != 0.0 && FlagOfGroup(rest[k], pre[i]);
        assert pre[i] == gs[i];
        assert GroupLess(gs[i], gs[n]);
      }
    }
  }

  /** The flag of transaction `t`, if any (the right side of the left join). */
  function FlagFor(flags: seq<UnbalancedFlag>, t: nat): (r: Option<UnbalancedFlag>)
    ensures r.Some? ==> r.value in flags && r.value.transactionNo == t
    ensures r.None? ==> forall f :: f in flags ==> f.transactionNo != t
  {
    if |flags| == 0 then None
    else if flags[0].transactionNo == t then Some(flags[0])
    else FlagFor(flags[1..], t)
  }

  /** The lowest tc commodity code stated in transaction `t`, if any. */
  function MinCommodity(es: seq<Entry>, t: nat): (r: Option<string>)
    ensures r.None? <==> forall i :: 0 <= i < |es| && es[i].transactionNo == t ==> es[i].commodity.None?
    ensures r.Some? ==> exists i :: 0 <= i < |es| && es[i].transactionNo == t && es[i].commodity == r
    ensures r.Some? ==> forall i :: 0 <= i < |es| && es[i].transactionNo == t && es[i].commodity.Some? ==>
                          !Strings.Less(es[i].commodity.value, r.value)
  {
    if |es| == 0 then None
    else
      var n := |es| - 1;
      var e := es[n];
      var rest := MinCommodity(es[..n], t);
      assert forall i :: 0 <= i < n ==> es[..n][i] == es[i];
      if e.transactionNo != t || e.commodity.None? then rest
      else if rest.None? || Strings.Less(e.commodity.value, rest.value) then
        if rest.Some? then
          NewMinimum(es[..n], t, rest.value, e.commodity.value);
          Strings.LessIrreflexive(e.commodity.value);
          e.commodity
        else
          Strings.LessIrreflexive(e.commodity.value);
          e.commodity
      else
        Strings.LessTrichotomous(e.commodity.value, rest.value);
        rest
  }

  lemma NewMinimum(es: seq<Entry>, t: nat, old_min: string, c: string)
    requires forall i :: 0 <= i < |es| && es[i].transactionNo == t && es[i].commodity.Some? ==>
               !Strings.Less(es[i].commodity.value, old_min)
    requires Strings.Less(c, old_min)
    ensures forall i :: 0 <= i < |es| && es[i].transactionNo == t && es[i].commodity.Some? ==>
              !Strings.Less(es[i].commodity.value, c)
  {
    forall i | 0 <= i < |es| && es[i].transactionNo == t && es[i].commodity.Some?
      ensures !Strings.Less(es[i].commodity.value, c)
    {
      if Strings.Less(es[i].commodity.value, c) {
        Strings.LessTransitive(es[i].commodity.value, c, old_min);
      }
    }
  }

  /** The flag step 2 is meant to give transaction `t`, read directly off the
      postings: its lowest stated tc commodity, when that commodity's sum is
      present and non-zero, with the quantity that would balance it. */
  function ExpectedFlag(ps: seq<PostingParams>, t: nat): Option<UnbalancedFlag> {
    var es := TcEntries(ps);
    var m := MinCommodity(es, t);
    if m.None? then None
    else
      var s := SqlSum(es, Key(t, m));
      if s.Some? && s.value != 0.0 then Some(UnbalancedFlag(t, m.value, -s.value)) else None
  }

  /** Every aggregated group stems from a posting with its key. */
  lemma AggregateKeyOccurs(ps: seq<PostingParams>, g: Group) returns (j: nat)
    requires g in Aggregate(ps)
    ensures g.key.commodity.Some?
    ensures j < |ps| && TcEntries(ps)[j].transactionNo == g.key.transactionNo &&
            TcEntries(ps)[j].commodity == g.key.commodity
  {
    var es := TcEntries(ps);
    assert g.key in Keys(es);
    var e :| 0 <= e < |es| && Keys(es)[e] == g.key;
    j := e;
  }

  /** Every stated key of a posting has its aggregated group. */
  lemma AggregateHasKey(ps: seq<PostingParams>, j: nat) returns (i: nat)
    requires j < |ps| && TcEntries(ps)[j].commodity.Some?
    ensures i < |Aggregate(ps)| && Aggregate(ps)[i].key == KeyOf(TcEntries(ps)[j])
  {
    var es := TcEntries(ps);
    var gs := Aggregate(ps);
    var k := KeyOf(es[j]);
    assert Keys(es)[j] == k;
    var g :| g in gs && g.key == k;
    i :| 0 <= i < |gs| && gs[i] == g;
  }

  /** Without a stated tc commodity, a transaction gets no flag. */
  lemma NoFlagWithoutCommodity(ps: seq<PostingParams>, t: nat)
    requires MinCommodity(TcEntries(ps), t).None?
    ensures forall f :: f in Detect(Aggregate(ps)) ==> f.transactionNo != t
  {
    var gs := Aggregate(ps);
    forall f | f in Detect(gs)
      ensures f.transactionNo != t
    {
      var i :| 0 <= i < |gs| && RankOne(gs, i) && f.quantity != 0.0 && FlagOfGroup(f, gs[i]);
      assert gs[i] in gs;
      var j := AggregateKeyOccurs(ps, gs[i]);
    }
  }

  /** The group of a transaction's lowest stated commodity is its rank-one group. */
  lemma MinCommodityGroup(ps: seq<PostingParams>, t: nat) returns (i: nat)
    requires MinCommodity(TcEntries(ps), t).Some?
    ensures i < |Aggregate(ps)|
    ensures Aggregate(ps)[i].key == Key(t, MinCommodity(TcEntries(ps), t))
    ensures RankOne(Aggregate(ps), i)
  {
    var es := TcEntries(ps);
    var gs := Aggregate(ps);
    var m := MinCommodity(es, t);
    var j :| 0 <= j < |es| && es[j].transactionNo == t && es[j].commodity == m;
    i := AggregateHasKey(ps, j);
    forall j' | 0 <= j' < |gs| && gs[j'].key.transactionNo == t
      ensures !CommodityLess(gs[j'].key.commodity, m)
    {
      GroupNotBelowMin(ps, t, gs[j']);
    }
  }

  /** No group of the transaction has a commodity below its least one. */
  lemma GroupNotBelowMin(ps: seq<PostingParams>, t: nat, g: Group)
    requires MinCommodity(TcEntries(ps), t).Some?
    requires g in Aggregate(ps) && g.key.transactionNo == t
    ensures !CommodityLess(g.key.commodity, MinCommodity(TcEntries(ps), t))
  {
    var e := AggregateKeyOccurs(ps, g);
  }

  /** Every flag of a transaction comes from its rank-one group. */
  lemma FlagsFromRankOne(gs: seq<Group>, i: int, f: UnbalancedFlag)
    requires Sorting.StrictlySorted(GroupLess, gs)
    requires forall g :: g in gs ==> g.key.commodity.Some?
    requires 0 <= i < |gs| && RankOne(gs, i)
    requires f in Detect(gs) && f.transactionNo == gs[i].key.transactionNo
    ensures FlagOfGroup(f, gs[i])
  {
    var i' :| 0 <= i' < |gs| && RankOne(gs, i') && f.quantity != 0.0 && FlagOfGroup(f, gs[i']);
    assert gs[i] in gs && gs[i'] in gs;
    var c := gs[i].key.commodity.value;
    var c' := gs[i'].key.commodity.value;
    Strings.LessTrichotomous(c, c');
    assert gs[i].key == gs[i'].key;
    KeysDistinct(gs, i, i');
  }

  /** The flag of a transaction whose rank-one group does not balance. */
  lemma FlagOfUnbalanced(gs: seq<Group>, i: int)
    requires Sorting.StrictlySorted(GroupLess, gs)
    requires forall g :: g in gs ==> g.key.commodity.Some?
    requires 0 <= i < |gs| && RankOne(gs, i)
    requires gs[i].sum.Some? && gs[i].sum.value != 0.0
    ensures FlagFor(Detect(gs), gs[i].key.transactionNo)
         == Some(UnbalancedFlag(gs[i].key.transactionNo, gs[i].key.commodity.value, gs[i].sum.value))
  {
    var g := gs[i];
    var f := UnbalancedFlag(g.key.transactionNo, g.key.commodity.value, g.sum.value);
    assert FlagOfGroup(f, gs[i]);
    assert f in Detect(gs);
    var r := FlagFor(Detect(gs), g.key.transactionNo);
    FlagsFromRankOne(gs, i, r.value);
  }

  /** A transaction whose rank-one group balances gets no flag. */
  lemma NoFlagOfBalanced(gs: seq<Group>, i: int)
    requires Sorting.StrictlySorted(GroupLess, gs)
    requires forall g :: g in gs ==> g.key.commodity.Some?
    requires 0 <= i < |gs| && RankOne(gs, i)
    requires gs[i].sum.None? || gs[i].sum.value == 0.0
    ensures FlagFor(Detect(gs), gs[i].key.transactionNo).None?
  {
    forall f | f in Detect(gs) && f.transactionNo == gs[i].key.transactionNo
      ensures FlagOfGroup(f, gs[i])
    {
      FlagsFromRankOne(gs, i, f);
    }
  }

  /** Steps 1 and 2 together flag a transaction exactly as `ExpectedFlag` says:
      at most one flag, from the lowest-code group, and only when that group
      does not balance; balanced transactions and transactions without any
      stated commodity get none. */
  lemma DetectMatchesExpected(ps: seq<PostingParams>, t: nat)
    ensures FlagFor(Detect(Aggregate(ps)), t) == ExpectedFlag(ps, t)
  {
    var es := TcEntries(ps);
    var gs := Aggregate(ps);
    var m := MinCommodity(es, t);
    if m.None? {
      NoFlagWithoutCommodity(ps, t);
    } else {
      var i := MinCommodityGroup(ps, t);
      assert gs[i] in gs;
      if gs[i].sum.Some? && gs[i].sum.value != 0.0 {
        FlagOfUnbalanced(gs, i);
      } else {
        NoFlagOfBalanced(gs, i);
      }
    }
  }

  // ----- Step 3: TransactionResolver -----

  /** A posting carried into the final table with nothing filled in. */
  function Carry(p: PostingParams): FinalPosting {
    FinalPosting(p.statementNo, p.transactionNo, p.fileNo, p.start, p.account,
                 p.cpQuantity, p.cpCommodity, p.tcQuantity, p.tcCommodity)
  }

  /** SQL `coalesce(a, b)`. */
  function Coalesce<T>(a: Option<T>, b: Option<T>): Option<T> {
    if a.Some? then a else b
  }

  /** The flag's commodity column, null when the left join found no flag. */
  function FlagCommodity(flag: Option<UnbalancedFlag>): Option<string> {
    if flag.Some? then Some(flag.value.commodity) else None
  }

  /** The flag's sum column, null when the left join found no flag. */
  function FlagQuantity(flag: Option<UnbalancedFlag>): Option<Decimal> {
    if flag.Some? then Some(flag.value.quantity) else None
  }

  /** One row of the left join: the posting's own cp/tc fields where present,
      the joined flag's commodity and sum where not. */
  function Fill(p: PostingParams, flag: Option<UnbalancedFlag>): (r: FinalPosting)
    ensures r.statementNo == p.statementNo && r.transactionNo == p.transactionNo
    ensures r.fileNo == p.fileNo && r.start == p.start && r.account == p.account
    ensures p.cpQuantity.Some? ==> r.cpQuantity == p.cpQuantity
    ensures p.cpCommodity.Some? ==> r.cpCommodity == p.cpCommodity
    ensures p.tcQuantity.Some? ==> r.tcQuantity == p.tcQuantity
    ensures p.tcCommodity.Some? ==> r.tcCommodity == p.tcCommodity
    ensures flag.Some? && p.cpQuantity.None? ==> r.cpQuantity == Some(flag.value.quantity)
    ensures flag.Some? && p.cpCommodity.None? ==> r.cpCommodity == Some(flag.value.commodity)
    ensures flag.Some? && p.tcQuantity.None? ==> r.tcQuantity == Some(flag.value.quantity)
    ensures flag.Some? && p.tcCommodity.None? ==> r.tcCommodity == Some(flag.value.commodity)
    ensures flag.None? ==> r == Carry(p)
  {
    FinalPosting(p.statementNo, p.transactionNo, p.fileNo, p.start, p.account,
                 Coalesce(p.cpQuantity, FlagQuantity(flag)),
                 Coalesce(p.cpCommodity, FlagCommodity(flag)),
                 Coalesce(p.tcQuantity, FlagQuantity(flag)),
                 Coalesce(p.tcCommodity, FlagCommodity(flag)))
  }

  /** A fully elided posting takes the same (quantity, commodity) for cp and
      for tc: the flag's tc commodity and the sum that balances it. */
  lemma FillElided(p: PostingParams, f: UnbalancedFlag)
    requires p.cpQuantity.None? && p.cpCommodity.None? && p.tcQuantity.None? && p.tcCommodity.None?
    ensures Fill(p, Some(f)).cpQuantity == Fill(p, Some(f)).tcQuantity == Some(f.quantity)
    ensures Fill(p, Some(f)).cpCommodity == Fill(p, Some(f)).tcCommodity == Some(f.commodity)
  {
  }

  /** A posting with every cp/tc field present is not changed by any flag. */
  lemma FillComplete(p: PostingParams, flag: Option<UnbalancedFlag>)
    requires p.cpQuantity.Some? && p.cpCommodity.Some? && p.tcQuantity.Some? && p.tcCommodity.Some?
    ensures Fill(p, flag) == Carry(p)
  {
  }

  /** The flags whose transaction is `t`, in their order. */
  function Matches(flags: seq<UnbalancedFlag>, t: nat): (r: seq<UnbalancedFlag>)
    ensures forall f :: f in r <==> f in flags && f.transactionNo == t
    ensures |r| <= |flags|
  {
    if |flags| == 0 then []
    else (if flags[0].transactionNo == t then [flags[0]] else []) + Matches(flags[1..], t)
  }

  /** The rows a left join gives one posting: one per matching flag, or the
      posting alone, unfilled, when no flag matches. */
  function JoinRows(p: PostingParams, flags: seq<UnbalancedFlag>): (r: seq<FinalPosting>)
    ensures |r| == if |Matches(flags, p.transactionNo)| == 0 then 1 else |Matches(flags, p.transactionNo)|
  {
    var ms := Matches(flags, p.transactionNo);
    if |ms| == 0 then [Fill(p, None)]
    else seq(|ms|, j requires 0 <= j < |ms| => Fill(p, Some(ms[j])))
  }

  /** `postings a left join flags b on a.transaction_no = b.transaction_no`,
      in the order of the postings. */
  function LeftJoin(ps: seq<PostingParams>, flags: seq<UnbalancedFlag>): seq<FinalPosting> {
    if |ps| == 0 then []
    else LeftJoin(ps[..|ps| - 1], flags) + JoinRows(ps[|ps| - 1], flags)
  }

  /** Each posting filled from the flag of its transaction, in input order. */
  function Filled(ps: seq<PostingParams>, flags: seq<UnbalancedFlag>): (r: seq<FinalPosting>)
    ensures |r| == |ps|
    ensures forall i :: 0 <= i < |ps| ==> r[i] == Fill(ps[i], FlagFor(flags, ps[i].transactionNo))
  {
    seq(|ps|, i requires 0 <= i < |ps| => Fill(ps[i], FlagFor(flags, ps[i].transactionNo)))
  }

  /** With at most one flag per transaction, a posting matches at most one flag. */
  lemma {:induction false} MatchesAtMostOne(flags: seq<UnbalancedFlag>, t: nat)
    requires forall i, j :: 0 <= i < j < |flags| ==> flags[i].transactionNo < flags[j].transactionNo
    ensures Matches(flags, t) == if FlagFor(flags, t).Some? then [FlagFor(flags, t).value] else []
  {
    if |flags| > 0 {
      MatchesAtMostOne(flags[1..], t);
    }
  }

  lemma JoinRowsOne(p: PostingParams, flags: seq<UnbalancedFlag>)
    requires forall i, j :: 0 <= i < j < |flags| ==> flags[i].transactionNo < flags[j].transactionNo
    ensures JoinRows(p, flags) == [Fill(p, FlagFor(flags, p.transactionNo))]
  {
    MatchesAtMostOne(flags, p.transactionNo);
  }

  lemma FilledSnoc(ps: seq<PostingParams>, flags: seq<UnbalancedFlag>)
    requires |ps| > 0
    ensures Filled(ps, flags) == Filled(ps[..|ps| - 1], flags) + [Fill(ps[|ps| - 1], FlagFor(flags, ps[|ps| - 1].transactionNo))]
  {
  }

  /** With at most one flag per transaction, the left join gives each posting
      exactly one row, filled from the flag of its transaction. */
  lemma {:induction false} LeftJoinOneRowEach(ps: seq<PostingParams>, flags: seq<UnbalancedFlag>)
    requires forall i, j :: 0 <= i < j < |flags| ==> flags[i].transactionNo < flags[j].transactionNo
    ensures LeftJoin(ps, flags) == Filled(ps, flags)
  {
    if |ps| > 0 {
      var n := |ps| - 1;
      LeftJoinOneRowEach(ps[..n], flags);
      JoinRowsOne(ps[n], flags);
      FilledSnoc(ps, flags);
    }
  }

  /** `order by a.transaction_no, a.statement_no`. */
  predicate FinalLess(a: FinalPosting, b: FinalPosting) {
    || a.transactionNo < b.transactionNo
    || (a.transactionNo == b.transactionNo && a.statementNo < b.statementNo)
  }

  lemma FinalLessIsStrict()
    ensures Sorting.StrictOrder(FinalLess)
  {
  }

  /** Step 3: the final postings, every posting once, filled from its
      transaction's flag, ordered by (transaction_no, statement_no). */
  function Resolve(ps: seq<PostingParams>, flags: seq<UnbalancedFlag>): (r: seq<FinalPosting>)
    requires forall i, j :: 0 <= i < j < |flags| ==> flags[i].transactionNo < flags[j].transactionNo
    ensures Sorting.Sorted(FinalLess, r)
    ensures multiset(r) == multiset(Filled(ps, flags))
  {
    FinalLessIsStrict();
    LeftJoinOneRowEach(ps, flags);
    Sorting.Sort(FinalLess, LeftJoin(ps, flags))
  }

  // ----- Step 4: BalanceValidator -----

  /** `having sum(tc_quantity) <> 0`: a NULL sum is not reported. */
  predicate Unbalanced(g: Group) {
    g.sum.Some? && g.sum.value != 0.0
  }

  /** Step 4: the final (transaction, tc commodity) groups, a null commodity
      forming a group of its own, whose sum is present and not zero, ordered
      by transaction then commodity. */
  function Validate(fs: seq<FinalPosting>): (r: seq<Group>)
    ensures Sorting.StrictlySorted(GroupLess, r)
    ensures forall g :: g in r <==>
              g.key in Keys(FinalTcEntries(fs)) && g.sum == SqlSum(FinalTcEntries(fs), g.key) && Unbalanced(g)
  {
    var es := FinalTcEntries(fs);
    var r := Filter(GroupBy(es), Unbalanced);
    assert forall g :: g in r <==> g.key in Keys(es) && g.sum == SqlSum(es, g.key) && Unbalanced(g) by {
      forall g: Group {
        GroupByMember(es, g);
      }
    }
    r
  }

  /** The outcome of verification: the final postings and the unbalanced groups. */
  datatype Verified = Verified(postings: seq<FinalPosting>, errors: seq<Group>)

  /** Steps 1 to 4 on the postings the parser collected. */
  function VerifyPostings(ps: seq<PostingParams>): (r: Verified)
    ensures multiset(r.postings) == multiset(Expected(ps))
    ensures Sorting.Sorted(FinalLess, r.postings)
    ensures Sorting.StrictlySorted(GroupLess, r.errors)
    ensures forall g :: g in r.errors <==>
              g.key in Keys(FinalTcEntries(r.postings)) && g.sum == SqlSum(FinalTcEntries(r.postings), g.key)
              && Unbalanced(g)
  {
    var flags := Detect(Aggregate(ps));
    var fs := Resolve(ps, flags);
    ExpectedFilled(ps);
    Verified(fs, Validate(fs))
  }

  /** Every posting filled from the flag `ExpectedFlag` gives its transaction. */
  function Expected(ps: seq<PostingParams>): (r: seq<FinalPosting>)
    ensures |r| == |ps|
    ensures forall i :: 0 <= i < |ps| ==> r[i] == Fill(ps[i], ExpectedFlag(ps, ps[i].transactionNo))
  {
    seq(|ps|, i requires 0 <= i < |ps| => Fill(ps[i], ExpectedFlag(ps, ps[i].transactionNo)))
  }

  lemma ExpectedFilled(ps: seq<PostingParams>)
    ensures Filled(ps, Detect(Aggregate(ps))) == Expected(ps)
  {
    forall i | 0 <= i < |ps|
      ensures Filled(ps, Detect(Aggregate(ps)))[i] == Expected(ps)[i]
    {
      DetectMatchesExpected(ps, ps[i].transactionNo);
    }
  }

  // ----- Properties of the whole pipeline -----

  lemma FinalTcEntriesAppend(a: seq<FinalPosting>, b: seq<FinalPosting>)
    ensures FinalTcEntries(a + b) == FinalTcEntries(a) + FinalTcEntries(b)
  {
  }

  /** Reordering the final postings reorders their tc entries alike. */
  lemma {:induction false} FinalTcEntriesPermutation(a: seq<FinalPosting>, b: seq<FinalPosting>)
    requires multiset(a) == multiset(b)
    ensures multiset(FinalTcEntries(a)) == multiset(FinalTcEntries(b))
    decreases |a|
  {
    if |a| == 0 {
      assert |b| == |multiset(b)| == 0;
    } else {
      var x := a[|a| - 1];
      var a' := a[..|a| - 1];
      assert a == a' + [x];
      assert x in multiset(b);
      var i :| 0 <= i < |b| && b[i] == x;
      var b' := b[..i] + b[i + 1..];
      assert b == b[..i] + [x] + b[i + 1..];
      assert multiset(b') == multiset(a') by {
        assert multiset(b) == multiset(b[..i]) + multiset{x} + multiset(b[i + 1..]);
        assert multiset(b') == multiset(b[..i]) + multiset(b[i + 1..]);
        assert multiset(a') == multiset(a) - multiset{x};
        assert multiset(b') == multiset(b) - multiset{x};
      }
      FinalTcEntriesPermutation(a', b');
      FinalTcEntriesAppend(a', [x]);
      FinalTcEntriesAppend(b[..i] + [x], b[i + 1..]);
      FinalTcEntriesAppend(b[..i], [x]);
      FinalTcEntriesAppend(b[..i], b[i + 1..]);
    }
  }

  /** The final sums do not depend on the order of the final postings. */
  lemma FinalSumPermutation(a: seq<FinalPosting>, b: seq<FinalPosting>, k: Key)
    requires multiset(a) == multiset(b)
    ensures SqlSum(FinalTcEntries(a), k) == SqlSum(FinalTcEntries(b), k)
  {
    FinalTcEntriesPermutation(a, b);
    SqlSumPermutation(FinalTcEntries(a), FinalTcEntries(b), k);
  }

  /** A flagged transaction with exactly one posting that states no tc
      position, every other posting stating both its tc quantity and
      commodity, balances in the flagged commodity once that posting is
      filled: its final sum there is zero and no error is reported for it. */
  lemma SingleElisionBalances(ps: seq<PostingParams>, t: nat, e: int)
    requires ExpectedFlag(ps, t).Some?
    requires 0 <= e < |ps| && ps[e].transactionNo == t
    requires ps[e].tcCommodity.None? && ps[e].tcQuantity.None?
    requires forall i :: 0 <= i < |ps| && i != e && ps[i].transactionNo == t ==>
               ps[i].tcCommodity.Some? && ps[i].tcQuantity.Some?
    ensures SqlSum(FinalTcEntries(VerifyPostings(ps).postings), Key(t, Some(ExpectedFlag(ps, t).value.commodity)))
         == Some(0.0)
    ensures forall g :: g in VerifyPostings(ps).errors ==> g.key != Key(t, Some(ExpectedFlag(ps, t).value.commodity))
  {
    var k := Key(t, Some(ExpectedFlag(ps, t).value.commodity));
    var v := VerifyPostings(ps);
    ExpectedSumZero(ps, t, e);
    FinalSumPermutation(v.postings, Expected(ps), k);
  }

  /** The same, before the final sort: filling the one elided posting
      cancels the flagged commodity's sum. */
  lemma ExpectedSumZero(ps: seq<PostingParams>, t: nat, e: int)
    requires ExpectedFlag(ps, t).Some?
    requires 0 <= e < |ps| && ps[e].transactionNo == t
    requires ps[e].tcCommodity.None? && ps[e].tcQuantity.None?
    requires forall i :: 0 <= i < |ps| && i != e && ps[i].transactionNo == t ==>
               ps[i].tcCommodity.Some? && ps[i].tcQuantity.Some?
    ensures SqlSum(FinalTcEntries(Expected(ps)), Key(t, Some(ExpectedFlag(ps, t).value.commodity))) == Some(0.0)
  {
    var f := ExpectedFlag(ps, t).value;
    var k := Key(t, Some(f.commodity));
    var es := TcEntries(ps);
    var filled := Expected(ps);
    var fe := FinalTcEntries(filled);
    forall i | 0 <= i < |ps| && i != e
      ensures Contribution(es[i], k) == Contribution(fe[i], k)
    {
      if ps[i].transactionNo == t {
        assert fe[i] == es[i];
      }
    }
    SqlSumOneDifference(es, fe, e, k);
  }

  /** The postings of a transaction that gets no flag reach the final table
      unchanged, and nothing else of that transaction does. */
  lemma UnflaggedPassThrough(ps: seq<PostingParams>, t: nat)
    requires ExpectedFlag(ps, t).None?
    ensures forall i :: 0 <= i < |ps| && ps[i].transactionNo == t ==> Carry(ps[i]) in VerifyPostings(ps).postings
    ensures forall f :: f in VerifyPostings(ps).postings && f.transactionNo == t ==>
              exists i :: 0 <= i < |ps| && f == Carry(ps[i])
  {
    var fs := VerifyPostings(ps).postings;
    forall i | 0 <= i < |ps| && ps[i].transactionNo == t
      ensures Carry(ps[i]) in fs
    {
      CarriedIntoOutput(ps, fs, t, i);
    }
    forall f | f in fs && f.transactionNo == t
      ensures exists i :: 0 <= i < |ps| && f == Carry(ps[i])
    {
      CarriedFromInput(ps, fs, t, f);
    }
  }

  /** An input posting of an unflagged transaction reaches any reordering
      of the filled postings as it is. */
  lemma CarriedIntoOutput(ps: seq<PostingParams>, fs: seq<FinalPosting>, t: nat, i: nat)
    requires multiset(fs) == multiset(Expected(ps))
    requires ExpectedFlag(ps, t).None?
    requires i < |ps| && ps[i].transactionNo == t
    ensures Carry(ps[i]) in fs
  {
    assert Expected(ps)[i] in multiset(Expected(ps));
  }

  /** A posting of an unflagged transaction in any reordering of the filled
      postings is an input posting. */
  lemma CarriedFromInput(ps: seq<PostingParams>, fs: seq<FinalPosting>, t: nat, f: FinalPosting)
    requires multiset(fs) == multiset(Expected(ps))
    requires ExpectedFlag(ps, t).None?
    requires f in fs && f.transactionNo == t
    ensures exists i :: 0 <= i < |ps| && f == Carry(ps[i])
  {
    assert f in multiset(Expected(ps));
    var i :| 0 <= i < |ps| && Expected(ps)[i] == f;
  }

  /** The account column of the final postings. */
  function AccountColumn(fs: seq<FinalPosting>): (r: seq<string>)
    ensures |r| == |fs|
    ensures forall i :: 0 <= i < |fs| ==> r[i] == fs[i].account
  {
    seq(|fs|, i requires 0 <= i < |fs| => fs[i].account)
  }

  /** Any reordering of the filled postings carries exactly the accounts of
      the input postings. */
  lemma AccountsOfPermutation(ps: seq<PostingParams>, fs: seq<FinalPosting>)
    requires multiset(fs) == multiset(Expected(ps))
    ensures |fs| == |ps|
    ensures forall a :: a in AccountColumn(fs) <==> exists i :: 0 <= i < |ps| && ps[i].account == a
  {
    assert |multiset(fs)| == |multiset(Expected(ps))|;
    forall a
      ensures a in AccountColumn(fs) <==> exists i :: 0 <= i < |ps| && ps[i].account == a
    {
      if a in AccountColumn(fs) {
        AccountFromInput(ps, fs, a);
      }
      if exists i :: 0 <= i < |ps| && ps[i].account == a {
        var i :| 0 <= i < |ps| && ps[i].account == a;
        AccountToOutput(ps, fs, i);
      }
    }
  }

  lemma AccountFromInput(ps: seq<PostingParams>, fs: seq<FinalPosting>, a: string)
    requires multiset(fs) == multiset(Expected(ps))
    requires a in AccountColumn(fs)
    ensures exists i :: 0 <= i < |ps| && ps[i].account == a
  {
    var column := AccountColumn(fs);
    var j :| 0 <= j < |column| && column[j] == a;
    assert fs[j] in multiset(Expected(ps));
    var i :| 0 <= i < |ps| && Expected(ps)[i] == fs[j];
  }

  lemma AccountToOutput(ps: seq<PostingParams>, fs: seq<FinalPosting>, i: int)
    requires multiset(fs) == multiset(Expected(ps))
    requires 0 <= i < |ps|
    ensures ps[i].account in AccountColumn(fs)
  {
    assert Expected(ps)[i] in multiset(fs);
    var j :| 0 <= j < |fs| && fs[j] == Expected(ps)[i];
    assert AccountColumn(fs)[j] == ps[i].account;
  }

  /** `verify`: the final postings and the errors, then the account list of
      the final postings, whose `NoData` failure fails the whole call. */
  function VerifyLedger(ps: seq<PostingParams>, sep: char): (r: Result<(Verified, seq<string>), Accounts.AccountsError>)
    ensures r.Err? <==> |ps| == 0
    ensures r.Ok? ==> r.value.0 == VerifyPostings(ps)
    ensures r.Ok? ==> forall s :: s in r.value.1 <==>
              exists i :: 0 <= i < |ps| && Accounts.Above(s, ps[i].account, sep)
  {
    var v := VerifyPostings(ps);
    var column := AccountColumn(v.postings);
    AccountsOfPermutation(ps, v.postings);
    var accounts := Accounts.AccountList(column, sep);
    if accounts.Err? then Err(accounts.error) else Ok((v, accounts.value))
  }
}

=== FILE: verify_as_written.dfy ===
/** The verification pipeline as the Polars code performs it
    (ledger-rs-core/src/verify.rs:97-143), next to the description it
    implements (module Verify). Three things differ:
      - step 2 keeps every group whose total is not zero, not only the
        lowest-code group of each transaction (lines 105-107), so a
        transaction with two unbalanced commodities joins every one of its
        postings twice;
      - a Polars sum over no values is 0 where SQL's is NULL;
      - step 4 also reports every group whose final commodity is null
        (line 142), and nothing sorts the final postings. */
module VerifyAsWritten {
  import opened Wrappers
  import opened Ledger
  import opened Groups
  import opened Verify

  /** The flag a `df_balancing` row stands for. */
  function ToFlag(g: Group): (f: UnbalancedFlag)
    requires g.key.commodity.Some? && g.sum.Some?
    ensures FlagOfGroup(f, g)
  {
    UnbalancedFlag(g.key.transactionNo, g.key.commodity.value, g.sum.value)
  }

  /** Polars' `sum()` ignores nulls and gives 0 when nothing is left. */
  function PolarsTotal(s: Option<Decimal>): Decimal {
    s.GetOr(0.0)
  }

  /** `filter(col(TOTALS).neq(0))` on the negated Polars totals. */
  predicate NonZeroTotal(g: Group) {
    PolarsTotal(g.sum) != 0.0
  }

  /** The flags the rows of `gs` stand for, in their order. */
  function FlagsOf(gs: seq<Group>): (r: seq<UnbalancedFlag>)
    requires forall g :: g in gs ==> g.key.commodity.Some? && g.sum.Some?
    ensures forall f :: f in r <==> exists g :: g in gs && FlagOfGroup(f, g)
  {
    if |gs| == 0 then []
    else
      assert forall g :: g in gs <==> g == gs[0] || g in gs[1..];
      [ToFlag(gs[0])] + FlagsOf(gs[1..])
  }

  /** `df_balancing`: every (transaction, stated tc commodity) group whose
      negated total is not zero, as a flag; the second `group_by ... first()`
      keeps the rows as they are, the keys being distinct already. */
  function Balancing(ps: seq<PostingParams>): (r: seq<UnbalancedFlag>)
    ensures forall f :: f in r <==> exists g :: g in Aggregate(ps) && NonZeroTotal(g) && FlagOfGroup(f, g)
  {
    var gs := Filter(Aggregate(ps), NonZeroTotal);
    FlagsOf(gs)
  }

  /** The final groups with their Polars totals. */
  function PolarsGroups(gs: seq<Group>): (r: seq<Group>)
    ensures |r| == |gs|
    ensures forall i :: 0 <= i < |gs| ==> r[i] == Group(gs[i].key, Some(PolarsTotal(gs[i].sum)))
  {
    seq(|gs|, i requires 0 <= i < |gs| => Group(gs[i].key, Some(PolarsTotal(gs[i].sum))))
  }

  /** `filter(col(TOTALS).neq(0).or(col(FINAL_TC_COMMODITY).is_null()))`. */
  predicate Reported(g: Group) {
    g.sum.GetOr(0.0) != 0.0 || g.key.commodity.None?
  }

  /** `errors_df`: the final groups whose total is not zero or whose
      commodity is null. */
  function AsWrittenErrors(fs: seq<FinalPosting>): (r: seq<Group>)
    ensures forall g :: g in r <==>
              && g.key in Keys(FinalTcEntries(fs))
              && g.sum == Some(PolarsTotal(SqlSum(FinalTcEntries(fs), g.key)))
              && (g.sum.value != 0.0 || g.key.commodity.None?)
  {
    var es := FinalTcEntries(fs);
    var gs := GroupBy(es);
    var pg := PolarsGroups(gs);
    var r := Filter(pg, Reported);
    forall g: Group
      ensures g in pg <==> g.key in Keys(es) && g.sum == Some(PolarsTotal(SqlSum(es, g.key)))
    {
      if g in pg {
        var i :| 0 <= i < |pg| && pg[i] == g;
        assert gs[i] in gs;
      }
      if g.key in Keys(es) && g.sum == Some(PolarsTotal(SqlSum(es, g.key))) {
        var h :| h in gs && h.key == g.key;
        var i :| 0 <= i < |gs| && gs[i] == h;
        assert pg[i] == g;
      }
    }
    r
  }

  /** `verify` as written: the left join of the postings to every non-zero
      group of their transaction, and its errors. Every posting gives at
      least one row; a row is a posting filled from one of its
      transaction's non-zero groups, or left as it is when there is none;
      and every such pairing gives a row. */
  function AsWrittenVerify(ps: seq<PostingParams>): (r: Verified)
    ensures |r.postings| >= |ps|
    ensures forall f :: f in r.postings ==> exists i :: 0 <= i < |ps| && RowOf(f, ps[i], Balancing(ps))
    ensures forall i, b :: 0 <= i < |ps| && b in Balancing(ps) && b.transactionNo == ps[i].transactionNo ==>
              Fill(ps[i], Some(b)) in r.postings
    ensures forall i :: 0 <= i < |ps| && Unflagged(Balancing(ps), ps[i].transactionNo) ==> Carry(ps[i]) in r.postings
    ensures forall g :: g in r.errors <==>
              && g.key in Keys(FinalTcEntries(r.postings))
              && g.sum == Some(PolarsTotal(SqlSum(FinalTcEntries(r.postings), g.key)))
              && (g.sum.value != 0.0 || g.key.commodity.None?)
  {
    var flags := Balancing(ps);
    var fs := LeftJoin(ps, flags);
    LeftJoinAtLeast(ps, flags);
    LeftJoinSound(ps, flags);
    forall i, b | 0 <= i < |ps| && b in flags && b.transactionNo == ps[i].transactionNo
      ensures Fill(ps[i], Some(b)) in fs
    {
      LeftJoinHasFill(ps, flags, i, b);
    }
    forall i | 0 <= i < |ps| && Unflagged(flags, ps[i].transactionNo)
      ensures Carry(ps[i]) in fs
    {
      LeftJoinHasCarry(ps, flags, i);
    }
    Verified(fs, AsWrittenErrors(fs))
  }

  /** No flag names transaction `t`. */
  predicate Unflagged(flags: seq<UnbalancedFlag>, t: nat) {
    forall b :: b in flags ==> b.transactionNo != t
  }

  /** `f` is a row the left join can give posting `p`: filled from one of
      its transaction's flags, or carried unfilled when there is none. */
  predicate RowOf(f: FinalPosting, p: PostingParams, flags: seq<UnbalancedFlag>) {
    || (Unflagged(flags, p.transactionNo) && f == Carry(p))
    || (exists b :: b in flags && b.transactionNo == p.transactionNo && f == Fill(p, Some(b)))
  }

  /** The rows of one posting are rows of that posting. */
  lemma JoinRowsSound(p: PostingParams, flags: seq<UnbalancedFlag>)
    ensures forall f :: f in JoinRows(p, flags) ==> RowOf(f, p, flags)
  {
    var ms := Matches(flags, p.transactionNo);
    if |ms| == 0 {
      JoinRowsHasCarry(p, flags);
    } else {
      forall f | f in JoinRows(p, flags)
        ensures RowOf(f, p, flags)
      {
        var j :| 0 <= j < |ms| && JoinRows(p, flags)[j] == f;
        assert ms[j] in ms;
      }
    }
  }

  /** Each flag of the posting's transaction gives the posting a row. */
  lemma JoinRowsHasFill(p: PostingParams, flags: seq<UnbalancedFlag>, b: UnbalancedFlag)
    requires b in flags && b.transactionNo == p.transactionNo
    ensures Fill(p, Some(b)) in JoinRows(p, flags)
  {
    var ms := Matches(flags, p.transactionNo);
    assert b in ms;
    var j :| 0 <= j < |ms| && ms[j] == b;
    assert JoinRows(p, flags)[j] == Fill(p, Some(b));
  }

  /** A posting whose transaction has no flag is its own only row, and
      that happens exactly when no flag matches. */
  lemma JoinRowsHasCarry(p: PostingParams, flags: seq<UnbalancedFlag>)
    ensures |Matches(flags, p.transactionNo)| == 0 <==> Unflagged(flags, p.transactionNo)
    ensures Unflagged(flags, p.transactionNo) ==> JoinRows(p, flags) == [Carry(p)]
  {
    var ms := Matches(flags, p.transactionNo);
    if |ms| == 0 {
      forall b | b in flags
        ensures b.transactionNo != p.transactionNo
      {
        assert b !in ms;
      }
    } else {
      assert ms[0] in ms;
    }
  }

  /** Every row of the left join is a row of some posting. */
  lemma {:induction false} LeftJoinSound(ps: seq<PostingParams>, flags: seq<UnbalancedFlag>)
    ensures forall f :: f in LeftJoin(ps, flags) ==> exists i :: 0 <= i < |ps| && RowOf(f, ps[i], flags)
  {
    if |ps| > 0 {
      var n := |ps| - 1;
      LeftJoinSound(ps[..n], flags);
      JoinRowsSound(ps[n], flags);
      forall f | f in LeftJoin(ps, flags)
        ensures exists i :: 0 <= i < |ps| && RowOf(f, ps[i], flags)
      {
        if f in LeftJoin(ps[..n], flags) {
          var i :| 0 <= i < n && RowOf(f, ps[..n][i], flags);
          assert ps[..n][i] == ps[i];
        } else {
          assert RowOf(f, ps[n], flags);
        }
      }
    }
  }

  /** A posting and a flag of its transaction give a row. */
  lemma LeftJoinHasFill(ps: seq<PostingParams>, flags: seq<UnbalancedFlag>, i: int, b: UnbalancedFlag)
    requires 0 <= i < |ps| && b in flags && b.transactionNo == ps[i].transactionNo
    ensures Fill(ps[i], Some(b)) in LeftJoin(ps, flags)
  {
    JoinRowsHasFill(ps[i], flags, b);
    LeftJoinHasRow(ps, flags, i, ps[i], Fill(ps[i], Some(b)));
  }

  /** A posting whose transaction has no flag gives itself as a row. */
  lemma LeftJoinHasCarry(ps: seq<PostingParams>, flags: seq<UnbalancedFlag>, i: int)
    requires 0 <= i < |ps| && Unflagged(flags, ps[i].transactionNo)
    ensures Carry(ps[i]) in LeftJoin(ps, flags)
  {
    JoinRowsHasCarry(ps[i], flags);
    LeftJoinHasRow(ps, flags, i, ps[i], Carry(ps[i]));
  }

  /** The rows of every posting `p` of `ps` are rows of the left join. */
  lemma {:induction false} LeftJoinHasRow(ps: seq<PostingParams>, flags: seq<UnbalancedFlag>, i: int, p: PostingParams, f: FinalPosting)
    requires 0 <= i < |ps| && ps[i] == p && f in JoinRows(p, flags)
    ensures f in LeftJoin(ps, flags)
    decreases |ps|
  {
    var n := |ps| - 1;
    if i < n {
      assert f in LeftJoin(ps[..n], flags) by {
        assert ps[..n][i] == p;
        LeftJoinHasRow(ps[..n], flags, i, p, f);
      }
      LeftJoinKeepsPrefix(ps, flags, f);
    } else {
      LeftJoinHasLast(ps, flags, p, f);
    }
  }

  /** The rows for all but the last posting are rows of the left join. */
  lemma LeftJoinKeepsPrefix(ps: seq<PostingParams>, flags: seq<UnbalancedFlag>, f: FinalPosting)
    requires |ps| > 0 && f in LeftJoin(ps[..|ps| - 1], flags)
    ensures f in LeftJoin(ps, flags)
  {
  }

  /** The last posting's rows are rows of the left join. */
  lemma LeftJoinHasLast(ps: seq<PostingParams>, flags: seq<UnbalancedFlag>, p: PostingParams, f: FinalPosting)
    requires |ps| > 0 && ps[|ps| - 1] == p && f in JoinRows(p, flags)
    ensures f in LeftJoin(ps, flags)
  {
  }

  // ----- How the code departs from its description -----

  /** The left join gives every posting at least one row, and more than one
      when the posting's transaction has more than one flag. */
  lemma LeftJoinLength(ps: seq<PostingParams>, flags: seq<UnbalancedFlag>)
    ensures |LeftJoin(ps, flags)| >= |ps|
    ensures (exists i :: 0 <= i < |ps| && |Matches(flags, ps[i].transactionNo)| >= 2) ==> |LeftJoin(ps, flags)| > |ps|
  {
    LeftJoinAtLeast(ps, flags);
    if exists i :: 0 <= i < |ps| && |Matches(flags, ps[i].transactionNo)| >= 2 {
      var i :| 0 <= i < |ps| && |Matches(flags, ps[i].transactionNo)| >= 2;
      LeftJoinLonger(ps, flags, i, ps[i].transactionNo);
    }
  }

  /** Every posting gives at least one row. */
  lemma {:induction false} LeftJoinAtLeast(ps: seq<PostingParams>, flags: seq<UnbalancedFlag>)
    ensures |LeftJoin(ps, flags)| >= |ps|
  {
    if |ps| > 0 {
      LeftJoinAtLeast(ps[..|ps| - 1], flags);
      LeftJoinSnoc(ps, flags);
    }
  }

  /** The rows of the last posting come after those of the others. */
  lemma LeftJoinSnoc(ps: seq<PostingParams>, flags: seq<UnbalancedFlag>)
    requires |ps| > 0
    ensures |LeftJoin(ps, flags)| == |LeftJoin(ps[..|ps| - 1], flags)| + |JoinRows(ps[|ps| - 1], flags)|
    ensures |JoinRows(ps[|ps| - 1], flags)| >= 1
    ensures |JoinRows(ps[|ps| - 1], flags)| >= |Matches(flags, ps[|ps| - 1].transactionNo)|
  {
  }

  /** A posting with two matching flags gives two rows. */
  lemma {:induction false} LeftJoinLonger(ps: seq<PostingParams>, flags: seq<UnbalancedFlag>, i: int, t: nat)
    requires 0 <= i < |ps| && ps[i].transactionNo == t && |Matches(flags, t)| >= 2
    ensures |LeftJoin(ps, flags)| > |ps|
    decreases |ps|
  {
    var pre := ps[..|ps| - 1];
    if i < |pre| {
      assert pre[i] == ps[i];
      LeftJoinLonger(pre, flags, i, t);
      LongerBefore(ps, flags);
    } else {
      LongerAtEnd(ps, flags, t);
    }
  }

  lemma LongerBefore(ps: seq<PostingParams>, flags: seq<UnbalancedFlag>)
    requires |ps| > 0 && |LeftJoin(ps[..|ps| - 1], flags)| > |ps| - 1
    ensures |LeftJoin(ps, flags)| > |ps|
  {
    LeftJoinSnoc(ps, flags);
  }

  lemma LongerAtEnd(ps: seq<PostingParams>, flags: seq<UnbalancedFlag>, t: nat)
    requires |ps| > 0 && ps[|ps| - 1].transactionNo == t && |Matches(flags, t)| >= 2
    ensures |LeftJoin(ps, flags)| > |ps|
  {
    LeftJoinSnoc(ps, flags);
    LeftJoinAtLeast(ps[..|ps| - 1], flags);
  }

  /** A transaction with an unbalanced group in each of two commodities gets
      two flags from the code, so its postings are joined twice: the final
      table has more rows than there are postings. */
  lemma TwoUnbalancedCommoditiesDuplicate(ps: seq<PostingParams>, i: int, c1: string, c2: string)
    requires 0 <= i < |ps| && c1 != c2
    requires PolarsTotal(SqlSum(TcEntries(ps), Key(ps[i].transactionNo, Some(c1)))) != 0.0
    requires PolarsTotal(SqlSum(TcEntries(ps), Key(ps[i].transactionNo, Some(c2)))) != 0.0
    ensures |AsWrittenVerify(ps).postings| > |ps|
  {
    var t := ps[i].transactionNo;
    var es := TcEntries(ps);
    var flags := Balancing(ps);
    var f1 := FlagFromTotal(ps, t, c1);
    var f2 := FlagFromTotal(ps, t, c2);
    TwoMembers(Matches(flags, t), f1, f2);
    LeftJoinLength(ps, flags);
  }

  lemma TwoMembers<T>(xs: seq<T>, a: T, b: T)
    requires a in xs && b in xs && a != b
    ensures |xs| >= 2
  {
  }

  /** A non-zero total of a stated commodity gives a flag. */
  lemma FlagFromTotal(ps: seq<PostingParams>, t: nat, c: string) returns (f: UnbalancedFlag)
    requires PolarsTotal(SqlSum(TcEntries(ps), Key(t, Some(c)))) != 0.0
    ensures f in Balancing(ps) && f.transactionNo == t && f.commodity == c
  {
    var es := TcEntries(ps);
    var k := Key(t, Some(c));
    SqlSumPresent(es, k);
    var j :| 0 <= j < |es| && KeyOf(es[j]) == k && es[j].quantity.Some?;
    assert Keys(es)[j] == k;
    assert k in Keys(es);
    var gs := Aggregate(ps);
    assert k.commodity.Some? ==> (k in Keys(TcEntries(ps)) <==> exists g :: g in gs && g.key == k);
    var g :| g in gs && g.key == k;
    assert g.sum == Negate(SqlSum(es, k));
    f := ToFlag(g);
  }

  /** A posting with the example's fields. */
  function ExamplePosting(statementNo: nat, q: Option<Decimal>, c: Option<string>): PostingParams {
    PostingParams(statementNo, 0, 0, 0, 0, "Assets:Cash", q, c, q, c)
  }

  /** One transaction of 100 USD, 5 EUR and an elided posting: the code's
      final table holds more than its three postings, while the described
      pipeline keeps exactly three. */
  lemma DuplicationExample()
    ensures var ps := [ExamplePosting(1, Some(100.0), Some("USD")),
                       ExamplePosting(2, Some(5.0), Some("EUR")),
                       ExamplePosting(3, None, None)];
            |AsWrittenVerify(ps).postings| > 3 && |VerifyPostings(ps).postings| == 3
  {
    var ps := [ExamplePosting(1, Some(100.0), Some("USD")),
               ExamplePosting(2, Some(5.0), Some("EUR")),
               ExamplePosting(3, None, None)];
    var es := TcEntries(ps);
    var usd := Key(0, Some("USD"));
    var eur := Key(0, Some("EUR"));
    assert es[..2][..1] == es[..1] && es[..1][..0] == [];
    assert Contribution(es[0], usd) == Some(100.0) && Contribution(es[1], usd) == None;
    assert Contribution(es[0], eur) == None && Contribution(es[1], eur) == Some(5.0);
    assert Contribution(es[2], usd) == None && Contribution(es[2], eur) == None;
    assert SqlSum(es[..1], usd) == Some(100.0) && SqlSum(es[..1], eur) == None;
    assert SqlSum(es[..2], usd) == Some(100.0) && SqlSum(es[..2], eur) == Some(5.0);
    assert SqlSum(es, usd) == Some(100.0);
    assert SqlSum(es, eur) == Some(5.0);
    TwoUnbalancedCommoditiesDuplicate(ps, 0, "USD", "EUR");
    assert |multiset(VerifyPostings(ps).postings)| == |multiset(Expected(ps))|;
  }

  /** A posting whose final tc commodity is null is always reported, even
      when its group sums to zero. */
  lemma NullCommodityReported(ps: seq<PostingParams>, i: int)
    requires 0 <= i < |AsWrittenVerify(ps).postings|
    requires AsWrittenVerify(ps).postings[i].tcCommodity.None?
    ensures exists g :: g in AsWrittenVerify(ps).errors && g.key == Key(AsWrittenVerify(ps).postings[i].transactionNo, None)
  {
    var fs := AsWrittenVerify(ps).postings;
    var es := FinalTcEntries(fs);
    var k := Key(fs[i].transactionNo, None);
    assert Keys(es)[i] == k;
    var g := Group(k, Some(PolarsTotal(SqlSum(es, k))));
    assert g in AsWrittenErrors(fs);
  }
}

=== FILE: wrappers.dfy ===
/** Failure-compatible wrappers used throughout the model: the `Option` that
    stands for a nullable column or a Rust `Option`, and the `Result` that
    stands for a Rust `Result` or for a panic the program would raise. */
module Wrappers {

  datatype Option<+T> = None | Some(value: T) {

    /** The value, or `default` when absent (SQL `coalesce`). */
    function GetOr(default: T): T {
      match this
      case Some(v) => v
      case None => default
    }

    /** `this` when present, otherwise `other` (SQL `coalesce` of two columns). */
    function OrElse(other: Option<T>): Option<T> {
      if Some? then this else other
    }

    predicate IsFailure() {
      None?
    }

    function PropagateFailure<U>(): Option<U>
      requires None?
    {
      None
    }

    function Extract(): T
      requires Some?
    {
      value
    }
  }

  datatype Result<+T, +E> = Ok(value: T) | Err(error: E) {
    predicate IsFailure() {
      Err?
    }

    function PropagateFailure<U>(): Result<U, E>
      requires Err?
    {
      Err(error)
    }

    function Extract(): T
      requires Ok?
    {
      value
    }
  }
}
